=== FILE: README.md ===
# Pablo the Garden: a Dafny model of the site's logic

This project models the logic at the centre of the Pablo the Garden festival
website, a Next.js site. Every piece is a pure Dafny function over immutable
data. The pieces are:

- **Content loading.** The loader reads artists, blog posts, tickets,
  sponsors, the FAQ and the gallery from content files. Each loader falls
  back to a default when a file is missing. Artists are sorted by their
  `order` field and posts newest first.
- **Two markdown converters.**
  - The site-wide `markdownToHtml`: a line scanner producing headings, rules,
    ordered and bulleted lists and paragraphs, with inline formatting.
  - The blog's own converter: escaping, regex passes for headings and
    emphasis, and a walk over the lines that wraps `- ` items in `<ul>`.
- **Helpers.** The "new" badge window, locale mapping, localized strings and
  the sitemap.
- **Client components, each as state plus transitions:**
  - the artist grid with its mystery cards;
  - the three lineup phases on the home and lineup pages;
  - the gallery filter and the lightbox;
  - the ticket selector dialog, the release banner, the floating ticket
    button and the ticket card;
  - the contact form;
  - the countdown;
  - the FAQ accordion;
  - the navigation links;
  - the blog card's reading-time estimate.

The modules follow the source layout:

| Area | Modules |
|---|---|
| Shared | `Wrappers` (Option), `Text` (trim, split, join, digits), `Seqs` (filter), `Sorting` (stable sort by key) |
| `src/lib/types.ts` | `Types` |
| `src/lib/utils.ts` | `Utils` |
| `src/lib/content.ts` | `Content` |
| `src/app/sitemap.ts` | `Sitemap` |
| `src/lib/markdown.ts` | `Passes` (regex replacement passes), `PassFacts`, `Inline`, `Markdown` |
| `BlogPostContent.tsx` | `BlogMarkdown` |
| Components | `Lineup`, `Gallery`, `Tickets`, `ContactForm`, `Countdown`, `Faq`, `Navigation`, `PostCard` |

**Inputs.** Effects become parameters:

- A directory listing is an `Option<seq<string>>`. `None` means the directory
  is missing.
- A file's parsed front matter and body come from a `read` function.
- Date parsing is a `parseDate: string -> Option<int>` function. `None` stands
  for JavaScript's `NaN`.
- The clock is a `now` argument in milliseconds.
- A network request's outcome is an input.

**Regular expressions.** Each regex the source applies is written out as a
recognizer over `seq<char>`. A global replacement is a left-to-right scan that
resumes after each match, which is how `String.prototype.replace` with the
`g` flag behaves.

**Safety and escaping properties.** The phrase "every `<` begins a tag" below
means `Protected(s, '<', tags)`: each `<` in the output begins one of the
listed tags. Combined with the escaping, this says that no markup from the
input survives as markup.

## Model

| member | source | states |
|---|---|---|
| Inline.EscapeHtml | src/lib/markdown.ts:11-17 | The escaped text holds no `<`, `>` or `"`, and every `&` in it begins one of the four entities |
| Inline.EscapeAsChars | src/lib/markdown.ts:11-17 | The four chained global replacements, `&` first, equal escaping each character independently |
| Inline.UnescapeEscape | src/lib/markdown.ts:11-17 | Escaping loses nothing: decoding the four entities gives back the original text |
| Inline.EscapePlain | src/lib/markdown.ts:11-17 | Text without `&`, `<`, `>` or `"` is left unchanged by escaping |
| Inline.PlainInline | src/lib/markdown.ts:19-40 | Text with none of the markup characters `*`, `_`, backquote or `[` comes out of `processInline` merely escaped |
| Inline.ProcessInlineProtected | src/lib/markdown.ts:19-40 | After the inline passes, every `<` begins one of the inserted tags and every `&` begins an entity |
| PassFacts.ApplyPassesProtected | src/lib/markdown.ts:23-37 | A chain of replacement passes, each inserting only listed words, keeps "every lead character begins a listed word" |
| PassFacts.ApplyPassesUnchanged | src/lib/markdown.ts:23-37 | Passes whose opening characters do not occur in the text leave it unchanged |
| Markdown.TrimLines | src/lib/markdown.ts:46-52 | Each line the scanner inspects is the trimmed line, one per line of the input |
| Markdown.HrLine | src/lib/markdown.ts:61 | A line of `n` copies of `c` is a horizontal rule iff `n >= 3` and `c` is `-`, `*` or `_` |
| Markdown.HeadingMatch | src/lib/markdown.ts:68 | A match is 1 to 6 `#`, at least one white-space character, then non-empty single-line text, which is the captured text |
| Markdown.HeadingMatchComplete | src/lib/markdown.ts:68-72 | Every line of that shape matches, with that level and that text |
| Markdown.BulletItemText | src/lib/markdown.ts:90-93 | `- x` or `* x` with any white-space run is a bulleted item whose text is `x` |
| Markdown.NumberedItemText | src/lib/markdown.ts:78-81 | Digits, a dot, white space and `x` make a numbered item whose text is `x` |
| Markdown.RunEnd | src/lib/markdown.ts:80-84 | A list or paragraph run takes every following line that qualifies and stops at the first that does not |
| Markdown.Step | src/lib/markdown.ts:50-119 | One loop iteration: a blank line is skipped; a rule line is one `<hr />`; a heading line is one heading with the level and text the match captured; a numbered or bulleted item starts one list of its kind that takes the whole maximal run of such items; any other line starts one paragraph over the maximal run of paragraph lines. It advances unless the rule is the as-written one and the line starts with `#` without being a heading |
| Markdown.ListStep | src/lib/markdown.ts:77-99 | An item line starts one list of its kind over the maximal run of items of that kind that follows |
| Markdown.ParagraphStep | src/lib/markdown.ts:101-118 | A paragraph line starts one paragraph over the maximal run of paragraph lines; any other line yields nothing and the scan stays put |
| Markdown.EmptyDocument | src/lib/markdown.ts:45-58 | The empty document converts to the empty string |
| Markdown.OneLineRule | src/lib/markdown.ts:60-65 | A one-line document that is a rule converts to `<hr />` |
| Markdown.OneLineHeading | src/lib/markdown.ts:67-75 | The one-line document `k` hashes, white space and `x` converts to `<hk>`, the inline-processed `x`, and `</hk>` |
| Markdown.ListDocument | src/lib/markdown.ts:77-99 | With the correction, a document whose lines are all items of one kind converts to `<ol>` or `<ul>` around one `<li>` per line, each holding that line's inline-processed item text, in order |
| Markdown.StuckStalls | src/lib/markdown.ts:102-118 | As written, on a line that starts with `#` but is no heading, the iteration emits nothing and does not advance; the corrected rule advances |
| Markdown.HashtagStuck | src/lib/markdown.ts:106 | The line `#tag` is such a line |
| Markdown.BareHashStuck | src/lib/markdown.ts:68-106 | So is a lone `#` |
| Markdown.DeepHeadingStuck | src/lib/markdown.ts:68-106 | So is a line of seven `#` and text |
| Markdown.BlocksAgree | src/lib/markdown.ts:50-119 | On input without such lines, the as-written and corrected scanners produce the same blocks |
| Markdown.MarkdownAgrees | src/lib/markdown.ts:45-122 | Hence on such input the corrected converter returns exactly what the source returns |
| Markdown.StepParagraph | src/lib/markdown.ts:101-118 | A paragraph line starts a paragraph that runs to the end of the paragraph run |
| Markdown.ParagraphDocument | src/lib/markdown.ts:101-121 | With the correction, a document of trimmed paragraph lines converts to one `<p>` around the inline-processed lines joined with single spaces |
| Markdown.TwoLineParagraph | src/lib/markdown.ts:101-121 | With the correction, two paragraph lines `s` and `t` convert to `<p>` around the inline-processed `s + " " + t` |
| Markdown.OneLineParagraph | src/lib/markdown.ts:101-121 | With the correction, a single plain line becomes `<p>` around its inline-processed text |
| Markdown.PlainParagraph | src/lib/markdown.ts:101-121 | With the correction, a single line with no markup or special characters becomes `<p>` around itself |
| Markdown.HashtagParagraph | src/lib/markdown.ts:101-118 | With the correction, `#tag` becomes the paragraph `<p>#tag</p>` |
| Markdown.HeadingTags | src/lib/markdown.ts:70-72 | The heading tags `<hN>` and `</hN>` for levels 1 to 6 are among the document's tags |
| Markdown.RenderSafe | src/lib/markdown.ts:62-117 | Every rendered block (rule, heading, list or paragraph) has each `<` beginning a known tag |
| Markdown.DocumentSafe | src/lib/markdown.ts:45-122 | With the correction, in the whole converted document every `<` begins a tag the converter inserted; no markup of the input survives |
| BlogMarkdown.BlogEscape | src/components/blog/BlogPostContent.tsx:24-27 | The escaped text holds no `<` or `>`, keeps `"`, and every `&` begins one of three entities |
| BlogMarkdown.BlogEscapeAsChars | src/components/blog/BlogPostContent.tsx:24-27 | The three chained global replacements equal escaping each character independently |
| BlogMarkdown.UnescapeBlogEscape | src/components/blog/BlogPostContent.tsx:24-27 | Decoding the entities gives back the original text |
| BlogMarkdown.FormattedProtected | src/components/blog/BlogPostContent.tsx:24-42 | After escaping and the heading, emphasis and link passes, every `<` begins one of the inserted tags |
| BlogMarkdown.LineStartOneLine | src/components/blog/BlogPostContent.tsx:30-32 | On one line, a `^prefix(.+)$` multiline pass wraps the rest of the line iff the line starts with the prefix and has more after it |
| BlogMarkdown.HeadingThree | src/components/blog/BlogPostContent.tsx:30 | `### x` becomes `<h3>x</h3>` |
| BlogMarkdown.HeadingTwo | src/components/blog/BlogPostContent.tsx:31 | `## x` becomes `<h2>x</h2>` |
| BlogMarkdown.HeadingOne | src/components/blog/BlogPostContent.tsx:32 | `# x` becomes `<h1>x</h1>` |
| BlogMarkdown.DeepHeadingKept | src/components/blog/BlogPostContent.tsx:30-32 | A line starting with four `#` is left untouched by the heading passes |
| BlogMarkdown.LineOut | src/components/blog/BlogPostContent.tsx:63-76 | A non-item line becomes blank iff it is all white space; it is kept raw only if its trimmed form starts with a block tag; otherwise it becomes `<p>` around the non-empty trimmed line |
| BlogMarkdown.Group | src/components/blog/BlogPostContent.tsx:45-82 | The walk's output is properly nested: `<ul>` and `</ul>` alternate, items only inside, and the list is closed at the end |
| BlogMarkdown.GroupContents | src/components/blog/BlogPostContent.tsx:45-82 | With the list tags set aside, output `k` is what line `k` becomes (its item for a `- ` line, its own output otherwise), so nothing moves past another line |
| BlogMarkdown.NestedDetermined | src/components/blog/BlogPostContent.tsx:45-82 | Where `<ul>` and `</ul>` go is forced: two properly nested outputs with the same items and lines are equal |
| BlogMarkdown.GroupDetermined | src/components/blog/BlogPostContent.tsx:45-82 | The walk's output is the only properly nested one holding one output per line in line order: a list opens exactly at the first `- ` line of each run and closes right after its last |
| BlogMarkdown.SeparateRuns | src/components/blog/BlogPostContent.tsx:50-64 | Two `- ` lines with another line between them make two separate lists around that line's output |
| BlogMarkdown.NestedBalanced | src/components/blog/BlogPostContent.tsx:45-82 | Nested output has as many `</ul>` as `<ul>`, with one more `</ul>` if a list was already open |
| BlogMarkdown.GroupItems | src/components/blog/BlogPostContent.tsx:50-56 | The list items emitted are the item texts of the `- ` lines, in order |
| BlogMarkdown.GroupBodies | src/components/blog/BlogPostContent.tsx:57-76 | The other emitted lines are the per-line results for the remaining lines, in order |
| BlogMarkdown.GroupListRun | src/components/blog/BlogPostContent.tsx:50-82 | Inside an open list, a run of item lines yields its items and then the closing `</ul>` |
| BlogMarkdown.DropEmptyParas | src/components/blog/BlogPostContent.tsx:85-86 | No `<p></p>` remains, and a list without one is kept as it is |
| BlogMarkdown.BlogFilterKeepsAll | src/components/blog/BlogPostContent.tsx:84-87 | The walk never produces `<p></p>`, so the final filter removes nothing |
| BlogMarkdown.BlogListsBalanced | src/components/blog/BlogPostContent.tsx:45-82 | For any post, the emitted `<ul>` and `</ul>` balance and nest |
| BlogMarkdown.BlockStartIsHeading | src/components/blog/BlogPostContent.tsx:67-73 | After formatting, a line whose trimmed form starts with a block tag can only be a heading line |
| BlogMarkdown.BlogRawLinesAreHeadings | src/components/blog/BlogPostContent.tsx:67-73 | For any post, every line passed through unwrapped is a heading |
| Types.StatusVocabularies | src/lib/types.ts:40-60 | Tickets and releases share `sold_out` and `coming_soon`; `available` is a ticket status only and `active` a release status only |
| Types.ReleaseList | src/lib/types.ts:65-72 | The releases in their key order: early bird, promo, regular |
| Types.TicketList | src/lib/types.ts:55-59 | The tickets of a release in key order: full pass, day 1, day 2 |
| Utils.IsNewlyRevealed | src/lib/utils.ts:11-27 | The badge shows iff the reveal date parses, is not in the future, and lies at most `newBadgeDays` days back |
| Utils.DaysWithin | src/lib/utils.ts:23-26 | Comparing elapsed milliseconds divided by a day against the day count is the same as comparing against days times a day's milliseconds |
| Utils.RevealedNowIsNew | src/lib/utils.ts:19-26 | An artist revealed this instant is new iff the window is not negative |
| Utils.FutureRevealNotNew | src/lib/utils.ts:19-21 | An artist revealed in the future is never new |
| Utils.NegativeWindowNeverNew | src/lib/utils.ts:23-26 | A negative window never shows the badge |
| Utils.BadgeBoundary | src/lib/utils.ts:23-26 | The badge shows at exactly the window's end and is gone one millisecond later |
| Utils.ResolveLocale | src/lib/utils.ts:40-45 | `it` maps to `it-IT`, `en` to `en-US`, and any other code passes through (codes naming inherited object properties are not modelled; see Left out) |
| Utils.ResolveLocaleFixed | src/lib/utils.ts:40-45 | A code maps to itself iff it is neither `it` nor `en` (inherited object property names aside, as for ResolveLocale) |
| Utils.LocalizedString | src/lib/utils.ts:58-64 | The result is one of the two translations |
| Utils.LocalizedChoice | src/lib/utils.ts:58-64 | When the translations differ, the English one is chosen iff the locale is exactly `en` |
| Seqs.FilterMembers | src/components/lineup/ArtistGrid.tsx:22-28 | An element survives a filter iff it was present and satisfies the predicate |
| Seqs.FilterOrder | src/components/lineup/ArtistGrid.tsx:22-28 | The kept elements appear in the order they had in the input: each comes from a position of the input, and those positions strictly increase |
| Seqs.FilterFilter | src/components/lineup/ArtistGrid.tsx:22-28 | Filtering twice is filtering once by the conjunction |
| Seqs.FilterPartition | src/components/lineup/ArtistGrid.tsx:25-28 | Two complementary filters split a sequence's length between them |
| Sorting.Sort | src/lib/content.ts:118 | Sorting is a permutation of its input |
| Sorting.SortBySorted | src/lib/content.ts:118 | Sorting by a key leaves no element before one with a smaller key |
| Sorting.SortByStable | src/lib/content.ts:118 | Sorting is stable: elements with equal keys keep their input order |
| Sorting.SortAgrees | src/lib/content.ts:213-215 | Two comparators that agree on all pairs of the input sort it identically |
| Content.BaseName | src/lib/content.ts:101 | The base name is the file name with the extension removed, or the whole name when it does not end with it |
| Content.BaseNameOfStem | src/lib/content.ts:199 | Removing the extension from stem plus extension gives back the stem |
| Content.ListFiles | src/lib/content.ts:51-60 | A missing directory lists nothing; otherwise exactly the entries ending with the extension |
| Content.LineupConfigOrDefault | src/lib/content.ts:69-84 | The file's configuration when present; else `coming_soon`, 0 slots, a 7-day badge window and empty messages |
| Content.SocialOf | src/lib/content.ts:110-114 | Each social link is the front-matter value or the empty string |
| Content.MakeArtist | src/lib/content.ts:99-115 | Slug defaults to the base name, day to 1 and order to 0; revealed only when front matter says `true`; the bio is the trimmed body unless it is blank, then the front-matter bio; name, time, genre, photo and reveal date are the front matter's or empty, and each social link is the front matter's or empty |
| Content.BareArtist | src/lib/content.ts:99-115 | A file with no front matter and a blank body gives the all-default artist whose slug is the file's stem |
| Content.MakeArtistValid | src/lib/content.ts:102 | A loaded artist has day 1 or 2 iff the front matter gives no day or one of those two |
| Content.LoadArtists | src/lib/content.ts:95-116 | One artist per listed file, in file order, each built from that file |
| Content.GetLineup | src/lib/content.ts:91-119 | The lineup is a permutation of the loaded artists |
| Content.GetLineupOrdered | src/lib/content.ts:118 | The lineup is ordered by `order`, and artists with equal `order` keep file order |
| Content.TicketsOrDefault | src/lib/content.ts:128-171 | The file's ticket configuration when present; else one with no active release |
| Content.DefaultTicketsComingSoon | src/lib/content.ts:132-167 | The default configuration is valid, every release and ticket is coming soon, and every price is 0 EUR |
| Content.OrEmpty | src/lib/content.ts:180-183 | A file's list or text when present, and the empty list or text when it is missing; `getRules`, `getAbout`, `getFaq` and `getGallery` (lines 249-290) fall back the same way |
| Content.MakePost | src/lib/content.ts:201-210 | A post carries the locale, slug and body given; title, date, excerpt, image and tags are the front matter's or empty |
| Content.LoadPosts | src/lib/content.ts:196-211 | One post per listed file, in order, with the file's base name as slug |
| Content.GetBlogPost | src/lib/content.ts:221-239 | No post iff the file is missing or empty; otherwise the post has the requested slug and locale and the parsed body |
| Content.GetBlogPosts | src/lib/content.ts:192-216 | The posts are a permutation of those loaded from the locale's directory |
| Content.BlogPostSlugs | src/lib/content.ts:197-208 | Every post returned has the requested locale and a slug that is the base name of a listed `.mdx` file |
| Content.NewestKeyAgrees | src/lib/content.ts:213-215 | With parsable dates the comparator orders as the descending-time key does |
| Content.BlogPostsNewestFirst | src/lib/content.ts:213-215 | With parsable dates the posts are newest first, and posts with the same date keep file order |
| Sitemap.StaticPriority | src/app/sitemap.ts:26 | Priority is 1 for the home page, 0.9 for lineup and tickets, and 0.8 otherwise |
| Sitemap.StaticEntry | src/app/sitemap.ts:22-27 | A static entry's URL is base, slash, locale, page; it is weekly and stamped with generation time |
| Sitemap.StaticEntriesOf | src/app/sitemap.ts:21-28 | A locale's static entries: one per page, in page order |
| Sitemap.BlogEntry | src/app/sitemap.ts:33-38 | A post's URL is base, locale, `/blog/`, slug; it is monthly, priority 0.7, stamped with the post date |
| Sitemap.SitemapLayout | src/app/sitemap.ts:4-42 | 16 static entries, Italian first and page-major within a locale, then Italian posts, then English posts, in loader order |
| Sitemap.HomeUrls | src/app/sitemap.ts:23 | The home pages are `https://pablothegarden.com/it` and `/en`, with no trailing slash |
| Sitemap.StaticUrlsDistinct | src/app/sitemap.ts:5-28 | The 16 static URLs are pairwise distinct |
| Lineup.ArrayOfLength | src/components/lineup/ArtistGrid.tsx:47-51 | An array of length `n` has `n` copies, or none for a negative `n` |
| Lineup.ArtistCards | src/components/lineup/ArtistGrid.tsx:36-45 | One card per shown artist, in order, badged iff newly revealed |
| Lineup.CountMysteryArray | src/components/lineup/ArtistGrid.tsx:47-51 | The mystery array holds `n` mystery cards, or none for a negative `n` |
| Lineup.GridShape | src/components/lineup/ArtistGrid.tsx:14-54 | The grid shows the filtered artists' cards first. Without a day filter and before completion it adds max(0, slots minus all revealed) mystery cards; otherwise none |
| Lineup.ShownMembers | src/components/lineup/ArtistGrid.tsx:22-28 | An artist is shown iff it is in the list, revealed, and on the filtered day when a day is chosen |
| Lineup.ShownOnDay | src/components/lineup/ArtistGrid.tsx:22-28 | The day view filters revealed-and-on-that-day in one pass, in list order |
| Lineup.DaysSplitRevealed | src/components/lineup/ArtistGrid.tsx:22-28 | With every artist on day 1 or 2, the two day views together hold as many artists as the all-days view |
| Lineup.PreviewRevealingCounts | src/components/home/LineupPreview.tsx:76-108 | Revealing preview: all revealed artists and max(0, min(remaining, 6 minus revealed)) mystery cards; a message with the remaining count iff slots remain |
| Lineup.PreviewHeadliners | src/components/home/LineupPreview.tsx:112-134 | Complete preview: the first six revealed artists, in order |
| Lineup.PreviewPhaseViews | src/components/home/LineupPreview.tsx:152-158 | Each known phase renders its own view, and an unknown phase renders nothing |
| Lineup.PageFallsBackToComingSoon | src/components/lineup/LineupPhaseManager.tsx:211-220 | An unknown phase renders exactly as `coming_soon`, with between 0 and 8 teaser cards |
| Lineup.RevealingPageAgrees | src/components/lineup/LineupPhaseManager.tsx:113-156 | The revealing page's slot message appears iff its grid has mystery cards, and gives their number |
| Lineup.CompletePageGrid | src/components/lineup/LineupPhaseManager.tsx:158-205 | The complete page shows the chosen day's revealed artists and no mystery cards |
| Gallery.Stamped | src/components/gallery/GalleryGrid.tsx:30-33 | An edition's images, each stamped with the edition's year |
| Gallery.FindEdition | src/components/gallery/GalleryGrid.tsx:40-41 | Finds an edition of the year, or none iff no edition has that year |
| Gallery.FlattenSize | src/components/gallery/GalleryGrid.tsx:30-33 | Flattening keeps every image: the count is the sum over editions |
| Gallery.FlattenStamped | src/components/gallery/GalleryGrid.tsx:30-33 | Every flattened image is some edition's image stamped with that edition's year |
| Gallery.AllYearsImages | src/components/gallery/GalleryGrid.tsx:28-37 | All years: every image of every edition, newest edition first, ascending `order` within an edition, and images with equal edition and `order` in their original order (the sort is stable) |
| Gallery.YearImages | src/components/gallery/GalleryGrid.tsx:39-45 | One year: that edition's images stamped with the year and by ascending `order`, images of equal `order` in their original order, or none without such an edition |
| Gallery.NavigationInverse | src/components/gallery/GalleryGrid.tsx:57-67 | Previous and next stay in range with wrap-around and undo each other |
| Gallery.NextCycle | src/components/gallery/GalleryGrid.tsx:63-67 | Pressing next as many times as there are images returns to the start |
| Gallery.HandleKey | src/components/gallery/Lightbox.tsx:27-44 | Keys are ignored while the lightbox is closed; while it is open, Escape closes it on the same image, ArrowLeft goes to the previous image, ArrowRight to the next, and any other key changes nothing |
| Gallery.ArrowsModular | src/components/gallery/GalleryGrid.tsx:57-67 | On an image of the list, ArrowLeft moves to index `(i + n - 1) mod n` and ArrowRight to `(i + 1) mod n` |
| Gallery.ArrowsUndo | src/components/gallery/Lightbox.tsx:27-44 | On an image of the list, ArrowRight then ArrowLeft, or ArrowLeft then ArrowRight, returns to the same state |
| Gallery.Showing | src/components/gallery/Lightbox.tsx:59-63 | An image shows iff the lightbox is open and the index is in range, and it is the image at the index |
| Gallery.KeysKeepShowing | src/components/gallery/Lightbox.tsx:27-44 | From a shown image, only Escape closes, and otherwise an image stays shown with a counter within 1 and the total |
| Gallery.SingleImageArrows | src/components/gallery/Lightbox.tsx:108-134 | With one image the buttons are disabled and the arrow keys change nothing |
| Tickets.ActiveRelease | src/components/tickets/TicketSelectorModal.tsx:116-117 | The active release is found iff its name is one of the three release keys |
| Tickets.TicketButton | src/components/tickets/TicketSelectorModal.tsx:15-75 | A ticket gets a purchase link to its URL iff it is neither sold out nor coming soon |
| Tickets.SelectorPriority | src/components/tickets/TicketSelectorModal.tsx:119-231 | The dialog shows the sold-out message iff all releases are sold out. Otherwise it shows the coming-soon message iff there is no active name or all are coming soon. Otherwise it shows the active release's three tickets in order, or nothing for an unknown name |
| Tickets.SoldOutWins | src/components/tickets/TicketSelectorModal.tsx:204-210 | With all releases sold out the active name is irrelevant |
| Tickets.MixedReleasesOfferTickets | src/components/tickets/TicketSelectorModal.tsx:216-230 | An active promo after a sold-out early bird offers the promo's tickets |
| Tickets.StepStateOf | src/components/tickets/ReleaseBanner.tsx:16-24 | A step is completed iff sold out and active iff active |
| Tickets.Steps | src/components/tickets/ReleaseBanner.tsx:14-24 | Three steps, one per release, in release order |
| Tickets.FindIndex | src/components/tickets/ReleaseBanner.tsx:57-59 | The first position of the state, or -1 iff absent |
| Tickets.CountState | src/components/tickets/ReleaseBanner.tsx:60-63 | The count reaches the length iff every step has the state |
| Tickets.ProgressCases | src/components/tickets/ReleaseBanner.tsx:56-69 | The bar is full when all are sold out, empty when none is active, else at the first active step's position |
| Tickets.StepLabels | src/components/tickets/ReleaseBanner.tsx:142-146 | A step's label is the release status, with `active` shown as `available` |
| Tickets.FloatingInit | src/components/layout/FloatingTicketCTA.tsx:18-72 | The button is disabled and reads `sold_out` iff all releases are sold out, else reads `buy_now`; the dialog starts closed |
| Tickets.FloatingClickOpens | src/components/layout/FloatingTicketCTA.tsx:36-79 | A click opens the dialog iff the button is enabled; closing shuts it; the button itself is unchanged |
| Tickets.FloatingDialogNotSoldOut | src/components/layout/FloatingTicketCTA.tsx:36-37 | A dialog opened by the button never shows the sold-out message |
| Tickets.Includes | src/components/tickets/TicketCard.tsx:22-27 | Full pass lists three inclusions and a day ticket two, starting with entry and ending with the drink card; both days iff full pass |
| Tickets.CardCta | src/components/tickets/TicketCard.tsx:127-151 | The card has a buy link to the ticket's URL iff the ticket is available |
| Tickets.ExactlyOneFlag | src/components/tickets/TicketCard.tsx:18-20 | At most one status flag holds, and one does iff the status is a declared ticket status |
| Tickets.CardMatchesDialog | src/components/tickets/TicketCard.tsx:127-151 | For declared ticket statuses the card and the dialog agree on buy and sold out |
| Tickets.UndeclaredStatusDiverges | src/components/tickets/TicketCard.tsx:127-151 | For a ticket marked `active`, the dialog offers a link while the card shows coming soon |
| ContactForm.EmailValidIsPattern | src/components/contact/ContactForm.tsx:38-41 | Validation split at the first `@` accepts exactly what the e-mail pattern matches |
| ContactForm.Validate | src/components/contact/ContactForm.tsx:31-53 | Name and message fail iff blank, type iff unchosen, e-mail iff its trimmed form does not match the pattern |
| ContactForm.EmptyEmailRejected | src/components/contact/ContactForm.tsx:38-40 | The pattern never matches the empty string |
| ContactForm.RequestTypesValid | src/components/contact/ContactForm.tsx:17-45 | Each listed request type passes and the empty choice fails |
| ContactForm.EmptyFormErrors | src/components/contact/ContactForm.tsx:31-53 | The cleared form fails on all four required fields |
| ContactForm.CompanyIrrelevant | src/components/contact/ContactForm.tsx:31-53 | The company field never affects validation |
| ContactForm.Submit | src/components/contact/ContactForm.tsx:55-72 | Invalid: errors shown and nothing sent. Valid: the form is submitting with no errors and sends the trimmed payload |
| ContactForm.PayloadWellFormed | src/components/contact/ContactForm.tsx:55-72 | Any payload sent has a non-empty name and message, a matching e-mail and a request type |
| ContactForm.Respond | src/components/contact/ContactForm.tsx:73-88 | Success iff the response is OK, which clears the fields; otherwise the form fails and keeps its fields |
| ContactForm.SuccessRoundTrip | src/components/contact/ContactForm.tsx:92-115 | Submit, OK and dismissing the success view return to the initial form |
| ContactForm.RetryResends | src/components/contact/ContactForm.tsx:83-88 | After a failed request the form can be resubmitted and sends the same payload |
| ContactForm.NoDoubleSubmit | src/components/contact/ContactForm.tsx:286 | While submitting the submit button is disabled |
| ContactForm.Edit | src/components/contact/ContactForm.tsx:148-151 | Editing a field clears its error and keeps every other error and the state |
| ContactForm.EditKeepsOtherVerdicts | src/components/contact/ContactForm.tsx:148-267 | Editing one field leaves every other field's validation verdict as it was |
| Countdown.CalculateTimeLeft | src/components/home/Countdown.tsx:16-30 | No time left iff now is at or after the festival; otherwise hours below 24 and minutes and seconds below 60 |
| Countdown.TimeLeftRecomposes | src/components/home/Countdown.tsx:24-29 | The four units add back up to the whole seconds left |
| Countdown.MixedRadix | src/components/home/Countdown.tsx:25-28 | Days, hours mod 24, minutes mod 60 and seconds mod 60 recompose any second count |
| Countdown.CountsDown | src/components/home/Countdown.tsx:16-30 | As time passes the count never goes up |
| Countdown.Pad2 | src/components/home/Countdown.tsx:42 | At least two decimal digits denoting the number; exactly two below 100; no padding from 10 up |
| Countdown.Render | src/components/home/Countdown.tsx:68-118 | Before mounting all units read `00`; once mounted, the expired view iff no time is left |
| Countdown.TimerDigits | src/components/home/Countdown.tsx:98-118 | Before the festival the timer shows exactly two digits for hours, minutes and seconds, and at least two for days |
| Countdown.ExpiresAtStart | src/components/home/Countdown.tsx:16-22 | At the festival's start the view is expired; one millisecond before it reads all zeros |
| Faq.Toggle | src/components/tickets/FAQ.tsx:84-89 | After a toggle, at most the toggled item is open |
| Faq.Render | src/components/tickets/FAQ.tsx:91-116 | Nothing for an empty list. Otherwise one item per question, expanded and answered iff it is the open one |
| Faq.ToggleFlips | src/components/tickets/FAQ.tsx:84-89 | Toggling opens the item iff it was closed, and closes every other item |
| Faq.ToggleTwice | src/components/tickets/FAQ.tsx:84-89 | Toggling the same item twice from closed or from itself restores the state |
| Faq.AtMostOneAnswer | src/components/tickets/FAQ.tsx:61-112 | At most one answer is visible at a time |
| Navigation.IsActive | src/components/layout/Navigation.tsx:30-35 | Home is active only on `/`; any other link is active iff the path starts with its href |
| Navigation.Links | src/components/layout/Navigation.tsx:43-55 | One link per item, in order, current iff active |
| Navigation.ActiveBelow | src/components/layout/Navigation.tsx:34 | A link is active on its own page and every path below it |
| Navigation.HomeOnlyOnHome | src/components/layout/Navigation.tsx:31-33 | Home is not active on any other path |
| Navigation.PrefixNotSegment | src/components/layout/Navigation.tsx:34 | The test is a string prefix, so `/blog` is active on `/blogroll` |
| Navigation.HeaderOneCurrent | src/components/layout/Header.tsx:18-24 | Among the header's links at most one is current on any path |
| PostCard.SplitOnSpaceRuns | src/components/blog/PostCard.tsx:24 | Splitting on white-space runs gives at least one piece and no piece holds white space |
| PostCard.SplitRebuilds | src/components/blog/PostCard.tsx:24 | The cuts are exactly the maximal white-space runs: there is one piece more than runs, and the pieces with the runs put back between them give the text |
| PostCard.SplitKeepsText | src/components/blog/PostCard.tsx:24 | The pieces put together are the text without its white space |
| PostCard.WordCount | src/components/blog/PostCard.tsx:24 | The word count is one more than the number of white-space runs inside the trimmed content, so at least one |
| PostCard.WordsAreWords | src/components/blog/PostCard.tsx:24 | For non-blank content every counted word is non-empty |
| PostCard.BlankIsOneWord | src/components/blog/PostCard.tsx:24 | Blank content counts as one word |
| PostCard.ReadingTime | src/components/blog/PostCard.tsx:22-26 | At least one minute, and the least whole number of minutes covering the words at 200 a minute |
| PostCard.ReadingTimeLeast | src/components/blog/PostCard.tsx:25 | No smaller number of minutes covers the words |
| PostCard.ReadingTimeBoundary | src/components/blog/PostCard.tsx:25 | Up to 200 words read in one minute; 201 words take two |
| PostCard.CardLocale | src/components/blog/PostCard.tsx:15 | `it` gives `it-IT`, anything else `en-US` |
| PostCard.CardLocaleAgrees | src/components/blog/PostCard.tsx:13-20 | The card's mapping agrees with the site's date helper exactly on `it`, `en` and `en-US` |

## Left out

- File system, `gray-matter` and JSON parsing: directory listings, file contents and parsed front matter are parameters. A read that throws is not modelled.
- Date parsing and the clock: `new Date(...)` is a `parseDate` parameter, `Date.now()` a `now` parameter. `toLocaleDateString` formatting is platform code and not modelled; only the locale choice is.
- `fetch` in the contact form: the request's outcome is an input to `ContactForm.Respond`.
- React rendering, effects, timers (`setInterval`), animations, CSS, scroll locking and focus handling: components are modelled as their state and transitions plus what they render.
- Translation lookup: the captions such as `sold_out` and `buy_now` are message keys; the translated text is not modelled.
- Ticket prices and `toFixed` formatting: floating point is not modelled.
- Utils.IsNewlyRevealed: compares exact integers, where the source divides as floating point; `Utils.DaysWithin` proves the two agree on exact arithmetic, and rounding is not modelled.
- Countdown.CalculateTimeLeft: uses integer division, where the source floors a floating-point quotient; for the positive differences it is applied to, the two agree up to floating-point rounding, which is not modelled.
- Utils.ResolveLocale: the lookup is modelled as a map holding only `it` and `en`; a code naming an inherited object property such as `toString`, `constructor` or `__proto__` reaches that property on the source's plain object and does not come back unchanged, which is not modelled. Utils.ResolveLocaleFixed shares this gap.
- Tickets.ActiveRelease: only the three release keys are found; names that reach inherited object properties such as `toString` are not modelled. `Object.values` is taken to list exactly the three declared releases in declaration order.
- Tickets.ProgressCases: states the bar's position as a step count from 0 to 2, not as the CSS width strings.
- Content.BlogPostsNewestFirst: requires every date to parse. With an unparsable date the comparator returns `NaN` and is inconsistent, so the engine's order is unspecified. The model's sort is still a permutation, but no order is claimed.
- Content.GetLineup: sorts by `order` as an integer; a non-numeric `order` in front matter is not modelled.
- Markdown.MarkdownToHtmlAsWritten: requires that no trimmed line starts with `#` without being a heading, because on such a line the source loops forever (see Findings).
- Sorting: the engine's sort algorithm is not modelled. The model is a stable insertion sort, and stability plus sortedness fix its result for a consistent comparator.
- The lightbox keeps its index when the gallery filter changes; the model keeps it too, and `Gallery.Showing` covers an index out of range by showing nothing.
- The ticket dialog's Escape key and overlay click close it like the close button; only `Tickets.FloatingClose` is modelled.
- Components that only present data (cards, banners, timelines, share buttons, the language switcher and the pages) are not part of this model.
- Strings are sequences of characters; UTF-16 surrogate pairs and Unicode white space beyond the characters `Text.IsSpace` lists are not modelled.

## Findings

| source | as written | input that shows it | evidently intended | confidence | as-written member | corrected member |
|---|---|---|---|---|---|---|
| src/lib/markdown.ts:102-118 | A trimmed line that starts with `#` but is no heading is not a rule, list item or heading. The paragraph loop also refuses it, so `paragraphLines` stays empty and `i` never advances: the outer loop runs forever | `#tag` (also `#` alone, or `####### Deep`) | Such a line is paragraph text: the paragraph loop should stop only at real headings, so `#tag` renders as `<p>#tag</p>` | high; not executed | Markdown.StuckStalls | Markdown.HashtagParagraph |

=== FILE: blog_markdown.dfy ===
/** The blog page's own markdown converter, independent of the site-wide one.
    It escapes `&`, `<` and `>` (but not `"`), rewrites `#`, `##` and `###`
    headings, bold, italic and links over the whole text, and then walks the
    lines: consecutive `- ` lines become one `<ul>` list, every other
    non-blank line its own `<p>`, and lines that already start with a block
    tag pass through. */
module BlogMarkdown {
  import opened Text
  import opened Wrappers
  import opened Passes
  import opened PassFacts
  import opened Inline

  // ---------------------------------------------------------------------------
  // Escaping
  // ---------------------------------------------------------------------------

  /** The entities the blog escape writes. */
  const BlogEntities: seq<string> := ["&amp;", "&lt;", "&gt;"]

  /** What one input character becomes: `"` is not escaped. */
  function BlogEntity(c: char): (r: string)
    ensures '<' !in r && '>' !in r
    ensures '"' in r <==> c == '"'
  {
    if c == '&' then "&amp;"
    else if c == '<' then "&lt;"
    else if c == '>' then "&gt;"
    else [c]
  }

  /** The escape as a character-by-character translation. */
  function BlogEscapeChars(t: string): (r: string)
    ensures '<' !in r && '>' !in r
    ensures '"' in r <==> '"' in t
  {
    if t == [] then []
    else
      assert t == [t[0]] + t[1..];
      BlogEntity(t[0]) + BlogEscapeChars(t[1..])
  }

  /** The three replacements in source order, `&` first. The result holds no
      `<` or `>`, keeps every `"`, and each `&` in it begins an entity. */
  function BlogEscape(t: string): (r: string)
    ensures '<' !in r && '>' !in r
    ensures '"' in r <==> '"' in t
    ensures Protected(r, '&', BlogEntities)
  {
    BlogEscapeAsChars(t);
    BlogEscapeCharsProtected(t);
    ReplaceChar(ReplaceChar(ReplaceChar(t, '&', "&amp;"), '<', "&lt;"), '>', "&gt;")
  }

  lemma BlogEntityAsReplacements(c: char)
    ensures ReplaceChar(ReplaceChar(ReplaceChar([c], '&', "&amp;"), '<', "&lt;"), '>', "&gt;") == BlogEntity(c)
  {
    ReplaceOne(c, '&', "&amp;");
    if c == '&' {
      assert '<' !in "&amp;" && '>' !in "&amp;";
    } else {
      ReplaceOne(c, '<', "&lt;");
      if c == '<' {
        assert '>' !in "&lt;";
      } else {
        ReplaceOne(c, '>', "&gt;");
      }
    }
  }

  /** The three sequential replacements translate each character on its own. */
  lemma {:induction false} BlogEscapeAsChars(t: string)
    ensures ReplaceChar(ReplaceChar(ReplaceChar(t, '&', "&amp;"), '<', "&lt;"), '>', "&gt;") == BlogEscapeChars(t)
  {
    if t != [] {
      var c := t[0];
      assert t == [c] + t[1..];
      ReplaceCharConcat([c], t[1..], '&', "&amp;");
      var h1 := ReplaceChar([c], '&', "&amp;");
      var t1 := ReplaceChar(t[1..], '&', "&amp;");
      ReplaceCharConcat(h1, t1, '<', "&lt;");
      var h2 := ReplaceChar(h1, '<', "&lt;");
      var t2 := ReplaceChar(t1, '<', "&lt;");
      ReplaceCharConcat(h2, t2, '>', "&gt;");
      assert ReplaceChar(h2, '>', "&gt;") == BlogEntity(c) by { BlogEntityAsReplacements(c); }
      BlogEscapeAsChars(t[1..]);
    }
  }

  lemma {:induction false} BlogEscapeCharsProtected(t: string)
    ensures Protected(BlogEscapeChars(t), '&', BlogEntities)
  {
    if t != [] {
      var c := t[0];
      assert Protected(BlogEntity(c), '&', BlogEntities) by {
        assert WordsLed(BlogEntities, '&');
        if c == '&' {
          WordIsProtected(BlogEntities, 0, '&');
        } else if c == '<' {
          WordIsProtected(BlogEntities, 1, '&');
        } else if c == '>' {
          WordIsProtected(BlogEntities, 2, '&');
        } else {
          NoLeadProtected(BlogEntity(c), '&', BlogEntities);
        }
      }
      BlogEscapeCharsProtected(t[1..]);
      ConcatProtected(BlogEntity(c), BlogEscapeChars(t[1..]), '&', BlogEntities);
    }
  }

  /** The site-wide decoder also inverts the blog escape: a `"` left as it is
      decodes to itself. */
  lemma {:induction false} UnescapeBlogEscape(t: string)
    ensures Unescape(BlogEscape(t)) == t
  {
    BlogEscapeAsChars(t);
    UnescapeBlogChars(t);
  }

  lemma {:induction false} UnescapeBlogChars(t: string)
    ensures Unescape(BlogEscapeChars(t)) == t
  {
    if t != [] {
      var c := t[0];
      var rest := BlogEscapeChars(t[1..]);
      var s := BlogEntity(c) + rest;
      assert BlogEscapeChars(t) == s;
      UnescapeBlogChars(t[1..]);
      if c == '&' {
        assert s[..5] == "&amp;" && s[5..] == rest;
      } else if c == '<' {
        assert s[1] == 'l';
        NotPrefix(s, "&amp;", 1);
        assert s[..4] == "&lt;" && s[4..] == rest;
      } else if c == '>' {
        assert s[1] == 'g';
        NotPrefix(s, "&amp;", 1);
        NotPrefix(s, "&lt;", 1);
        assert s[..4] == "&gt;" && s[4..] == rest;
      } else {
        assert s[0] == c;
        NotPrefix(s, "&amp;", 0);
        NotPrefix(s, "&lt;", 0);
        NotPrefix(s, "&gt;", 0);
        NotPrefix(s, "&quot;", 0);
        assert s[1..] == rest;
      }
      assert t == [c] + t[1..];
    }
  }

  // ---------------------------------------------------------------------------
  // Whole-text passes
  // ---------------------------------------------------------------------------

  /** `/^### (.+)$/gm`, then `##`, then `#`: the deepest heading first. */
  const HeadingPasses: seq<Pattern> := [
    LineStart("### ", "<h3>", "</h3>"),
    LineStart("## ", "<h2>", "</h2>"),
    LineStart("# ", "<h1>", "</h1>")
  ]

  /** Bold `**text**`, italic `*text*`, and links `[text](url)` whose text
      holds no `]` and whose url holds no `)`. */
  const EmphasisPasses: seq<Pattern> := [
    Lazy("**", "**", "<strong>", "</strong>", false),
    Lazy("*", "*", "<em>", "</em>", false),
    ClassLink
  ]

  lemma BlogPassesValid()
    ensures AllValid(HeadingPasses) && AllValid(EmphasisPasses)
  {
  }

  /** The text after escaping and every replace-all pass. */
  function Formatted(md: string): string {
    BlogPassesValid();
    ApplyPasses(EmphasisPasses, ApplyPasses(HeadingPasses, BlogEscape(md)))
  }

  /** The tags the passes insert that begin with `<`. */
  const BlogTags: seq<string> :=
    ["<h1>", "</h1>", "<h2>", "</h2>", "<h3>", "</h3>", "<strong>", "</strong>", "<em>", "</em>", AnchorOpen, AnchorClose]

  /** The characters after the `<` of those tags. */
  const BlogTagAlphabet: set<char> :=
    {'h', '1', '2', '3', '>', '/', 's', 't', 'r', 'o', 'n', 'g', 'e', 'm', 'a', ' ', 'f', '=', '"'}

  lemma BlogTagsOver()
    ensures WordsOver(BlogTags, '<', BlogTagAlphabet)
  {
  }

  lemma BlogTagsProtected()
    ensures forall k :: 0 <= k < |BlogTags| ==> Protected(BlogTags[k], '<', BlogTags)
  {
    BlogTagsOver();
    OverLed(BlogTags, '<', BlogTagAlphabet);
    forall k | 0 <= k < |BlogTags|
      ensures Protected(BlogTags[k], '<', BlogTags)
    {
      WordIsProtected(BlogTags, k, '<');
    }
  }

  /** The characters the blog passes start a match with or end a group at. */
  const BlogDelimiters: set<char> := {'#', '*', '[', ']', ')'}

  lemma BlogPassFits(p: Pattern)
    requires ValidPattern(p) && Opener(p) in BlogDelimiters && GroupEnds(p) <= BlogDelimiters
    ensures WordsFit(BlogTags, '<', BlogTagAlphabet, p)
  {
    BlogTagsOver();
  }

  lemma PassesFit(passes: seq<Pattern>)
    requires passes == HeadingPasses || passes == EmphasisPasses
    ensures AllValid(passes)
    ensures forall k :: 0 <= k < |passes| ==> WordsFit(BlogTags, '<', BlogTagAlphabet, passes[k])
    ensures forall k :: 0 <= k < |passes| ==> InsertsProtected(passes[k], '<', BlogTags)
  {
    assert AllValid(passes);
    forall k | 0 <= k < |passes|
      ensures WordsFit(BlogTags, '<', BlogTagAlphabet, passes[k])
    {
      BlogPassFits(passes[k]);
    }
    PassesInsertTags(passes);
  }

  lemma PassesInsertTags(passes: seq<Pattern>)
    requires passes == HeadingPasses || passes == EmphasisPasses
    ensures forall k :: 0 <= k < |passes| ==> InsertsProtected(passes[k], '<', BlogTags)
  {
    BlogTagsProtected();
    NoLeadProtected(AnchorMid, '<', BlogTags);
    assert Protected(BlogTags[0], '<', BlogTags) && Protected(BlogTags[1], '<', BlogTags);
    assert Protected(BlogTags[2], '<', BlogTags) && Protected(BlogTags[3], '<', BlogTags);
    assert Protected(BlogTags[4], '<', BlogTags) && Protected(BlogTags[5], '<', BlogTags);
    assert Protected(BlogTags[6], '<', BlogTags) && Protected(BlogTags[7], '<', BlogTags);
    assert Protected(BlogTags[8], '<', BlogTags) && Protected(BlogTags[9], '<', BlogTags);
    assert Protected(BlogTags[10], '<', BlogTags) && Protected(BlogTags[11], '<', BlogTags);
  }

  /** Escaping comes before every pass, so each `<` of the formatted text
      begins a tag the converter wrote. */
  lemma FormattedProtected(md: string)
    ensures Protected(Formatted(md), '<', BlogTags)
  {
    var e := BlogEscape(md);
    NoLeadProtected(e, '<', BlogTags);
    PassesFit(HeadingPasses);
    PassesFit(EmphasisPasses);
    ApplyPassesProtected(HeadingPasses, e, '<', BlogTags, BlogTagAlphabet);
    ApplyPassesProtected(EmphasisPasses, ApplyPasses(HeadingPasses, e), '<', BlogTags, BlogTagAlphabet);
  }

  /** On text without a line break a line-start pass can only match at the
      very start, and then it takes the whole rest of the text. */
  lemma LineStartOneLine(prefix: string, before: string, after: string, s: string)
    requires |prefix| > 0 && NoTerminator(s)
    ensures ReplaceAll(LineStart(prefix, before, after), s)
         == if StartsWith(s, prefix) && |prefix| < |s| then before + s[|prefix|..] + after else s
  {
    var pat := LineStart(prefix, before, after);
    var hs := Hits(pat, s);
    forall i | 0 < i < |s|
      ensures hs[i].None?
    {
      assert hs[i] == MatchLineStart(prefix, before, after, s, i);
    }
    if |s| > 0 {
      assert hs[0] == MatchLineStart(prefix, before, after, s, 0);
      if StartsWith(s, prefix) && |prefix| < |s| {
        assert PrefixAt(s, 0, prefix) by { assert s[0..|prefix|] == s[..|prefix|]; }
        var e := LineEnd(s, |prefix|);
        assert e == |s|;
        assert s[|prefix|..e] == s[|prefix|..];
        var out := before + s[|prefix|..] + after;
        assert hs[0] == Some(Hit(|s|, out));
        assert Scan(s, hs, 0) == out + Scan(s, hs, |s|);
      } else {
        assert !PrefixAt(s, 0, prefix) || LineEnd(s, |prefix|) == |prefix| by {
          if PrefixAt(s, 0, prefix) { assert s[0..|prefix|] == s[..|prefix|]; }
        }
        CopyRun(s, hs, 0, |s|);
        assert s[0..|s|] == s;
      }
    }
  }

  lemma ThreePasses(passes: seq<Pattern>, s: string)
    requires AllValid(passes) && |passes| == 3
    ensures ApplyPasses(passes, s) == ReplaceAll(passes[2], ReplaceAll(passes[1], ReplaceAll(passes[0], s)))
  {
    var s1 := ReplaceAll(passes[0], s);
    var s2 := ReplaceAll(passes[1], s1);
    var s3 := ReplaceAll(passes[2], s2);
    var p1 := passes[1..];
    var p2 := p1[1..];
    assert p1[0] == passes[1] && p2[0] == passes[2] && p2[1..] == [];
    assert ApplyPasses(p2, s2) == ApplyPasses(p2[1..], s3) == s3;
    assert ApplyPasses(p1, s1) == ApplyPasses(p2, s2);
    assert ApplyPasses(passes, s) == ApplyPasses(p1, s1);
  }

  /** Text built from pieces without a line terminator has none. */
  lemma NoTerminatorWrap(a: string, x: string, b: string)
    requires NoTerminator(a) && NoTerminator(x) && NoTerminator(b)
    ensures NoTerminator(a + x + b)
  {
    var s := a + x + b;
    forall i | 0 <= i < |s|
      ensures !IsLineTerminator(s[i])
    {
      if i < |a| {
        assert s[i] == a[i];
      } else if i < |a| + |x| {
        assert s[i] == x[i - |a|];
      } else {
        assert s[i] == b[i - |a| - |x|];
      }
    }
  }

  /** A line-start pass wraps the rest of a line that starts with its prefix. */
  lemma WrapsLine(prefix: string, before: string, after: string, x: string)
    requires |prefix| > 0 && x != [] && NoTerminator(prefix) && NoTerminator(x)
    ensures ReplaceAll(LineStart(prefix, before, after), prefix + x) == before + x + after
  {
    var s := prefix + x;
    NoTerminatorWrap(prefix, x, "");
    assert s == prefix + x + "";
    assert s[..|prefix|] == prefix;
    assert s[|prefix|..] == x;
    LineStartOneLine(prefix, before, after, s);
  }

  /** A line-start pass leaves a line alone that differs from its prefix at `i`. */
  lemma SkipsLine(prefix: string, before: string, after: string, s: string, i: nat)
    requires |prefix| > 0 && NoTerminator(s)
    requires i < |prefix| && (i >= |s| || s[i] != prefix[i])
    ensures ReplaceAll(LineStart(prefix, before, after), s) == s
  {
    NotPrefix(s, prefix, i);
    LineStartOneLine(prefix, before, after, s);
  }

  /** The heading passes one after the other, deepest first. */
  lemma HeadingChain(s: string)
    ensures ApplyPasses(HeadingPasses, s)
         == ReplaceAll(H1, ReplaceAll(H2, ReplaceAll(H3, s)))
  {
    BlogPassesValid();
    ThreePasses(HeadingPasses, s);
  }

  const H3: Pattern := LineStart("### ", "<h3>", "</h3>")
  const H2: Pattern := LineStart("## ", "<h2>", "</h2>")
  const H1: Pattern := LineStart("# ", "<h1>", "</h1>")

  /** `### x` becomes an `<h3>`: the `###` pass runs before the shorter ones,
      which then find no `#` at the start of the line. */
  lemma HeadingThree(x: string)
    requires x != [] && NoTerminator(x)
    ensures ApplyPasses(HeadingPasses, "### " + x) == "<h3>" + x + "</h3>"
  {
    HeadingChain("### " + x);
    ThreeWrapped(x);
  }

  /** `## x` becomes an `<h2>`. */
  lemma HeadingTwo(x: string)
    requires x != [] && NoTerminator(x)
    ensures ApplyPasses(HeadingPasses, "## " + x) == "<h2>" + x + "</h2>"
  {
    HeadingChain("## " + x);
    TwoHashesKept(x);
    TwoWrapped(x);
  }

  /** `# x` becomes an `<h1>`. */
  lemma HeadingOne(x: string)
    requires x != [] && NoTerminator(x)
    ensures ApplyPasses(HeadingPasses, "# " + x) == "<h1>" + x + "</h1>"
  {
    HeadingChain("# " + x);
    OneHashKept(x);
    WrapsLine("# ", "<h1>", "</h1>", x);
  }

  /** Four or more `#` make no heading at all. */
  lemma DeepHeadingKept(x: string)
    requires NoTerminator(x)
    ensures ApplyPasses(HeadingPasses, "####" + x) == "####" + x
  {
    HeadingChain("####" + x);
    FourHashesKept(x);
  }

  /** The `###` pass wraps a `###` line, and the later passes keep the result. */
  lemma ThreeWrapped(x: string)
    requires x != [] && NoTerminator(x)
    ensures ReplaceAll(H3, "### " + x) == "<h3>" + x + "</h3>"
    ensures ReplaceAll(H2, "<h3>" + x + "</h3>") == "<h3>" + x + "</h3>"
    ensures ReplaceAll(H1, "<h3>" + x + "</h3>") == "<h3>" + x + "</h3>"
  {
    WrapsLine("### ", "<h3>", "</h3>", x);
    TagLineKept("<h3>", x, "</h3>");
  }

  /** The `##` pass wraps a `##` line, and the `#` pass keeps the result. */
  lemma TwoWrapped(x: string)
    requires x != [] && NoTerminator(x)
    ensures ReplaceAll(H2, "## " + x) == "<h2>" + x + "</h2>"
    ensures ReplaceAll(H1, "<h2>" + x + "</h2>") == "<h2>" + x + "</h2>"
  {
    WrapsLine("## ", "<h2>", "</h2>", x);
    TagLineKept("<h2>", x, "</h2>");
  }

  /** A line that starts with a tag is left alone by the shorter heading passes. */
  lemma TagLineKept(t: string, x: string, u: string)
    requires |t| > 0 && t[0] == '<' && NoTerminator(t) && NoTerminator(x) && NoTerminator(u)
    ensures ReplaceAll(H2, t + x + u) == t + x + u
    ensures ReplaceAll(H1, t + x + u) == t + x + u
  {
    var s := t + x + u;
    NoTerminatorWrap(t, x, u);
    assert s[0] == '<';
    SkipsLine("## ", "<h2>", "</h2>", s, 0);
    SkipsLine("# ", "<h1>", "</h1>", s, 0);
  }

  /** The `###` pass leaves a `##` line alone. */
  lemma TwoHashesKept(x: string)
    requires NoTerminator(x)
    ensures ReplaceAll(H3, "## " + x) == "## " + x
  {
    var s := "## " + x;
    NoTerminatorWrap("## ", x, "");
    assert s == "## " + x + "";
    SkipsLine("### ", "<h3>", "</h3>", s, 2);
  }

  /** The `###` and `##` passes leave a `#` line alone. */
  lemma OneHashKept(x: string)
    requires NoTerminator(x)
    ensures ReplaceAll(H3, "# " + x) == "# " + x
    ensures ReplaceAll(H2, "# " + x) == "# " + x
  {
    var s := "# " + x;
    NoTerminatorWrap("# ", x, "");
    assert s == "# " + x + "";
    SkipsLine("### ", "<h3>", "</h3>", s, 1);
    SkipsLine("## ", "<h2>", "</h2>", s, 1);
  }

  /** No heading pass touches a line of four `#`. */
  lemma FourHashesKept(x: string)
    requires NoTerminator(x)
    ensures ReplaceAll(H3, "####" + x) == "####" + x
    ensures ReplaceAll(H2, "####" + x) == "####" + x
    ensures ReplaceAll(H1, "####" + x) == "####" + x
  {
    var s := "####" + x;
    NoTerminatorWrap("####", x, "");
    assert s == "####" + x + "";
    SkipsLine("### ", "<h3>", "</h3>", s, 3);
    SkipsLine("## ", "<h2>", "</h2>", s, 2);
    SkipsLine("# ", "<h1>", "</h1>", s, 1);
  }

  // ---------------------------------------------------------------------------
  // The line walk
  // ---------------------------------------------------------------------------

  /** What the walk pushes: the list tags, a list item, a line passed
      through, a paragraph, or an empty line. */
  datatype Out = Open | Close | Item(text: string) | Raw(line: string) | Para(text: string) | Blank

  predicate IsBody(o: Out) {
    o.Raw? || o.Para? || o.Blank?
  }

  function Render(o: Out): string {
    match o
    case Open => "<ul>"
    case Close => "</ul>"
    case Item(x) => "<li>" + x + "</li>"
    case Raw(line) => line
    case Para(x) => "<p>" + x + "</p>"
    case Blank => ""
  }

  /** `line.match(/^- (.+)$/)`: without the m flag `$` is the end of the
      line, and `.` crosses no line terminator. */
  predicate IsListLine(line: string) {
    |line| > 2 && line[0] == '-' && line[1] == ' ' && NoTerminator(line[2..])
  }

  /** A trimmed line the walk takes to be a block tag already. */
  predicate IsBlockStart(t: string) {
    StartsWith(t, "<h") || StartsWith(t, "<ul") || StartsWith(t, "</ul") || StartsWith(t, "<li")
  }

  /** What a line that is not a list line becomes. */
  function LineOut(line: string): (o: Out)
    ensures IsBody(o)
    ensures o.Blank? <==> AllSpace(line)
    ensures o.Raw? ==> o.line == line && IsBlockStart(Trim(line))
    ensures o.Para? ==> o.text == Trim(line) && o.text != [] && !IsBlockStart(o.text)
  {
    var t := Trim(line);
    if t == "" then Blank else if IsBlockStart(t) then Raw(line) else Para(t)
  }

  /** The list tags are well nested: `<ul>` only outside a list and always
      followed by an item, items only inside, `</ul>` only inside and
      followed by the end or by a line outside any list, and nothing left
      open at the end. */
  predicate Nested(os: seq<Out>, open: bool)
    decreases |os|
  {
    if os == [] then !open
    else match os[0]
      case Open => !open && |os| > 1 && os[1].Item? && Nested(os[1..], true)
      case Close => open && (|os| == 1 || IsBody(os[1])) && Nested(os[1..], false)
      case Item(_) => open && Nested(os[1..], true)
      case _ => !open && Nested(os[1..], false)
  }

  /** What one turn of the loop pushes for `line`. */
  function Turn(line: string, inList: bool): seq<Out> {
    if IsListLine(line) then (if inList then [] else [Open]) + [Item(line[2..])]
    else (if inList then [Close] else []) + [LineOut(line)]
  }

  /** The loop over the lines, `inList` being the flag of the same name,
      with the list closed at the end. */
  function Group(lines: seq<string>, inList: bool): (r: seq<Out>)
    ensures Nested(r, inList)
    decreases |lines|
  {
    if lines == [] then (if inList then [Close] else [])
    else
      var rest := Group(lines[1..], IsListLine(lines[0]));
      TurnNested(lines[0], inList, rest);
      Turn(lines[0], inList) + rest
  }

  /** One turn keeps the pushed sequence nested, given that the rest is
      nested from the flag the turn leaves behind. */
  lemma TurnNested(line: string, inList: bool, rest: seq<Out>)
    requires Nested(rest, IsListLine(line))
    ensures Nested(Turn(line, inList) + rest, inList)
  {
    if IsListLine(line) {
      ItemTurnNested(line[2..], inList, rest);
    } else {
      BodyTurnNested(LineOut(line), inList, rest);
    }
  }

  lemma ItemTurnNested(x: string, inList: bool, rest: seq<Out>)
    requires Nested(rest, true)
    ensures Nested((if inList then [] else [Open]) + [Item(x)] + rest, inList)
  {
    var item := [Item(x)] + rest;
    assert item[0].Item? && item[1..] == rest;
    if !inList {
      var r := [Open] + [Item(x)] + rest;
      assert r == [Open] + item && r[1..] == item;
    } else {
      assert [] + [Item(x)] + rest == item;
    }
  }

  lemma BodyTurnNested(o: Out, inList: bool, rest: seq<Out>)
    requires IsBody(o) && Nested(rest, false)
    ensures Nested((if inList then [Close] else []) + [o] + rest, inList)
  {
    var body := [o] + rest;
    assert body[0] == o && body[1..] == rest;
    if inList {
      var r := [Close] + [o] + rest;
      assert r == [Close] + body && r[1..] == body;
    } else {
      assert [] + [o] + rest == body;
    }
  }

  function CountOf(os: seq<Out>, x: Out): nat
    decreases |os|
  {
    if os == [] then 0 else (if os[0] == x then 1 else 0) + CountOf(os[1..], x)
  }

  /** Every `<ul>` is matched by exactly one `</ul>`. */
  lemma {:induction false} NestedBalanced(os: seq<Out>, open: bool)
    requires Nested(os, open)
    ensures CountOf(os, Open) + (if open then 1 else 0) == CountOf(os, Close)
    decreases |os|
  {
    if os != [] {
      match os[0]
      case Open => NestedBalanced(os[1..], true);
      case Close => NestedBalanced(os[1..], false);
      case Item(_) => NestedBalanced(os[1..], true);
      case _ => NestedBalanced(os[1..], false);
    }
  }

  /** The texts of the items, in order. */
  function ItemTexts(os: seq<Out>): seq<string>
    decreases |os|
  {
    if os == [] then [] else (if os[0].Item? then [os[0].text] else []) + ItemTexts(os[1..])
  }

  /** The `- ` lines with their marker removed, in order. */
  function ListTexts(lines: seq<string>): seq<string>
    decreases |lines|
  {
    if lines == [] then []
    else (if IsListLine(lines[0]) then [lines[0][2..]] else []) + ListTexts(lines[1..])
  }

  /** The lines outside lists, in order. */
  function Bodies(os: seq<Out>): seq<Out>
    decreases |os|
  {
    if os == [] then [] else (if IsBody(os[0]) then [os[0]] else []) + Bodies(os[1..])
  }

  /** What each line that is not a list line becomes, in order. */
  function LineOuts(lines: seq<string>): seq<Out>
    decreases |lines|
  {
    if lines == [] then []
    else (if IsListLine(lines[0]) then [] else [LineOut(lines[0])]) + LineOuts(lines[1..])
  }

  lemma {:induction false} ItemTextsConcat(a: seq<Out>, b: seq<Out>)
    ensures ItemTexts(a + b) == ItemTexts(a) + ItemTexts(b)
    decreases |a|
  {
    if |a| == 0 {
      assert a + b == b;
    } else {
      var h := if a[0].Item? then [a[0].text] else [];
      calc {
        ItemTexts(a + b);
      == { assert (a + b)[0] == a[0] && (a + b)[1..] == a[1..] + b; }
        h + ItemTexts(a[1..] + b);
      == { ItemTextsConcat(a[1..], b); }
        h + (ItemTexts(a[1..]) + ItemTexts(b));
      ==
        (h + ItemTexts(a[1..])) + ItemTexts(b);
      }
    }
  }

  lemma {:induction false} BodiesConcat(a: seq<Out>, b: seq<Out>)
    ensures Bodies(a + b) == Bodies(a) + Bodies(b)
    decreases |a|
  {
    if |a| == 0 {
      assert a + b == b;
    } else {
      var h := if IsBody(a[0]) then [a[0]] else [];
      calc {
        Bodies(a + b);
      == { assert (a + b)[0] == a[0] && (a + b)[1..] == a[1..] + b; }
        h + Bodies(a[1..] + b);
      == { BodiesConcat(a[1..], b); }
        h + (Bodies(a[1..]) + Bodies(b));
      ==
        (h + Bodies(a[1..])) + Bodies(b);
      }
    }
  }

  lemma TurnParts(line: string, inList: bool)
    ensures ItemTexts(Turn(line, inList)) == if IsListLine(line) then [line[2..]] else []
    ensures Bodies(Turn(line, inList)) == if IsListLine(line) then [] else [LineOut(line)]
  {
    if IsListLine(line) {
      var x := [Item(line[2..])];
      assert ItemTexts(x) == [line[2..]] && Bodies(x) == [];
      ItemTextsConcat(if inList then [] else [Open], x);
      BodiesConcat(if inList then [] else [Open], x);
    } else {
      var x := [LineOut(line)];
      assert ItemTexts(x) == [] && Bodies(x) == x;
      ItemTextsConcat(if inList then [Close] else [], x);
      BodiesConcat(if inList then [Close] else [], x);
    }
  }

  /** Each `- item` line yields exactly one item holding its text, in order. */
  lemma {:induction false} GroupItems(lines: seq<string>, inList: bool)
    ensures ItemTexts(Group(lines, inList)) == ListTexts(lines)
    decreases |lines|
  {
    if lines != [] {
      GroupItems(lines[1..], IsListLine(lines[0]));
      TurnParts(lines[0], inList);
      ItemTextsConcat(Turn(lines[0], inList), Group(lines[1..], IsListLine(lines[0])));
    } else {
      assert ItemTexts([Close]) == [];
    }
  }

  /** Each other line yields exactly one output line of its own, in order:
      a blank, a passed-through line, or one paragraph (lines are never
      joined). */
  lemma {:induction false} GroupBodies(lines: seq<string>, inList: bool)
    ensures Bodies(Group(lines, inList)) == LineOuts(lines)
    decreases |lines|
  {
    if lines != [] {
      GroupBodies(lines[1..], IsListLine(lines[0]));
      TurnParts(lines[0], inList);
      BodiesConcat(Turn(lines[0], inList), Group(lines[1..], IsListLine(lines[0])));
    } else {
      assert Bodies([Close]) == [];
    }
  }

  /** A run of list lines inside an open list continues it and closes it at
      the end: consecutive `- ` lines share one list. */
  lemma {:induction false} GroupListRun(lines: seq<string>)
    requires forall k :: 0 <= k < |lines| ==> IsListLine(lines[k])
    ensures Group(lines, true) == seq(|lines|, k requires 0 <= k < |lines| && IsListLine(lines[k]) => Item(lines[k][2..])) + [Close]
    decreases |lines|
  {
    if lines != [] {
      GroupListRun(lines[1..]);
    }
  }

  /** What a line stands for once the list tags are set aside: an item for a
      `- ` line, its own output for any other. */
  function LineResult(line: string): Out {
    if IsListLine(line) then Item(line[2..]) else LineOut(line)
  }

  /** What each line stands for, in line order. */
  function LineResults(lines: seq<string>): (r: seq<Out>)
    ensures |r| == |lines|
    ensures forall k :: 0 <= k < |lines| ==> r[k] == LineResult(lines[k])
    decreases |lines|
  {
    if lines == [] then [] else [LineResult(lines[0])] + LineResults(lines[1..])
  }

  predicate IsTag(o: Out) {
    o.Open? || o.Close?
  }

  /** The outputs with the list tags removed, in order. */
  function Contents(os: seq<Out>): seq<Out>
    decreases |os|
  {
    if os == [] then [] else (if IsTag(os[0]) then [] else [os[0]]) + Contents(os[1..])
  }

  lemma {:induction false} ContentsConcat(a: seq<Out>, b: seq<Out>)
    ensures Contents(a + b) == Contents(a) + Contents(b)
    decreases |a|
  {
    if |a| == 0 {
      assert a + b == b;
    } else {
      var h := if IsTag(a[0]) then [] else [a[0]];
      calc {
        Contents(a + b);
      == { assert (a + b)[0] == a[0] && (a + b)[1..] == a[1..] + b; }
        h + Contents(a[1..] + b);
      == { ContentsConcat(a[1..], b); }
        h + (Contents(a[1..]) + Contents(b));
      ==
        (h + Contents(a[1..])) + Contents(b);
      }
    }
  }

  lemma TurnContents(line: string, inList: bool)
    ensures Contents(Turn(line, inList)) == [LineResult(line)]
  {
    var o := LineResult(line);
    assert Contents([o]) == [o];
    if IsListLine(line) {
      ContentsConcat(if inList then [] else [Open], [o]);
    } else {
      ContentsConcat(if inList then [Close] else [], [o]);
    }
  }

  /** Line by line: with the list tags set aside, output `k` is what line `k`
      stands for, so no output moves past another line's. */
  lemma {:induction false} GroupContents(lines: seq<string>, inList: bool)
    ensures Contents(Group(lines, inList)) == LineResults(lines)
    decreases |lines|
  {
    if lines == [] {
      assert Contents([Close]) == [];
    } else {
      var rest := Group(lines[1..], IsListLine(lines[0]));
      GroupContents(lines[1..], IsListLine(lines[0]));
      TurnContents(lines[0], inList);
      ContentsConcat(Turn(lines[0], inList), rest);
    }
  }

  /** Nesting decides where the list tags go: two well-nested outputs with
      the same contents are equal. */
  lemma {:induction false} NestedDetermined(a: seq<Out>, b: seq<Out>, open: bool)
    requires Nested(a, open) && Nested(b, open) && Contents(a) == Contents(b)
    ensures a == b
    decreases |a| + |b|
  {
    if a != [] {
      NestedEmpty(a, open);
    }
    if b != [] {
      NestedEmpty(b, open);
    }
    if a == [] {
      assert b == [];
    } else {
      assert b != [];
      if IsTag(a[0]) {
        TagFirst(a, b, open);
      }
      if IsTag(b[0]) {
        TagFirst(b, a, open);
      }
      ContentsHead(a);
      ContentsHead(b);
      assert a[0] == b[0] && Contents(a[1..]) == Contents(b[1..]);
      NestedDetermined(a[1..], b[1..], a[0].Open? || a[0].Item?);
      SameHeadTail(a, b);
    }
  }

  lemma SameHeadTail(a: seq<Out>, b: seq<Out>)
    requires a != [] && b != [] && a[0] == b[0] && a[1..] == b[1..]
    ensures a == b
  {
    assert a == [a[0]] + a[1..] && b == [b[0]] + b[1..];
  }

  /** Nested output with nothing but tags from a closed start is empty. */
  lemma NestedEmpty(os: seq<Out>, open: bool)
    requires os != [] && Nested(os, open)
    ensures Contents(os) != [] || open
  {
    if !open && os[0].Open? {
      assert Contents(os) == Contents(os[1..]) == [os[1]] + Contents(os[2..]);
    }
  }

  /** A tag at the head of a nested output is at the head of any other with
      the same contents. */
  lemma TagFirst(a: seq<Out>, b: seq<Out>, open: bool)
    requires Nested(a, open) && Nested(b, open) && Contents(a) == Contents(b)
    requires a != [] && IsTag(a[0])
    ensures b != [] && b[0] == a[0]
  {
    ContentsHead(a);
    ContentsHead(b);
    if a[0].Open? {
      // An item comes first in the contents, and only `<ul>` can lead to one from outside a list.
      ContentsHead(a[1..]);
      assert Contents(a)[0].Item?;
    } else {
      // The contents are empty or start with a line outside the list, and
      // only `</ul>` can lead there from inside one.
      if |a| > 1 {
        ContentsHead(a[1..]);
      } else {
        assert a[1..] == [];
      }
      assert Contents(a) == [] || IsBody(Contents(a)[0]);
    }
  }

  /** The contents begin with the head unless it is a tag, and go on with the
      contents of the tail. */
  lemma ContentsHead(os: seq<Out>)
    requires os != []
    ensures IsTag(os[0]) ==> Contents(os) == Contents(os[1..])
    ensures !IsTag(os[0]) ==> Contents(os) != [] && Contents(os)[0] == os[0] && Contents(os)[1..] == Contents(os[1..])
  {
  }

  /** The walk's output is the only well-nested sequence that, tags set aside,
      holds one output per line in line order. */
  lemma GroupDetermined(lines: seq<string>, inList: bool, os: seq<Out>)
    requires Nested(os, inList)
    requires Contents(os) == LineResults(lines)
    ensures os == Group(lines, inList)
  {
    GroupContents(lines, inList);
    NestedDetermined(os, Group(lines, inList), inList);
  }

  /** Two runs of `- ` lines with another line between them stay two lists. */
  lemma SeparateRuns(a: string, x: string, b: string)
    requires IsListLine(a) && !IsListLine(x) && IsListLine(b)
    ensures Group([a, x, b], false)
         == [Open, Item(a[2..]), Close, LineOut(x), Open, Item(b[2..]), Close]
  {
    BodyThenItem(x, b);
    assert [a, x, b][1..] == [x, b];
  }

  lemma BodyThenItem(x: string, b: string)
    requires !IsListLine(x) && IsListLine(b)
    ensures Group([x, b], true) == [Close, LineOut(x), Open, Item(b[2..]), Close]
  {
    assert Group([b], false) == [Open, Item(b[2..]), Close] by {
      assert [b][1..] == [];
    }
    assert [x, b][1..] == [b];
  }

  // ---------------------------------------------------------------------------
  // Output
  // ---------------------------------------------------------------------------

  const EmptyPara: string := "<p></p>"

  /** `.filter(line => line !== '<p></p>')` */
  function DropEmptyParas(ls: seq<string>): (r: seq<string>)
    ensures forall i :: 0 <= i < |r| ==> r[i] != EmptyPara
    ensures (forall i :: 0 <= i < |ls| ==> ls[i] != EmptyPara) ==> r == ls
    decreases |ls|
  {
    if ls == [] then []
    else (if ls[0] == EmptyPara then [] else [ls[0]]) + DropEmptyParas(ls[1..])
  }

  function RenderAll(os: seq<Out>): (r: seq<string>)
    ensures |r| == |os|
  {
    seq(|os|, i requires 0 <= i < |os| => Render(os[i]))
  }

  /** `markdownToHtml` of the blog page. */
  function BlogToHtml(md: string): string {
    Walk(Split(Formatted(md), '\n'))
  }

  /** The line walk, the filter and the join. */
  function Walk(lines: seq<string>): string {
    Join(DropEmptyParas(RenderAll(Group(lines, false))), "\n")
  }

  /** A line passed through is never `<p></p>`: that line trims to itself,
      and no piece of it starts with `<h`, `<ul`, `</ul` or `<li`. */
  lemma RawNotEmptyPara(line: string)
    requires IsBlockStart(Trim(line))
    ensures line != EmptyPara
  {
    EmptyParaNoBlockStart();
  }

  lemma EmptyParaNoBlockStart()
    ensures !IsBlockStart(Trim(EmptyPara))
  {
    assert Trim(EmptyPara) == EmptyPara by {
      TrimOfTrimmed(EmptyPara);
    }
    NotPrefix(EmptyPara, "<h", 1);
    NotPrefix(EmptyPara, "<ul", 1);
    NotPrefix(EmptyPara, "</ul", 1);
    NotPrefix(EmptyPara, "<li", 1);
  }

  lemma TurnNoEmptyPara(line: string, inList: bool)
    ensures forall i :: 0 <= i < |Turn(line, inList)| ==> Render(Turn(line, inList)[i]) != EmptyPara
  {
    if IsListLine(line) {
      assert Render(Item(line[2..]))[1] == 'l';
    } else {
      var o := LineOut(line);
      if o.Raw? {
        RawNotEmptyPara(line);
      }
      assert o.Para? ==> |Render(o)| > |EmptyPara|;
    }
  }

  lemma {:induction false} GroupNoEmptyPara(lines: seq<string>, inList: bool)
    ensures forall i :: 0 <= i < |Group(lines, inList)| ==> Render(Group(lines, inList)[i]) != EmptyPara
    decreases |lines|
  {
    if lines != [] {
      var t := Turn(lines[0], inList);
      var rest := Group(lines[1..], IsListLine(lines[0]));
      GroupNoEmptyPara(lines[1..], IsListLine(lines[0]));
      TurnNoEmptyPara(lines[0], inList);
      var r := Group(lines, inList);
      assert r == t + rest;
      forall i | 0 <= i < |r|
        ensures Render(r[i]) != EmptyPara
      {
        if i >= |t| {
          assert r[i] == rest[i - |t|];
        }
      }
    }
  }

  /** No paragraph the walk writes is empty, so the final filter drops
      nothing. */
  lemma BlogFilterKeepsAll(md: string)
    ensures BlogToHtml(md) == Join(RenderAll(Group(Split(Formatted(md), '\n'), false)), "\n")
  {
    WalkKeepsAll(Split(Formatted(md), '\n'));
  }

  lemma WalkKeepsAll(lines: seq<string>)
    ensures Walk(lines) == Join(RenderAll(Group(lines, false)), "\n")
  {
    var os := Group(lines, false);
    GroupNoEmptyPara(lines, false);
    assert forall i :: 0 <= i < |RenderAll(os)| ==> RenderAll(os)[i] == Render(os[i]);
  }

  /** Every `<ul>` the converter writes is closed, also when the text ends
      inside a list, and each item lies inside one. */
  lemma BlogListsBalanced(md: string)
    ensures var os := Group(Split(Formatted(md), '\n'), false);
      Nested(os, false) && CountOf(os, Open) == CountOf(os, Close)
  {
    NestedBalanced(Group(Split(Formatted(md), '\n'), false), false);
  }

  // ---------------------------------------------------------------------------
  // Lines passed through
  // ---------------------------------------------------------------------------

  predicate HeadingOpen(t: string) {
    StartsWith(t, "<h1>") || StartsWith(t, "<h2>") || StartsWith(t, "<h3>")
  }

  /** In a line whose every `<` begins a tag the passes wrote, a trimmed
      text that starts like a block tag starts with a heading tag: the
      `<ul`, `</ul` and `<li` tests never fire. */
  lemma BlockStartIsHeading(line: string)
    requires Protected(line, '<', BlogTags)
    requires IsBlockStart(Trim(line))
    ensures HeadingOpen(Trim(line))
  {
    var r := Trim(line);
    var a := TrimOffset(line);
    TrimAround(line);
    BlockStartLead(r);
    assert line[a] == '<' by {
      WordCharAt(line, a, r, a);
    }
    var k :| 0 <= k < |BlogTags| && PrefixAt(line, a, BlogTags[k]);
    BlogTagShapes(k);
    TagLineHeading(line, a, r, BlogTags[k]);
  }

  lemma BlockStartLead(t: string)
    requires IsBlockStart(t)
    ensures |t| >= 2 && t[0] == '<'
  {
  }

  /** Where the trimmed text of a line and a tag start at the same place, the
      tag's second to fourth characters decide: a tag that is no list tag and
      runs past the trimmed text's start makes the text a heading. */
  lemma TagLineHeading(line: string, a: nat, r: string, w: string)
    requires PrefixAt(line, a, r) && PrefixAt(line, a, w)
    requires forall i :: a + |r| <= i < |line| ==> IsSpace(line[i])
    requires IsBlockStart(r)
    requires |w| >= 4 && !IsSpace(w[3])
    requires w[1] != 'u' && w[1] != 'l' && (w[1] == '/' ==> w[2] != 'u')
    requires w[1] == 'h' ==> |w| == 4 && HeadingOpen(w)
    ensures HeadingOpen(r)
  {
    BlockStartLead(r);
    WordCharAt(line, a, r, a + 1);
    WordCharAt(line, a, w, a + 1);
    WordCharAt(line, a, w, a + 2);
    WordCharAt(line, a, w, a + 3);
    if |r| >= 3 {
      WordCharAt(line, a, r, a + 2);
    }
    assert w[1] == 'h';
    assert |r| >= 4;
    assert r[..4] == line[a..a + 4] == w;
  }

  /** The characters that tell the tags apart. */
  lemma BlogTagShapes(k: nat)
    requires k < |BlogTags|
    ensures |BlogTags[k]| >= 4 && !IsSpace(BlogTags[k][3])
    ensures BlogTags[k][1] != 'u' && BlogTags[k][1] != 'l'
    ensures BlogTags[k][1] == '/' ==> BlogTags[k][2] != 'u'
    ensures BlogTags[k][1] == 'h' ==> |BlogTags[k]| == 4 && HeadingOpen(BlogTags[k])
  {
  }

  /** A piece of a text split at a character no word holds keeps the words
      of the text whole. */
  lemma {:induction false} SplitPiecesProtected(parts: seq<string>, c: char, lead: char, words: seq<string>)
    requires Protected(Join(parts, [c]), lead, words) && NotInWords(c, words)
    ensures forall k :: 0 <= k < |parts| ==> Protected(parts[k], lead, words)
    decreases |parts|
  {
    if |parts| > 1 {
      var rest := Join(parts[1..], [c]);
      assert Join(parts, [c]) == parts[0] + [c] + rest;
      SeparatedProtected(parts[0], c, rest, lead, words);
      SplitPiecesProtected(parts[1..], c, lead, words);
      forall k | 1 <= k < |parts|
        ensures Protected(parts[k], lead, words)
      {
        assert parts[k] == parts[1..][k - 1];
      }
    }
  }

  /** Both sides of a separator no word holds keep the words of the text whole. */
  lemma SeparatedProtected(a: string, c: char, b: string, lead: char, words: seq<string>)
    requires Protected(a + [c] + b, lead, words) && NotInWords(c, words)
    ensures Protected(a, lead, words) && Protected(b, lead, words)
  {
    var s := a + [c] + b;
    var n := |a|;
    assert s[0..n] == a && s[n] == c && s[n + 1..] == b;
    assert Protected(s[0..n], lead, words) by {
      SliceProtected(s, 0, n, lead, words);
    }
    assert Protected(s[n + 1..|s|], lead, words) by {
      SliceProtected(s, n + 1, |s|, lead, words);
    }
    assert s[n + 1..|s|] == s[n + 1..];
  }

  /** After escaping, only tags the converter wrote can start with `<`, so
      every line the walk passes through unwrapped is a heading line. */
  lemma BlogRawLinesAreHeadings(md: string)
    ensures var os := Group(Split(Formatted(md), '\n'), false);
      forall i :: 0 <= i < |os| && os[i].Raw? ==> HeadingOpen(Trim(os[i].line))
  {
    var lines := Split(Formatted(md), '\n');
    FormattedLinesProtected(md, lines);
    RawLinesAreHeadings(lines);
  }

  /** Every line of the formatted text keeps the tags whole, as no tag holds a line break. */
  lemma FormattedLinesProtected(md: string, lines: seq<string>)
    requires lines == Split(Formatted(md), '\n')
    ensures forall k :: 0 <= k < |lines| ==> Protected(lines[k], '<', BlogTags)
  {
    FormattedProtected(md);
    NewlineNotInTags();
    SplitPiecesProtected(lines, '\n', '<', BlogTags);
  }

  lemma NewlineNotInTags()
    ensures NotInWords('\n', BlogTags)
  {
    BlogTagsOver();
    OverNotIn(BlogTags, '<', BlogTagAlphabet, '\n');
  }

  lemma RawLinesAreHeadings(lines: seq<string>)
    requires forall k :: 0 <= k < |lines| ==> Protected(lines[k], '<', BlogTags)
    ensures var os := Group(lines, false);
      forall i :: 0 <= i < |os| && os[i].Raw? ==> HeadingOpen(Trim(os[i].line))
  {
    var os := Group(lines, false);
    GroupBodies(lines, false);
    forall i | 0 <= i < |os| && os[i].Raw?
      ensures HeadingOpen(Trim(os[i].line))
    {
      var l := os[i].line;
      BodiesHas(os, i);
      LineOutsRaw(lines, os[i]);
      var k :| 0 <= k < |lines| && lines[k] == l;
      BlockStartIsHeading(l);
    }
  }

  lemma {:induction false} BodiesHas(os: seq<Out>, i: nat)
    requires i < |os| && IsBody(os[i])
    ensures os[i] in Bodies(os)
    decreases i
  {
    if i > 0 {
      BodiesHas(os[1..], i - 1);
    }
  }

  lemma {:induction false} LineOutsRaw(lines: seq<string>, o: Out)
    requires o in LineOuts(lines) && o.Raw?
    ensures IsBlockStart(Trim(o.line)) && o.line in lines
    decreases |lines|
  {
    if lines != [] && o != LineOut(lines[0]) {
      LineOutsRaw(lines[1..], o);
    }
  }
}

=== FILE: contact_form.dfy ===
// The contact form: field validation, the submit / response cycle and the
// rule that editing a field clears that field's error. The network request is
// left out; its outcome is an input to `Respond`.
module ContactForm {
  import opened Wrappers
  import opened Text

  const RequestTypes: seq<string> := ["sponsor", "media", "vendor", "other"]

  datatype Fields = Fields(name: string, email: string, company: string, requestType: string, message: string)

  const EmptyFields := Fields("", "", "", "", "")

  datatype FieldError = NameError | EmailError | TypeError | MessageError

  datatype FormState = Idle | Submitting | Success | Failed

  datatype Form = Form(state: FormState, fields: Fields, errors: set<FieldError>)

  const InitialForm := Form(Idle, EmptyFields, {})

  // ---------------------------------------------------------------------------
  // The e-mail pattern: one or more characters that are neither white space nor
  // '@', an '@', more such characters, a '.', and more such characters.
  // ---------------------------------------------------------------------------

  predicate PlainChar(c: char) {
    !IsSpace(c) && c != '@'
  }

  predicate Plain(s: string) {
    forall k :: 0 <= k < |s| ==> PlainChar(s[k])
  }

  /** The whole-string match of the e-mail pattern, as the pattern reads. */
  ghost predicate EmailPattern(e: string) {
    exists i, j ::
      && 0 < i && i + 1 < j && j + 1 < |e|
      && e[i] == '@' && e[j] == '.'
      && Plain(e[..i]) && Plain(e[i + 1..j]) && Plain(e[j + 1..])
  }

  /** The position of the first `c` in `s`. */
  function FirstIndex(s: string, c: char): (r: Option<nat>)
    ensures r.Some? ==> r.value < |s| && s[r.value] == c && forall k :: 0 <= k < r.value ==> s[k] != c
    ensures r.None? ==> forall k :: 0 <= k < |s| ==> s[k] != c
  {
    if |s| == 0 then None
    else if s[0] == c then Some(0)
    else match FirstIndex(s[1..], c)
      case None => None
      case Some(k) => Some(k + 1)
  }

  /** A '.' with at least one character on each side. */
  predicate InnerDot(d: string) {
    exists k :: 0 < k < |d| - 1 && d[k] == '.'
  }

  /**
   * The e-mail check, split at the first '@': a non-empty local part and a
   * domain without white space or a second '@' that has a dot inside it.
   */
  function EmailValid(e: string): bool {
    match FirstIndex(e, '@')
    case None => false
    case Some(i) => i > 0 && Plain(e[..i]) && Plain(e[i + 1..]) && InnerDot(e[i + 1..])
  }

  /** The split check accepts exactly the strings the pattern matches. */
  lemma EmailValidIsPattern(e: string)
    ensures EmailValid(e) <==> EmailPattern(e)
  {
    if EmailValid(e) {
      ValidMatches(e);
    }
    if EmailPattern(e) {
      var i, j :| && 0 < i && i + 1 < j && j + 1 < |e|
        && e[i] == '@' && e[j] == '.'
        && Plain(e[..i]) && Plain(e[i + 1..j]) && Plain(e[j + 1..]);
      MatchIsValid(e, i, j);
    }
  }

  /** A string the split check accepts matches the pattern, with the dot found in the domain. */
  lemma ValidMatches(e: string)
    requires EmailValid(e)
    ensures EmailPattern(e)
  {
    var i := FirstIndex(e, '@').value;
    var d := e[i + 1..];
    var k :| 0 < k < |d| - 1 && d[k] == '.';
    var j := i + 1 + k;
    assert e[j] == '.';
    assert Plain(e[i + 1..j]) by {
      assert e[i + 1..j] == d[..k];
    }
    assert Plain(e[j + 1..]) by {
      assert e[j + 1..] == d[k + 1..];
    }
  }

  /** A match of the pattern has its '@' first, so the split check finds it. */
  lemma MatchIsValid(e: string, i: nat, j: nat)
    requires 0 < i && i + 1 < j && j + 1 < |e|
    requires e[i] == '@' && e[j] == '.'
    requires Plain(e[..i]) && Plain(e[i + 1..j]) && Plain(e[j + 1..])
    ensures EmailValid(e)
  {
    FirstAtIs(e, i);
    var d := e[i + 1..];
    forall m | 0 <= m < |d|
      ensures PlainChar(d[m])
    {
      if i + 1 + m < j {
        assert d[m] == e[i + 1..j][m];
      } else if i + 1 + m > j {
        assert d[m] == e[j + 1..][m - (j - i)];
      }
    }
    assert d[j - i - 1] == '.';
  }

  lemma FirstAtIs(e: string, i: nat)
    requires i < |e| && e[i] == '@' && Plain(e[..i])
    ensures FirstIndex(e, '@') == Some(i)
  {
    assert forall k :: 0 <= k < i ==> e[k] == e[..i][k];
  }

  // ---------------------------------------------------------------------------
  // Validation
  // ---------------------------------------------------------------------------

  /** Whether one required field fails its check. */
  predicate Fails(f: Fields, e: FieldError) {
    match e
    case NameError => Trim(f.name) == []
    case EmailError => Trim(f.email) == [] || !EmailValid(Trim(f.email))
    case TypeError => f.requestType == ""
    case MessageError => Trim(f.message) == []
  }

  /** The fields that fail validation; the form is valid when the set is empty. */
  function Validate(f: Fields): (errs: set<FieldError>)
    ensures NameError in errs <==> AllSpace(f.name)
    ensures EmailError !in errs <==> EmailPattern(Trim(f.email))
    ensures TypeError in errs <==> f.requestType == ""
    ensures MessageError in errs <==> AllSpace(f.message)
  {
    EmailValidIsPattern(Trim(f.email));
    set e | e in {NameError, EmailError, TypeError, MessageError} && Fails(f, e)
  }

  /** A string the pattern matches is never empty, so the separate emptiness test adds nothing. */
  lemma EmptyEmailRejected()
    ensures !EmailPattern("")
  {
  }

  /** Every listed request type passes the type check; the placeholder option does not. */
  lemma RequestTypesValid(f: Fields, k: int)
    requires 0 <= k < |RequestTypes|
    ensures TypeError !in Validate(f.(requestType := RequestTypes[k]))
    ensures TypeError in Validate(f.(requestType := ""))
  {
  }

  /** The cleared form fails on all four required fields and never on the company. */
  lemma EmptyFormErrors()
    ensures Validate(EmptyFields) == {NameError, EmailError, TypeError, MessageError}
  {
    var e := Validate(EmptyFields);
    assert AllSpace(EmptyFields.name);
    assert !EmailPattern(Trim(""));
    assert e <= {NameError, EmailError, TypeError, MessageError};
  }

  /** Only the four required fields matter: the company never affects validation. */
  lemma CompanyIrrelevant(f: Fields, company: string)
    ensures Validate(f.(company := company)) == Validate(f)
  {
    forall e
      ensures e in Validate(f.(company := company)) <==> e in Validate(f)
    {
      EditKeepsOtherVerdicts(f, CompanyField, company, e);
    }
  }

  // ---------------------------------------------------------------------------
  // Submitting
  // ---------------------------------------------------------------------------

  /** The JSON body sent: every text field trimmed, the request type as chosen. */
  datatype Payload = Payload(name: string, email: string, company: string, requestType: string, message: string)

  function PayloadOf(f: Fields): Payload {
    Payload(Trim(f.name), Trim(f.email), Trim(f.company), f.requestType, Trim(f.message))
  }

  /** The submit button is disabled while a request is in flight; the success view has no form. */
  predicate SubmitEnabled(form: Form) {
    form.state == Idle || form.state == Failed
  }

  /**
   * A submit: with errors the form keeps its state and shows them and nothing
   * is sent; without, the errors are cleared, the form goes to submitting and
   * the payload is sent.
   */
  function Submit(form: Form): (r: (Form, Option<Payload>))
    ensures r.0.fields == form.fields
    ensures r.1.Some? <==> Validate(form.fields) == {}
    ensures r.1.None? ==> r.0 == form.(errors := Validate(form.fields))
    ensures r.1.Some? ==> r.0.state == Submitting && r.0.errors == {} && r.1.value == PayloadOf(form.fields)
  {
    var errs := Validate(form.fields);
    if errs != {} then (form.(errors := errs), None)
    else (form.(state := Submitting, errors := {}), Some(PayloadOf(form.fields)))
  }

  /**
   * Whatever is sent has a non-empty name and message, an e-mail address the
   * pattern matches, and a chosen request type.
   */
  lemma PayloadWellFormed(form: Form)
    requires Submit(form).1.Some?
    ensures var p := Submit(form).1.value;
      p.name != [] && p.message != [] && EmailPattern(p.email) && p.requestType != ""
  {
  }

  /** How the request ended: an OK response, any other response, or a thrown error. */
  datatype Outcome = ResponseOk | ResponseNotOk | RequestThrew

  /** An OK response clears the form and shows the success view; anything else shows the error banner. */
  function Respond(form: Form, outcome: Outcome): (r: Form)
    ensures r.state == Success <==> outcome == ResponseOk
    ensures r.state == Failed <==> outcome != ResponseOk
    ensures outcome == ResponseOk ==> r.fields == EmptyFields && r.errors == {}
    ensures outcome != ResponseOk ==> r.fields == form.fields && r.errors == form.errors
  {
    if outcome == ResponseOk then Form(Success, EmptyFields, {})
    else form.(state := Failed)
  }

  /** The success view's button returns the form to the idle state. */
  function Dismiss(form: Form): Form {
    form.(state := Idle)
  }

  /**
   * A successful round trip returns to the initial form: submit, an OK
   * response and dismissing the success view leave nothing behind.
   */
  lemma SuccessRoundTrip(form: Form)
    requires Submit(form).1.Some?
    ensures Dismiss(Respond(Submit(form).0, ResponseOk)) == InitialForm
  {
  }

  /** After a failed request the fields are kept, so submitting again sends the same payload. */
  lemma RetryResends(form: Form, outcome: Outcome)
    requires Submit(form).1.Some? && outcome != ResponseOk
    ensures var failed := Respond(Submit(form).0, outcome);
      && SubmitEnabled(failed)
      && Submit(failed).1 == Submit(form).1
  {
  }

  /** While a request is in flight the form cannot be submitted again. */
  lemma NoDoubleSubmit(form: Form)
    requires Submit(form).1.Some?
    ensures !SubmitEnabled(Submit(form).0)
  {
  }

  // ---------------------------------------------------------------------------
  // Editing
  // ---------------------------------------------------------------------------

  datatype Field = NameField | EmailField | CompanyField | TypeField | MessageField

  /** The error a field's edit clears; the company has none. */
  function ErrorOf(field: Field): Option<FieldError> {
    match field
    case NameField => Some(NameError)
    case EmailField => Some(EmailError)
    case CompanyField => None
    case TypeField => Some(TypeError)
    case MessageField => Some(MessageError)
  }

  function SetField(f: Fields, field: Field, v: string): Fields {
    match field
    case NameField => f.(name := v)
    case EmailField => f.(email := v)
    case CompanyField => f.(company := v)
    case TypeField => f.(requestType := v)
    case MessageField => f.(message := v)
  }

  /** Typing in a field stores the value and clears that field's error, if it has one. */
  function Edit(form: Form, field: Field, v: string): (r: Form)
    ensures r.state == form.state
    ensures r.errors <= form.errors
    ensures forall e :: e in form.errors && Some(e) != ErrorOf(field) ==> e in r.errors
    ensures ErrorOf(field).Some? ==> ErrorOf(field).value !in r.errors
  {
    var errs := match ErrorOf(field)
      case None => form.errors
      case Some(e) => form.errors - {e};
    form.(fields := SetField(form.fields, field, v), errors := errs)
  }

  /**
   * Editing changes only the edited field: validating afterwards gives the
   * same verdict on every other field as before.
   */
  lemma EditKeepsOtherVerdicts(f: Fields, field: Field, v: string, e: FieldError)
    requires Some(e) != ErrorOf(field)
    ensures e in Validate(SetField(f, field, v)) <==> e in Validate(f)
  {
  }
}

=== FILE: content.dfy ===
// The content loader: the functions that turn the files of the content
// directory into the records of `Types`. The file system and the frontmatter
// parser are outside the model: a directory listing is an optional sequence
// of file names (absent when the directory does not exist), a file is an
// optional text or an optional parsed JSON value (absent when it does not
// exist or does not parse), and the frontmatter of a file is handed in
// already parsed, every field optional.
module Content {
  import opened Wrappers
  import opened Text
  import opened Types
  import opened Sorting
  import opened Seqs

  // ---------------------------------------------------------------------------
  // Files and names
  // ---------------------------------------------------------------------------

  /**
   * The file name without `ext`: stripped only when the name ends with `ext`
   * and is longer than it, as the platform's base-name helper does.
   */
  function BaseName(name: string, ext: string): (r: string)
    ensures |r| <= |name|
    ensures r == name || r + ext == name
  {
    if EndsWith(name, ext) && |name| > |ext| then
      assert name == name[..|name| - |ext|] + name[|name| - |ext|..];
      name[..|name| - |ext|]
    else name
  }

  /** The extension comes back off exactly what was put on. */
  lemma BaseNameOfStem(stem: string, ext: string)
    requires stem != []
    ensures BaseName(stem + ext, ext) == stem
  {
    var n := stem + ext;
    assert n[|n| - |ext|..] == ext;
    assert n[..|n| - |ext|] == stem;
  }

  /** The files of a directory with a given extension; none when the directory is missing. */
  function ListFiles(listing: Option<seq<string>>, ext: string): (r: seq<string>)
    ensures listing.None? ==> r == []
    ensures listing.Some? ==> forall n :: n in r <==> n in listing.value && EndsWith(n, ext)
  {
    match listing
    case None => []
    case Some(names) =>
      var r := Filter(names, (n: string) => EndsWith(n, ext));
      forall n ensures n in r <==> n in names && EndsWith(n, ext) {
        FilterMembers(names, (n: string) => EndsWith(n, ext), n);
      }
      r
  }

  // ---------------------------------------------------------------------------
  // Lineup
  // ---------------------------------------------------------------------------

  /** Configuration used when the lineup configuration file is missing or unreadable. */
  const DefaultLineupConfig := LineupConfig(ComingSoonPhase, 0, 7, EmptyLocalized, EmptyLocalized)

  function LineupConfigOrDefault(file: Option<LineupConfig>): (r: LineupConfig)
    ensures file.Some? ==> r == file.value
    ensures file.None? ==> r.phase == ComingSoonPhase && r.totalSlots == 0 && r.newBadgeDays == 7
    ensures file.None? ==> r.comingSoonMessage == Localized("", "") && r.mysteryCardMessage == Localized("", "")
  {
    file.GetOr(DefaultLineupConfig)
  }

  datatype SocialMatter = SocialMatter(instagram: Option<string>, spotify: Option<string>, soundcloud: Option<string>)

  /** The frontmatter of an artist file: every field may be missing. */
  datatype ArtistMatter = ArtistMatter(
    name: Option<string>,
    slug: Option<string>,
    day: Option<int>,
    time: Option<string>,
    genre: Option<string>,
    photo: Option<string>,
    bio: Option<string>,
    revealed: Option<bool>,
    revealDate: Option<string>,
    order: Option<int>,
    social: Option<SocialMatter>)

  const NoArtistMatter := ArtistMatter(None, None, None, None, None, None, None, None, None, None, None)

  function SocialOf(m: Option<SocialMatter>): (r: Social)
    ensures m.None? ==> r == Social("", "", "")
    ensures m.Some? ==> r.instagram == m.value.instagram.GetOr("")
    ensures m.Some? ==> r.spotify == m.value.spotify.GetOr("")
    ensures m.Some? ==> r.soundcloud == m.value.soundcloud.GetOr("")
  {
    match m
    case None => Social("", "", "")
    case Some(s) => Social(s.instagram.GetOr(""), s.spotify.GetOr(""), s.soundcloud.GetOr(""))
  }

  /**
   * The artist described by file `fileName` with frontmatter `m` and body
   * `body`. Missing fields take their defaults: the slug is the file name
   * without `.md`, the day 1, the order 0, `revealed` false, strings empty.
   * The bio is the trimmed body, or the frontmatter bio when the body is blank.
   */
  function MakeArtist(fileName: string, m: ArtistMatter, body: string): (a: Artist)
    ensures a.slug == (if m.slug.Some? then m.slug.value else BaseName(fileName, ".md"))
    ensures a.day == (if m.day.Some? then m.day.value else 1)
    ensures a.order == (if m.order.Some? then m.order.value else 0)
    ensures a.revealed <==> m.revealed == Some(true)
    ensures AllSpace(body) ==> a.bio == m.bio.GetOr("")
    ensures !AllSpace(body) ==> a.bio == Trim(body) && a.bio != []
    // Every other text field is the frontmatter's or empty.
    ensures a.name == m.name.GetOr("") && a.time == m.time.GetOr("") && a.genre == m.genre.GetOr("")
    ensures a.photo == m.photo.GetOr("") && a.revealDate == m.revealDate.GetOr("")
    ensures a.social == SocialOf(m.social)
  {
    var trimmed := Trim(body);
    Artist(
      m.name.GetOr(""),
      m.slug.GetOr(BaseName(fileName, ".md")),
      m.day.GetOr(1),
      m.time.GetOr(""),
      m.genre.GetOr(""),
      m.photo.GetOr(""),
      if trimmed != "" then trimmed else m.bio.GetOr(""),
      m.revealed.GetOr(false),
      m.revealDate.GetOr(""),
      m.order.GetOr(0),
      SocialOf(m.social))
  }

  /** A file with no frontmatter and a blank body gives the all-defaults artist. */
  lemma BareArtist(stem: string, body: string)
    requires stem != [] && AllSpace(body)
    ensures MakeArtist(stem + ".md", NoArtistMatter, body)
         == Artist("", stem, 1, "", "", "", "", false, "", 0, Social("", "", ""))
  {
    BaseNameOfStem(stem, ".md");
  }

  /** The loaded artist plays day 1 or 2 exactly when its frontmatter day is absent, 1 or 2. */
  lemma MakeArtistValid(fileName: string, m: ArtistMatter, body: string)
    ensures ValidArtist(MakeArtist(fileName, m, body)) <==> m.day.None? || m.day.value == 1 || m.day.value == 2
  {
  }

  /** Artists sort by ascending `order`. */
  function ByOrder(a: Artist): Key {
    (a.order, 0)
  }

  /** The artists of every `.md` file of the lineup directory, in file order. */
  function LoadArtists(files: seq<string>, read: string -> (ArtistMatter, string)): (r: seq<Artist>)
    ensures |r| == |files|
    ensures forall i :: 0 <= i < |files| ==> r[i] == MakeArtist(files[i], read(files[i]).0, read(files[i]).1)
  {
    seq(|files|, i requires 0 <= i < |files| => MakeArtist(files[i], read(files[i]).0, read(files[i]).1))
  }

  /** The lineup: every artist file loaded, then sorted by `order` with a stable sort. */
  function GetLineup(listing: Option<seq<string>>, read: string -> (ArtistMatter, string)): (r: seq<Artist>)
    ensures multiset(r) == multiset(LoadArtists(ListFiles(listing, ".md"), read))
  {
    SortBy(LoadArtists(ListFiles(listing, ".md"), read), ByOrder)
  }

  /** The lineup is ordered by `order`, and artists of equal order keep their file order. */
  lemma GetLineupOrdered(listing: Option<seq<string>>, read: string -> (ArtistMatter, string), order: int)
    ensures var r := GetLineup(listing, read);
      forall i, j :: 0 <= i < j < |r| ==> r[i].order <= r[j].order
    ensures WithKey(GetLineup(listing, read), ByOrder, (order, 0))
         == WithKey(LoadArtists(ListFiles(listing, ".md"), read), ByOrder, (order, 0))
  {
    var loaded := LoadArtists(ListFiles(listing, ".md"), read);
    SortBySorted(loaded, ByOrder);
    SortByStable(loaded, ByOrder, (order, 0));
    var r := GetLineup(listing, read);
    forall i, j | 0 <= i < j < |r|
      ensures r[i].order <= r[j].order
    {
      assert !KeyLess(ByOrder(r[j]), ByOrder(r[i]));
    }
  }

  // ---------------------------------------------------------------------------
  // Tickets
  // ---------------------------------------------------------------------------

  /** A ticket that cannot be bought yet: coming soon, price 0, in euros. */
  const PlaceholderTicket := TicketType(EmptyLocalized, 0, "EUR", ComingSoon, "")

  const PlaceholderRelease := Release(EmptyLocalized, EmptyLocalized, ComingSoon,
                                      Tickets(PlaceholderTicket, PlaceholderTicket, PlaceholderTicket))

  /** Configuration used when the ticket file is missing or unreadable. */
  const DefaultTickets := TicketConfig("", Releases(PlaceholderRelease, PlaceholderRelease, PlaceholderRelease))

  function TicketsOrDefault(file: Option<TicketConfig>): (r: TicketConfig)
    ensures file.Some? ==> r == file.value
    ensures file.None? ==> r.activeRelease == ""
  {
    file.GetOr(DefaultTickets)
  }

  /**
   * Without a ticket file no release is named active, every release and every
   * ticket in it is coming soon, at price 0 in euros, and the configuration
   * has the declared shape.
   */
  lemma DefaultTicketsComingSoon()
    ensures var c := TicketsOrDefault(None);
      && c.activeRelease == ""
      && ValidTicketConfig(c)
      && (forall r :: r in ReleaseList(c.releases) ==>
            && r.status == ComingSoon
            && forall t :: t in TicketList(r.tickets) ==>
                 t.status == ComingSoon && t.price == 0 && t.currency == "EUR")
  {
    var c := TicketsOrDefault(None);
    assert ReleaseList(c.releases) == [PlaceholderRelease, PlaceholderRelease, PlaceholderRelease];
    assert TicketList(PlaceholderRelease.tickets) == [PlaceholderTicket, PlaceholderTicket, PlaceholderTicket];
  }

  // ---------------------------------------------------------------------------
  // Lists and pages with an empty default
  // ---------------------------------------------------------------------------

  /** The sponsors, FAQ and gallery lists and the rules and about pages all
      read a file and fall back to an empty list or text when it is missing. */
  function OrEmpty<T>(file: Option<seq<T>>): (r: seq<T>)
    ensures file.None? ==> r == []
    ensures file.Some? ==> r == file.value
  {
    file.GetOr([])
  }

  // ---------------------------------------------------------------------------
  // Blog
  // ---------------------------------------------------------------------------

  /** The frontmatter of a post file: every field may be missing. */
  datatype PostMatter = PostMatter(
    title: Option<string>,
    date: Option<string>,
    excerpt: Option<string>,
    image: Option<string>,
    tags: Option<seq<string>>)

  function MakePost(m: PostMatter, content: string, locale: string, slug: string): (p: BlogPost)
    ensures p.locale == locale && p.slug == slug && p.content == content
    ensures p.date == m.date.GetOr("") && p.tags == m.tags.GetOr([])
    ensures p.title == m.title.GetOr("") && p.excerpt == m.excerpt.GetOr("") && p.image == m.image.GetOr("")
  {
    BlogPost(m.title.GetOr(""), m.date.GetOr(""), m.excerpt.GetOr(""), m.image.GetOr(""),
             m.tags.GetOr([]), locale, slug, content)
  }

  /**
   * One post by slug. `raw` is the file's text, absent when the file does not
   * exist; `parse` splits a text into frontmatter and body. An empty file is
   * falsy and is treated like a missing one.
   */
  function GetBlogPost(slug: string, locale: string, raw: Option<string>,
                       parse: string -> (PostMatter, string)): (r: Option<BlogPost>)
    ensures r.None? <==> raw.None? || raw.value == ""
    ensures r.Some? ==> r.value.slug == slug && r.value.locale == locale
    ensures r.Some? ==> r.value.content == parse(raw.value).1
  {
    match raw
    case None => None
    case Some(text) =>
      if text == "" then None
      else Some(MakePost(parse(text).0, parse(text).1, locale, slug))
  }

  /**
   * Whether post `a` must precede post `b`: the comparator is `time(b) - time(a)`
   * and `a` goes first when it is negative. A date that does not parse has
   * time NaN, the difference is NaN, and NaN is never negative.
   */
  function NewerFirst(parseDate: string -> Option<int>): (BlogPost, BlogPost) -> bool {
    (a: BlogPost, b: BlogPost) =>
      var ta, tb := parseDate(a.date), parseDate(b.date);
      ta.Some? && tb.Some? && tb.value - ta.value < 0
  }

  function LoadPosts(files: seq<string>, read: string -> (PostMatter, string), locale: string): (r: seq<BlogPost>)
    ensures |r| == |files|
    ensures forall i :: 0 <= i < |files| ==>
      r[i] == MakePost(read(files[i]).0, read(files[i]).1, locale, BaseName(files[i], ".mdx"))
  {
    seq(|files|, i requires 0 <= i < |files| =>
      MakePost(read(files[i]).0, read(files[i]).1, locale, BaseName(files[i], ".mdx")))
  }

  /** The posts of a locale: every `.mdx` file loaded, then sorted newest first. */
  function GetBlogPosts(locale: string, listing: Option<seq<string>>,
                        read: string -> (PostMatter, string),
                        parseDate: string -> Option<int>): (r: seq<BlogPost>)
    ensures multiset(r) == multiset(LoadPosts(ListFiles(listing, ".mdx"), read, locale))
  {
    Sort(LoadPosts(ListFiles(listing, ".mdx"), read, locale), NewerFirst(parseDate))
  }

  /** Every loaded post belongs to the locale and takes its slug from one of the files. */
  lemma LoadedPostSlugs(files: seq<string>, read: string -> (PostMatter, string), locale: string,
                        p: BlogPost)
    requires p in LoadPosts(files, read, locale)
    ensures p.locale == locale
    ensures exists n :: n in files && p.slug == BaseName(n, ".mdx")
  {
    var loaded := LoadPosts(files, read, locale);
    var i :| 0 <= i < |loaded| && loaded[i] == p;
    assert files[i] in files;
  }

  /** Every listed post belongs to the locale and takes its slug from an `.mdx` file of the listing. */
  lemma BlogPostSlugs(locale: string, listing: Option<seq<string>>,
                      read: string -> (PostMatter, string), parseDate: string -> Option<int>,
                      p: BlogPost)
    requires p in GetBlogPosts(locale, listing, read, parseDate)
    ensures p.locale == locale
    ensures exists n :: n in ListFiles(listing, ".mdx") && EndsWith(n, ".mdx") && p.slug == BaseName(n, ".mdx")
  {
    var files := ListFiles(listing, ".mdx");
    var r := GetBlogPosts(locale, listing, read, parseDate);
    assert p in multiset(r);
    LoadedPostSlugs(files, read, locale, p);
  }

  /** The time of a post whose date parses, as a descending sort key. */
  function NewestKey(parseDate: string -> Option<int>): BlogPost -> Key {
    (p: BlogPost) => (-parseDate(p.date).GetOr(0), 0)
  }

  /** With every date parsable, the comparator orders posts as the descending-time key does. */
  lemma NewestKeyAgrees(posts: seq<BlogPost>, parseDate: string -> Option<int>)
    requires forall p :: p in posts ==> parseDate(p.date).Some?
    ensures forall a, b :: a in posts && b in posts ==>
      NewerFirst(parseDate)(a, b) == KeyBefore(NewestKey(parseDate))(a, b)
  {
    forall a, b | a in posts && b in posts
      ensures NewerFirst(parseDate)(a, b) == KeyBefore(NewestKey(parseDate))(a, b)
    {
      var ta, tb := parseDate(a.date), parseDate(b.date);
      assert NewestKey(parseDate)(a) == (-ta.value, 0);
      assert NewestKey(parseDate)(b) == (-tb.value, 0);
    }
  }

  /** With every date parsable, posts come newest first and equal dates keep their order. */
  lemma NewestFirstSorted(posts: seq<BlogPost>, parseDate: string -> Option<int>, k: Key)
    requires forall p :: p in posts ==> parseDate(p.date).Some?
    ensures var r := Sort(posts, NewerFirst(parseDate));
      forall i, j :: 0 <= i < j < |r| ==> parseDate(r[j].date).GetOr(0) <= parseDate(r[i].date).GetOr(0)
    ensures WithKey(Sort(posts, NewerFirst(parseDate)), NewestKey(parseDate), k)
         == WithKey(posts, NewestKey(parseDate), k)
  {
    var key := NewestKey(parseDate);
    NewestKeyAgrees(posts, parseDate);
    SortAgrees(posts, NewerFirst(parseDate), KeyBefore(key));
    var r := Sort(posts, NewerFirst(parseDate));
    assert r == SortBy(posts, key);
    SortBySorted(posts, key);
    SortByStable(posts, key, k);
    forall i, j | 0 <= i < j < |r|
      ensures parseDate(r[j].date).GetOr(0) <= parseDate(r[i].date).GetOr(0)
    {
      assert !KeyLess(key(r[j]), key(r[i]));
    }
  }

  /**
   * When every post date parses, the posts come newest first, and posts with
   * the same date keep their listing order.
   */
  lemma BlogPostsNewestFirst(locale: string, listing: Option<seq<string>>,
                             read: string -> (PostMatter, string), parseDate: string -> Option<int>,
                             k: Key)
    requires forall p :: p in LoadPosts(ListFiles(listing, ".mdx"), read, locale) ==> parseDate(p.date).Some?
    ensures var r := GetBlogPosts(locale, listing, read, parseDate);
      forall i, j :: 0 <= i < j < |r| ==> parseDate(r[j].date).GetOr(0) <= parseDate(r[i].date).GetOr(0)
    ensures WithKey(GetBlogPosts(locale, listing, read, parseDate), NewestKey(parseDate), k)
         == WithKey(LoadPosts(ListFiles(listing, ".mdx"), read, locale), NewestKey(parseDate), k)
  {
    NewestFirstSorted(LoadPosts(ListFiles(listing, ".mdx"), read, locale), parseDate, k);
  }
}

=== FILE: countdown.dfy ===
// The home-page countdown to the festival: the time left split into days,
// hours, minutes and seconds, each shown with at least two digits. The clock
// is a parameter (`now`, in milliseconds since the epoch).
module Countdown {
  import opened Wrappers
  import opened Text

  /** 2026-08-15T16:00:00Z in milliseconds since the epoch. */
  const FestivalDate: int := 1_786_809_600_000

  const MsPerSecond: int := 1000
  const MsPerMinute: int := 60_000
  const MsPerHour: int := 3_600_000
  const MsPerDay: int := 86_400_000

  datatype TimeLeft = TimeLeft(days: nat, hours: nat, minutes: nat, seconds: nat)

  /**
   * The time left at `now`, or None once the festival has started. Each unit
   * is the floor of the difference in that unit, reduced modulo the next unit
   * up; for a positive difference the floors are integer divisions.
   */
  function CalculateTimeLeft(now: int): (r: Option<TimeLeft>)
    ensures r.None? <==> now >= FestivalDate
    ensures r.Some? ==> r.value.hours < 24 && r.value.minutes < 60 && r.value.seconds < 60
  {
    var diff := FestivalDate - now;
    if diff <= 0 then None
    else Some(TimeLeft(diff / MsPerDay, (diff / MsPerHour) % 24, (diff / MsPerMinute) % 60, (diff / MsPerSecond) % 60))
  }

  function TotalSeconds(t: TimeLeft): nat {
    t.days * 86400 + t.hours * 3600 + t.minutes * 60 + t.seconds
  }

  /**
   * The four units are the whole seconds left, written in mixed radix: they add
   * back up to the difference in whole seconds.
   */
  lemma TimeLeftRecomposes(now: int)
    requires now < FestivalDate
    ensures TotalSeconds(CalculateTimeLeft(now).value) == (FestivalDate - now) / MsPerSecond
  {
    var diff := FestivalDate - now;
    var s := diff / 1000;
    assert diff / 60_000 == s / 60;
    assert diff / 3_600_000 == s / 3600;
    assert diff / 86_400_000 == s / 86400;
    MixedRadix(s);
  }

  lemma MixedRadix(s: nat)
    ensures (s / 86400) * 86400 + ((s / 3600) % 24) * 3600 + ((s / 60) % 60) * 60 + s % 60 == s
  {
    var m := s / 60;
    var h := m / 60;
    assert s / 3600 == h;
    assert h / 24 == s / 86400;
    assert s == m * 60 + s % 60;
    assert m == h * 60 + m % 60;
    assert h == (h / 24) * 24 + h % 24;
  }

  /** As time passes the count never goes up. */
  lemma CountsDown(now: int, later: int)
    requires now <= later < FestivalDate
    ensures TotalSeconds(CalculateTimeLeft(later).value) <= TotalSeconds(CalculateTimeLeft(now).value)
  {
    TimeLeftRecomposes(now);
    TimeLeftRecomposes(later);
  }

  /** `String(n).padStart(2, '0')`: the decimal digits of `n`, with a leading zero below ten. */
  function Pad2(n: nat): (r: string)
    ensures |r| >= 2
    ensures forall i :: 0 <= i < |r| ==> IsDigit(r[i])
    ensures DigitsValue(r) == n
    ensures n >= 10 ==> r == NatToString(n)
    ensures n < 100 ==> |r| == 2
  {
    var s := NatToString(n);
    NatToStringRoundTrip(n);
    if |s| >= 2 then s
    else
      DigitsValueLeadingZeros(2 - |s|, s);
      Repeat('0', 2 - |s|) + s
  }

  lemma PadZero()
    ensures Pad2(0) == "00"
  {
    assert NatToString(0) == "0";
    assert Repeat('0', 1) == "0";
  }

  /** What the component shows. */
  datatype View =
    | Placeholder(units: seq<string>)
    | Expired
    | Timer(days: string, hours: string, minutes: string, seconds: string)

  /**
   * Before the first client-side render every unit reads "00"; after it, the
   * expired message once no time is left and the four padded units otherwise.
   */
  function Render(mounted: bool, timeLeft: Option<TimeLeft>): (v: View)
    ensures !mounted ==> v == Placeholder(["00", "00", "00", "00"])
    ensures mounted ==> (v == Expired <==> timeLeft.None?)
  {
    if !mounted then
      PadZero();
      Placeholder([Pad2(0), Pad2(0), Pad2(0), Pad2(0)])
    else match timeLeft
      case None => Expired
      case Some(t) => Timer(Pad2(t.days), Pad2(t.hours), Pad2(t.minutes), Pad2(t.seconds))
  }

  /** Once mounted, the hours, minutes and seconds always show exactly two digits. */
  lemma TimerDigits(now: int)
    requires now < FestivalDate
    ensures var v := Render(true, CalculateTimeLeft(now));
      && v.Timer?
      && |v.hours| == 2 && |v.minutes| == 2 && |v.seconds| == 2
      && |v.days| >= 2
  {
  }

  /** At the festival's start the countdown shows the expired message. */
  lemma ExpiresAtStart()
    ensures Render(true, CalculateTimeLeft(FestivalDate)) == Expired
    ensures Render(true, CalculateTimeLeft(FestivalDate - 1)) == Timer("00", "00", "00", "00")
  {
    PadZero();
  }
}

=== FILE: faq.dfy ===
// The FAQ accordion: at most one answer open at a time, a toggle per
// question, and nothing rendered for an empty list.
module Faq {
  import opened Wrappers
  import opened Types

  /** The index of the open item, if any; the accordion starts with none open. */
  type OpenIndex = Option<int>

  const InitiallyOpen: OpenIndex := None

  /** Clicking item `i` closes it when it is the open one and opens it (closing any other) otherwise. */
  function Toggle(open: OpenIndex, i: int): (r: OpenIndex)
    ensures r.Some? ==> r.value == i
  {
    if open == Some(i) then None else Some(i)
  }

  predicate IsOpen(open: OpenIndex, k: int) {
    open == Some(k)
  }

  /** One rendered item: its question, its answer only while open, and `aria-expanded`. */
  datatype ItemView = ItemView(question: string, answer: Option<string>, expanded: bool)

  /** The accordion, or nothing at all for an empty list. */
  function Render(items: seq<Types.Faq>, open: OpenIndex): (r: Option<seq<ItemView>>)
    ensures r.None? <==> |items| == 0
    ensures r.Some? ==> |r.value| == |items|
    ensures r.Some? ==> forall k :: 0 <= k < |items| ==>
      && r.value[k].question == items[k].question
      && r.value[k].expanded == IsOpen(open, k)
      && (r.value[k].answer.Some? <==> IsOpen(open, k))
      && (r.value[k].answer.Some? ==> r.value[k].answer.value == items[k].answer)
  {
    if |items| == 0 then None
    else Some(seq(|items|, k requires 0 <= k < |items| =>
      ItemView(items[k].question, if open == Some(k) then Some(items[k].answer) else None, open == Some(k))))
  }

  /** A toggle flips the clicked item and leaves every other item closed. */
  lemma ToggleFlips(open: OpenIndex, i: int, k: int)
    ensures IsOpen(Toggle(open, i), i) <==> !IsOpen(open, i)
    ensures k != i ==> !IsOpen(Toggle(open, i), k)
  {
  }

  /** Toggling the same item twice restores a closed accordion or one with that item open. */
  lemma ToggleTwice(open: OpenIndex, i: int)
    requires open.None? || open == Some(i)
    ensures Toggle(Toggle(open, i), i) == open
  {
  }

  /** However many toggles, at most one answer is shown. */
  lemma AtMostOneAnswer(items: seq<Types.Faq>, open: OpenIndex, j: int, k: int)
    requires Render(items, open).Some?
    requires 0 <= j < |items| && 0 <= k < |items|
    requires Render(items, open).value[j].answer.Some? && Render(items, open).value[k].answer.Some?
    ensures j == k
  {
  }
}

=== FILE: gallery.dfy ===
// The gallery page: the images a year filter selects, ordered for display,
// and the lightbox that pages through them with wrap-around.
module Gallery {
  import opened Wrappers
  import opened Types
  import opened Sorting

  datatype YearFilter = AllYears | Year(year: int)

  /** An edition's images, each stamped with the edition's year. */
  function Stamped(ed: GalleryEdition): (r: seq<GalleryImage>)
    ensures |r| == |ed.images|
    ensures forall i :: 0 <= i < |r| ==> r[i] == ed.images[i].(edition := ed.year)
  {
    seq(|ed.images|, i requires 0 <= i < |ed.images| => ed.images[i].(edition := ed.year))
  }

  /** Every edition's stamped images, edition after edition. */
  function Flatten(editions: seq<GalleryEdition>): seq<GalleryImage> {
    if |editions| == 0 then [] else Stamped(editions[0]) + Flatten(editions[1..])
  }

  function TotalImages(editions: seq<GalleryEdition>): nat {
    if |editions| == 0 then 0 else |editions[0].images| + TotalImages(editions[1..])
  }

  /** Newest edition first, then ascending `order`. */
  function NewestEditionFirst(img: GalleryImage): Key {
    (-img.edition, img.order)
  }

  function ByImageOrder(img: GalleryImage): Key {
    (img.order, 0)
  }

  /** The first edition of the given year, if any. */
  function FindEdition(editions: seq<GalleryEdition>, year: int): (r: Option<GalleryEdition>)
    ensures r.Some? ==> r.value in editions && r.value.year == year
    ensures r.None? <==> forall i :: 0 <= i < |editions| ==> editions[i].year != year
  {
    if |editions| == 0 then None
    else if editions[0].year == year then Some(editions[0])
    else FindEdition(editions[1..], year)
  }

  /** The images the filter selects, in display order. */
  function FilteredImages(editions: seq<GalleryEdition>, filter: YearFilter): seq<GalleryImage> {
    match filter
    case AllYears => SortBy(Flatten(editions), NewestEditionFirst)
    case Year(y) =>
      match FindEdition(editions, y)
      case None => []
      case Some(ed) => SortBy(Stamped(ed), ByImageOrder)
  }

  lemma {:induction false} FlattenSize(editions: seq<GalleryEdition>)
    ensures |Flatten(editions)| == TotalImages(editions)
  {
    if |editions| > 0 {
      FlattenSize(editions[1..]);
    }
  }

  /** Every image of the flattened gallery comes from some edition and carries that edition's year. */
  lemma {:induction false} FlattenStamped(editions: seq<GalleryEdition>, img: GalleryImage)
    requires img in Flatten(editions)
    ensures exists e, k ::
      && 0 <= e < |editions| && 0 <= k < |editions[e].images|
      && img == editions[e].images[k].(edition := editions[e].year)
  {
    var s := Stamped(editions[0]);
    if img in s {
      var k :| 0 <= k < |s| && s[k] == img;
      assert img == editions[0].images[k].(edition := editions[0].year);
    } else {
      FlattenStamped(editions[1..], img);
      var e, k :| 0 <= e < |editions[1..]| && 0 <= k < |editions[1..][e].images| &&
        img == editions[1..][e].images[k].(edition := editions[1..][e].year);
      assert editions[1..][e] == editions[e + 1];
    }
  }

  /**
   * With no year filter the result holds every image of every edition, as
   * many as all editions together, newest edition first and by ascending
   * `order` within an edition.
   */
  lemma AllYearsImages(editions: seq<GalleryEdition>)
    ensures var r := FilteredImages(editions, AllYears);
      && multiset(r) == multiset(Flatten(editions))
      && |r| == TotalImages(editions)
      && forall i, j :: 0 <= i < j < |r| ==>
           r[i].edition > r[j].edition || (r[i].edition == r[j].edition && r[i].order <= r[j].order)
    // Images with the same edition and `order` keep their flattened order: the sort is stable.
    ensures forall k :: WithKey(FilteredImages(editions, AllYears), NewestEditionFirst, k)
                     == WithKey(Flatten(editions), NewestEditionFirst, k)
  {
    var flat := Flatten(editions);
    var r := SortBy(flat, NewestEditionFirst);
    forall k ensures WithKey(r, NewestEditionFirst, k) == WithKey(flat, NewestEditionFirst, k) {
      SortByStable(flat, NewestEditionFirst, k);
    }
    FlattenSize(editions);
    assert |r| == |multiset(r)| == |multiset(flat)| == |flat|;
    SortBySorted(flat, NewestEditionFirst);
    forall i, j | 0 <= i < j < |r|
      ensures r[i].edition > r[j].edition || (r[i].edition == r[j].edition && r[i].order <= r[j].order)
    {
      assert !KeyLess(NewestEditionFirst(r[j]), NewestEditionFirst(r[i]));
    }
  }

  /**
   * With a year filter the result is the first matching edition's images,
   * stamped with its year and ordered by `order`; no matching edition, no images.
   */
  lemma YearImages(editions: seq<GalleryEdition>, year: int)
    ensures var r := FilteredImages(editions, Year(year));
      var found := FindEdition(editions, year);
      && (found.None? ==> r == [])
      && (found.Some? ==> multiset(r) == multiset(Stamped(found.value)))
      && (forall i :: 0 <= i < |r| ==> r[i].edition == year)
      && (forall i, j :: 0 <= i < j < |r| ==> r[i].order <= r[j].order)
    // Images with the same `order` keep the edition's order: the sort is stable.
    ensures var found := FindEdition(editions, year);
      found.Some? ==> forall k :: WithKey(FilteredImages(editions, Year(year)), ByImageOrder, k)
                              == WithKey(Stamped(found.value), ByImageOrder, k)
  {
    var r := FilteredImages(editions, Year(year));
    var found := FindEdition(editions, year);
    if found.Some? {
      var stamped := Stamped(found.value);
      forall k ensures WithKey(r, ByImageOrder, k) == WithKey(stamped, ByImageOrder, k) {
        SortByStable(stamped, ByImageOrder, k);
      }
      SortBySorted(stamped, ByImageOrder);
      forall i, j | 0 <= i < j < |r|
        ensures r[i].order <= r[j].order
      {
        assert !KeyLess(ByImageOrder(r[j]), ByImageOrder(r[i]));
      }
      forall i | 0 <= i < |r|
        ensures r[i].edition == year
      {
        assert r[i] in multiset(stamped);
      }
    }
  }

  // ---------------------------------------------------------------------------
  // Lightbox navigation
  // ---------------------------------------------------------------------------

  /** The previous index, wrapping from the first image to the last. */
  function Prev(i: int, length: int): int {
    if i == 0 then length - 1 else i - 1
  }

  /** The next index, wrapping from the last image to the first. */
  function Next(i: int, length: int): int {
    if i == length - 1 then 0 else i + 1
  }

  /** For a non-empty gallery, both moves stay in range and each undoes the other. */
  lemma NavigationInverse(i: int, length: int)
    requires 0 <= i < length
    ensures 0 <= Prev(i, length) < length && 0 <= Next(i, length) < length
    ensures Next(Prev(i, length), length) == i
    ensures Prev(Next(i, length), length) == i
  {
  }

  /** Pressing next `length` times from any image comes back to it. */
  lemma NextCycle(i: int, length: int)
    requires 0 <= i < length
    ensures NextN(i, length, length) == i
  {
    NextRun(i, length, length - 1 - i);
    assert NextN(i, length, length - i) == 0;
    NextRun(0, length, i);
    NextCompose(i, length, length - i, i);
  }

  /** Without reaching the end, next just counts up. */
  lemma {:induction false} NextRun(i: int, length: int, steps: nat)
    requires 0 <= i && i + steps < length
    ensures NextN(i, length, steps) == i + steps
  {
    if steps > 0 {
      NextRun(i, length, steps - 1);
    }
  }

  lemma {:induction false} NextCompose(i: int, length: int, a: nat, b: nat)
    ensures NextN(i, length, a + b) == NextN(NextN(i, length, a), length, b)
  {
    if b > 0 {
      NextCompose(i, length, a, b - 1);
    }
  }

  function NextN(i: int, length: int, steps: nat): int {
    if steps == 0 then i else Next(NextN(i, length, steps - 1), length)
  }

  datatype KeyPress = Escape | ArrowLeft | ArrowRight | OtherKey(name: string)

  datatype LightboxState = LightboxState(open: bool, index: int)

  /**
   * A key press: ignored while closed; Escape closes, the arrows move with
   * wrap-around over `length` images, and any other key does nothing.
   */
  function HandleKey(s: LightboxState, key: KeyPress, length: int): (r: LightboxState)
    ensures !s.open ==> r == s
    // While open: Escape closes on the same image, any other key keeps it open,
    // and a key that is no arrow changes nothing.
    ensures s.open && key == Escape ==> !r.open && r.index == s.index
    ensures s.open && key != Escape ==> r.open
    ensures s.open && key.OtherKey? ==> r == s
    // The left arrow goes to the previous image and the right arrow to the next.
    ensures s.open && key == ArrowLeft ==> r == s.(index := Prev(s.index, length))
    ensures s.open && key == ArrowRight ==> r == s.(index := Next(s.index, length))
  {
    if !s.open then s
    else match key
      case Escape => s.(open := false)
      case ArrowLeft => s.(index := Prev(s.index, length))
      case ArrowRight => s.(index := Next(s.index, length))
      case OtherKey(_) => s
  }

  /** Opening on an image (a thumbnail click) selects it and opens the lightbox. */
  function OpenAt(index: int): LightboxState {
    LightboxState(true, index)
  }

  /** The image the lightbox shows: only while open and only for an index inside the list. */
  function Showing(s: LightboxState, images: seq<GalleryImage>): (r: Option<GalleryImage>)
    ensures r.Some? <==> s.open && 0 <= s.index < |images|
    ensures r.Some? ==> r.value == images[s.index]
  {
    if s.open && 0 <= s.index < |images| then Some(images[s.index]) else None
  }

  /** The previous and next buttons are disabled exactly when there is at most one image. */
  function NavDisabled(images: seq<GalleryImage>): bool {
    |images| <= 1
  }

  /** The counter: the 1-based position and the total. */
  function Counter(s: LightboxState, images: seq<GalleryImage>): (int, int) {
    (s.index + 1, |images|)
  }

  /**
   * Keys keep an open lightbox on a valid image: from a shown image, any key
   * either closes the lightbox or leaves it showing an image, and the
   * counter stays between 1 and the total.
   */
  lemma KeysKeepShowing(s: LightboxState, key: KeyPress, images: seq<GalleryImage>)
    requires Showing(s, images).Some?
    ensures var t := HandleKey(s, key, |images|);
      (t.open ==> Showing(t, images).Some? && 1 <= Counter(t, images).0 <= Counter(t, images).1)
    ensures key == Escape <==> !HandleKey(s, key, |images|).open
  {
    NavigationInverse(s.index, |images|);
  }

  /** On an image of the list, the arrows step back and forward by one modulo the length. */
  lemma ArrowsModular(s: LightboxState, length: int)
    requires s.open && 0 <= s.index < length
    ensures HandleKey(s, ArrowLeft, length).index == (s.index + length - 1) % length
    ensures HandleKey(s, ArrowRight, length).index == (s.index + 1) % length
  {
    if s.index == 0 {
      ModSmall(length - 1, length);
    } else {
      ModOnce(s.index + length - 1, length);
    }
    if s.index == length - 1 {
      ModOnce(length, length);
    } else {
      ModSmall(s.index + 1, length);
    }
  }

  /** A number below `n` is its own remainder. */
  lemma ModSmall(x: int, n: int)
    requires 0 <= x < n
    ensures x % n == x
  {
  }

  /** A number in the second stretch of length `n` loses one `n`. */
  lemma ModOnce(x: int, n: int)
    requires n <= x < 2 * n
    ensures x % n == x - n
  {
    ModSmall(x - n, n);
    assert (x - n) % n == x % n;
  }

  /** On an image of the list, the right arrow then the left one, or the left
      then the right, come back to the same open state. */
  lemma ArrowsUndo(s: LightboxState, length: int)
    requires s.open && 0 <= s.index < length
    ensures HandleKey(HandleKey(s, ArrowRight, length), ArrowLeft, length) == s
    ensures HandleKey(HandleKey(s, ArrowLeft, length), ArrowRight, length) == s
  {
    NavigationInverse(s.index, length);
  }

  /** With a single image the arrows do not move, which is why they are disabled. */
  lemma SingleImageArrows(s: LightboxState, key: KeyPress, images: seq<GalleryImage>)
    requires |images| == 1 && Showing(s, images).Some? && key != Escape
    ensures NavDisabled(images)
    ensures HandleKey(s, key, |images|) == s
  {
  }
}

=== FILE: inline.dfy ===
/** The inline half of the site's own markdown converter: HTML escaping, then
    the bold, italic, code and link passes. Every `<` and `&` in its output
    begins a tag or an entity the converter writes itself. */
module Inline {
  import opened Text
  import opened Wrappers
  import opened Passes
  import opened PassFacts

  // ---------------------------------------------------------------------------
  // Escaping
  // ---------------------------------------------------------------------------

  /** `s.replace(/c/g, w)` for a single character `c`. */
  function ReplaceChar(s: string, c: char, w: string): (r: string)
    ensures c !in s ==> r == s
  {
    if s == [] then [] else (if s[0] == c then w else [s[0]]) + ReplaceChar(s[1..], c, w)
  }

  /** `escapeHtml`: the four replacements in source order, `&` first so that
      the entities the later steps insert are not escaped again. The result
      holds no `<`, `>` or `"`, and every `&` in it begins an entity. */
  function EscapeHtml(t: string): (r: string)
    ensures '<' !in r && '>' !in r && '"' !in r
    ensures Protected(r, '&', Entities)
  {
    EscapeAsChars(t);
    EscapeCharsProtected(t);
    ReplaceChar(ReplaceChar(ReplaceChar(ReplaceChar(t, '&', "&amp;"), '<', "&lt;"), '>', "&gt;"), '"', "&quot;")
  }

  /** The entities `escapeHtml` writes. */
  const Entities: seq<string> := ["&amp;", "&lt;", "&gt;", "&quot;"]

  /** The characters after the `&` of an entity. */
  const EntityAlphabet: set<char> := {'a', 'm', 'p', ';', 'l', 't', 'g', 'q', 'u', 'o'}

  /** What one input character becomes. */
  function Entity(c: char): (r: string)
    ensures '<' !in r && '>' !in r && '"' !in r
    ensures c == '&' ==> r == "&amp;"
  {
    if c == '&' then "&amp;"
    else if c == '<' then "&lt;"
    else if c == '>' then "&gt;"
    else if c == '"' then "&quot;"
    else [c]
  }

  /** The escape as a character-by-character translation. */
  function EscapeChars(t: string): (r: string)
    ensures '<' !in r && '>' !in r && '"' !in r
  {
    if t == [] then [] else Entity(t[0]) + EscapeChars(t[1..])
  }

  lemma {:induction false} ReplaceCharConcat(a: string, b: string, c: char, w: string)
    ensures ReplaceChar(a + b, c, w) == ReplaceChar(a, c, w) + ReplaceChar(b, c, w)
    decreases |a|
  {
    if |a| == 0 {
      assert a + b == b;
    } else {
      var h := if a[0] == c then w else [a[0]];
      calc {
        ReplaceChar(a + b, c, w);
      == { assert (a + b)[0] == a[0] && (a + b)[1..] == a[1..] + b; }
        h + ReplaceChar(a[1..] + b, c, w);
      == { ReplaceCharConcat(a[1..], b, c, w); }
        h + (ReplaceChar(a[1..], c, w) + ReplaceChar(b, c, w));
      ==
        (h + ReplaceChar(a[1..], c, w)) + ReplaceChar(b, c, w);
      }
    }
  }

  /** The replacement on a one-character string. */
  lemma ReplaceOne(x: char, c: char, w: string)
    ensures ReplaceChar([x], c, w) == if x == c then w else [x]
  {
    assert [x][1..] == [];
  }

  /** The four sequential replacements translate each character on its own. */
  lemma {:induction false} EscapeAsChars(t: string)
    ensures ReplaceChar(ReplaceChar(ReplaceChar(ReplaceChar(t, '&', "&amp;"), '<', "&lt;"), '>', "&gt;"), '"', "&quot;")
            == EscapeChars(t)
  {
    if t != [] {
      var c := t[0];
      assert t == [c] + t[1..];
      ReplaceCharConcat([c], t[1..], '&', "&amp;");
      var h1 := ReplaceChar([c], '&', "&amp;");
      var t1 := ReplaceChar(t[1..], '&', "&amp;");
      ReplaceCharConcat(h1, t1, '<', "&lt;");
      var h2 := ReplaceChar(h1, '<', "&lt;");
      var t2 := ReplaceChar(t1, '<', "&lt;");
      ReplaceCharConcat(h2, t2, '>', "&gt;");
      var h3 := ReplaceChar(h2, '>', "&gt;");
      var t3 := ReplaceChar(t2, '>', "&gt;");
      ReplaceCharConcat(h3, t3, '"', "&quot;");
      var h4 := ReplaceChar(h3, '"', "&quot;");
      assert h4 == Entity(c) by { EntityAsReplacements(c); }
      EscapeAsChars(t[1..]);
    }
  }

  lemma EntityAsReplacements(c: char)
    ensures ReplaceChar(ReplaceChar(ReplaceChar(ReplaceChar([c], '&', "&amp;"), '<', "&lt;"), '>', "&gt;"), '"', "&quot;")
            == Entity(c)
  {
    ReplaceOne(c, '&', "&amp;");
    if c == '&' {
      assert '<' !in "&amp;" && '>' !in "&amp;" && '"' !in "&amp;";
    } else {
      ReplaceOne(c, '<', "&lt;");
      if c == '<' {
        assert '>' !in "&lt;" && '"' !in "&lt;";
      } else {
        ReplaceOne(c, '>', "&gt;");
        if c == '>' {
          assert '"' !in "&gt;";
        } else {
          ReplaceOne(c, '"', "&quot;");
        }
      }
    }
  }

  lemma {:induction false} EscapeCharsProtected(t: string)
    ensures Protected(EscapeChars(t), '&', Entities)
  {
    if t != [] {
      var c := t[0];
      assert Protected(Entity(c), '&', Entities) by {
        var e := Entity(c);
        if c == '&' {
          WordIsProtected(Entities, 0, '&');
        } else if c == '<' {
          WordIsProtected(Entities, 1, '&');
        } else if c == '>' {
          WordIsProtected(Entities, 2, '&');
        } else if c == '"' {
          WordIsProtected(Entities, 3, '&');
        } else {
          NoLeadProtected(e, '&', Entities);
        }
      }
      EscapeCharsProtected(t[1..]);
      ConcatProtected(Entity(c), EscapeChars(t[1..]), '&', Entities);
    }
  }

  /** Decodes the four entities; every other character stands for itself. */
  function Unescape(s: string): string
    decreases |s|
  {
    if s == [] then []
    else if StartsWith(s, "&amp;") then "&" + Unescape(s[5..])
    else if StartsWith(s, "&lt;") then "<" + Unescape(s[4..])
    else if StartsWith(s, "&gt;") then ">" + Unescape(s[4..])
    else if StartsWith(s, "&quot;") then "\"" + Unescape(s[6..])
    else [s[0]] + Unescape(s[1..])
  }

  /** Escaping loses nothing: decoding the escaped text gives the text back. */
  lemma {:induction false} UnescapeEscape(t: string)
    ensures Unescape(EscapeHtml(t)) == t
  {
    EscapeAsChars(t);
    UnescapeChars(t);
  }

  lemma {:induction false} UnescapeChars(t: string)
    ensures Unescape(EscapeChars(t)) == t
  {
    if t != [] {
      var c := t[0];
      var rest := EscapeChars(t[1..]);
      var s := Entity(c) + rest;
      assert EscapeChars(t) == s;
      UnescapeChars(t[1..]);
      if c == '&' {
        assert s[..5] == "&amp;" && s[5..] == rest;
      } else if c == '<' {
        assert s[1] == 'l';
        NotPrefix(s, "&amp;", 1);
        assert s[..4] == "&lt;" && s[4..] == rest;
      } else if c == '>' {
        assert s[1] == 'g';
        NotPrefix(s, "&amp;", 1);
        NotPrefix(s, "&lt;", 1);
        assert s[..4] == "&gt;" && s[4..] == rest;
      } else if c == '"' {
        assert s[1] == 'q';
        NotPrefix(s, "&amp;", 1);
        NotPrefix(s, "&lt;", 1);
        NotPrefix(s, "&gt;", 1);
        assert s[..6] == "&quot;" && s[6..] == rest;
      } else {
        assert s[0] == c;
        NotPrefix(s, "&amp;", 0);
        NotPrefix(s, "&lt;", 0);
        NotPrefix(s, "&gt;", 0);
        NotPrefix(s, "&quot;", 0);
        assert s[1..] == rest;
      }
      assert t == [c] + t[1..];
    }
  }

  lemma NotPrefix(s: string, p: string, i: nat)
    requires i < |p| && (i >= |s| || s[i] != p[i])
    ensures !StartsWith(s, p)
  {
    if |p| <= |s| {
      assert s[..|p|][i] == s[i];
    }
  }

  // ---------------------------------------------------------------------------
  // Inline formatting
  // ---------------------------------------------------------------------------

  /** `**text**` and `__text__` become bold, `*text*` and `_text_` italic
      (the underscore form only between non-word characters), `` `text` ``
      code, and `[text](url)` a link opening in a new tab. */
  const InlinePasses: seq<Pattern> := [
    Lazy("**", "**", "<strong>", "</strong>", false),
    Lazy("__", "__", "<strong>", "</strong>", false),
    Lazy("*", "*", "<em>", "</em>", false),
    Lazy("_", "_", "<em>", "</em>", true),
    Lazy("`", "`", "<code>", "</code>", false),
    LazyLink
  ]

  /** The tags the inline step inserts that begin with `<`. */
  const Tags: seq<string> := ["<strong>", "</strong>", "<em>", "</em>", "<code>", "</code>", AnchorOpen, AnchorClose]

  /** `processInline`: escape, then the formatting passes in order. */
  function ProcessInline(t: string): string {
    ApplyPasses(InlinePasses, EscapeHtml(t))
  }

  /** The characters the inline passes can start a match with. */
  const Markup: set<char> := {'*', '_', '`', '['}

  /** The characters after the `<` of a tag the inline step inserts. */
  const TagAlphabet: set<char> :=
    {'s', 't', 'r', 'o', 'n', 'g', '>', '/', 'e', 'm', 'c', 'd', 'a', ' ', 'h', 'f', '=', '"'}

  /** Text with nothing to escape is left as it is. */
  lemma EscapePlain(t: string)
    requires '&' !in t && '<' !in t && '>' !in t && '"' !in t
    ensures EscapeHtml(t) == t
  {
  }

  /** Text with no markup character comes out merely escaped. */
  lemma PlainInline(t: string)
    requires forall i :: 0 <= i < |t| ==> t[i] !in Markup
    ensures ProcessInline(t) == EscapeHtml(t)
  {
    var e := EscapeHtml(t);
    EscapeAsChars(t);
    EscapeCharsAvoid(t);
    InlineOpeners();
    ApplyPassesUnchanged(InlinePasses, e);
  }

  lemma InlineOpeners()
    ensures AllValid(InlinePasses)
    ensures forall k :: 0 <= k < |InlinePasses| ==> Opener(InlinePasses[k]) in Markup
  {
  }

  /** Escaping writes no markup character of its own. */
  lemma {:induction false} EscapeCharsAvoid(t: string)
    requires forall i :: 0 <= i < |t| ==> t[i] !in Markup
    ensures forall i :: 0 <= i < |EscapeChars(t)| ==> EscapeChars(t)[i] !in Markup
  {
    if t != [] {
      EscapeCharsAvoid(t[1..]);
      var e := Entity(t[0]);
      assert forall i :: 0 <= i < |e| ==> e[i] !in Markup;
      assert EscapeChars(t) == e + EscapeChars(t[1..]);
    }
  }

  /** Escaping happens before any tag is inserted, so the only `<` in the
      result begin the converter's own tags and the only `&` begin entities. */
  lemma ProcessInlineProtected(t: string)
    ensures Protected(ProcessInline(t), '<', Tags)
    ensures Protected(ProcessInline(t), '&', Entities)
  {
    var e := EscapeHtml(t);
    NoLeadProtected(e, '<', Tags);
    InlineWordsFit();
    ApplyPassesProtected(InlinePasses, e, '<', Tags, TagAlphabet);
    ApplyPassesProtected(InlinePasses, e, '&', Entities, EntityAlphabet);
  }

  lemma InlineWordsFit()
    ensures AllValid(InlinePasses)
    ensures forall k :: 0 <= k < |InlinePasses| ==> WordsFit(Tags, '<', TagAlphabet, InlinePasses[k])
    ensures forall k :: 0 <= k < |InlinePasses| ==> InsertsProtected(InlinePasses[k], '<', Tags)
    ensures forall k :: 0 <= k < |InlinePasses| ==> WordsFit(Entities, '&', EntityAlphabet, InlinePasses[k])
    ensures forall k :: 0 <= k < |InlinePasses| ==> InsertsProtected(InlinePasses[k], '&', Entities)
  {
    InlineShapes();
    forall k | 0 <= k < |InlinePasses|
      ensures WordsFit(Tags, '<', TagAlphabet, InlinePasses[k])
      ensures WordsFit(Entities, '&', EntityAlphabet, InlinePasses[k])
    {
      MarkupPassFits(InlinePasses[k]);
    }
    InlineInserts();
  }

  /** The characters inline matches start with or end their groups at. */
  const Delimiters: set<char> := {'*', '_', '`', '[', ']', ')'}

  lemma InlineShapes()
    ensures AllValid(InlinePasses)
    ensures forall k :: 0 <= k < |InlinePasses| ==> Opener(InlinePasses[k]) in Delimiters
    ensures forall k :: 0 <= k < |InlinePasses| ==> GroupEnds(InlinePasses[k]) <= Delimiters
  {
  }

  /** A pass whose delimiters are markup characters suits both word lists. */
  lemma MarkupPassFits(p: Pattern)
    requires ValidPattern(p) && Opener(p) in Delimiters && GroupEnds(p) <= Delimiters
    ensures WordsFit(Tags, '<', TagAlphabet, p)
    ensures WordsFit(Entities, '&', EntityAlphabet, p)
  {
    TagsFit(p);
    EntitiesFit(p);
  }

  lemma TagsFit(p: Pattern)
    requires ValidPattern(p) && Opener(p) in Delimiters && GroupEnds(p) <= Delimiters
    ensures WordsFit(Tags, '<', TagAlphabet, p)
  {
    TagsOver();
  }

  lemma EntitiesFit(p: Pattern)
    requires ValidPattern(p) && Opener(p) in Delimiters && GroupEnds(p) <= Delimiters
    ensures WordsFit(Entities, '&', EntityAlphabet, p)
  {
    EntitiesOver();
  }

  lemma InlineInserts()
    ensures forall k :: 0 <= k < |InlinePasses| ==> InsertsProtected(InlinePasses[k], '<', Tags)
    ensures forall k :: 0 <= k < |InlinePasses| ==> InsertsProtected(InlinePasses[k], '&', Entities)
  {
    InlineInsertsTags();
    InlineInsertsEntities();
  }

  lemma TagWordsProtected()
    ensures forall k :: 0 <= k < |Tags| ==> Protected(Tags[k], '<', Tags)
  {
    TagsOver();
    OverLed(Tags, '<', TagAlphabet);
    forall k | 0 <= k < |Tags|
      ensures Protected(Tags[k], '<', Tags)
    {
      WordIsProtected(Tags, k, '<');
    }
  }

  lemma InlineInsertsTags()
    ensures forall k :: 0 <= k < |InlinePasses| ==> InsertsProtected(InlinePasses[k], '<', Tags)
  {
    TagWordsProtected();
    NoLeadProtected(AnchorMid, '<', Tags);
    assert Protected(Tags[0], '<', Tags) && Protected(Tags[1], '<', Tags);
    assert Protected(Tags[2], '<', Tags) && Protected(Tags[3], '<', Tags);
    assert Protected(Tags[4], '<', Tags) && Protected(Tags[5], '<', Tags);
    assert Protected(Tags[6], '<', Tags) && Protected(Tags[7], '<', Tags);
  }

  lemma InlineInsertsEntities()
    ensures forall k :: 0 <= k < |InlinePasses| ==> InsertsProtected(InlinePasses[k], '&', Entities)
  {
    InlineAvoidsAmpersand();
    forall k | 0 <= k < |InlinePasses|
      ensures InsertsProtected(InlinePasses[k], '&', Entities)
    {
      AvoidProtected(InlinePasses[k], '&', Entities);
    }
  }

  lemma InlineAvoidsAmpersand()
    ensures forall k :: 0 <= k < |InlinePasses| ==> InsertsAvoid(InlinePasses[k], '&')
  {
    AnchorAvoidsAmpersand();
    TagsAvoidAmpersand();
  }

  lemma TagsAvoidAmpersand()
    ensures '&' !in "<strong>" && '&' !in "</strong>" && '&' !in "<em>" && '&' !in "</em>"
    ensures '&' !in "<code>" && '&' !in "</code>"
  {
  }

  lemma AnchorAvoidsAmpersand()
    ensures '&' !in AnchorOpen && '&' !in AnchorMid && '&' !in AnchorClose
  {
  }

  lemma TagsOver()
    ensures WordsOver(Tags, '<', TagAlphabet)
  {
  }

  lemma EntitiesOver()
    ensures WordsOver(Entities, '&', EntityAlphabet)
  {
  }
}

=== FILE: lineup.dfy ===
// The lineup views: the artist grid (revealed artists, day filter, mystery
// cards for the slots still to be revealed), the home-page preview and the
// lineup page's phase manager. Rendering is reduced to the sequence of cards
// each view shows and the counts it prints; the clock and the date parser
// used for the "new" badge are parameters.
module Lineup {
  import opened Wrappers
  import opened Types
  import opened Seqs
  import opened Utils

  /** The grid's day filter: every day, or one festival day. */
  datatype DayFilter = AllDays | OnDay(day: int)

  datatype Card = ArtistCard(artist: Artist, isNew: bool) | MysteryCard

  /** The clock and the date parser, the two inputs the "new" badge needs. */
  datatype Clock = Clock(now: int, parseDate: string -> Option<int>)

  function IsRevealed(a: Artist): bool { a.revealed }

  function Revealed(artists: seq<Artist>): seq<Artist> {
    Filter(artists, IsRevealed)
  }

  function OnDayOf(d: int): Artist -> bool {
    (a: Artist) => a.day == d
  }

  /** The revealed artists the filter lets through, in input order. */
  function Shown(artists: seq<Artist>, filter: DayFilter): seq<Artist> {
    match filter
    case AllDays => Revealed(artists)
    case OnDay(d) => Filter(Revealed(artists), OnDayOf(d))
  }

  /** `Array.from({ length: n })` with an integer `n`: a negative length is an empty array. */
  function ArrayOfLength<T>(x: T, n: int): (r: seq<T>)
    ensures |r| == if n < 0 then 0 else n
    ensures forall i :: 0 <= i < |r| ==> r[i] == x
  {
    if n <= 0 then [] else [x] + ArrayOfLength(x, n - 1)
  }

  function Max(a: int, b: int): int { if a < b then b else a }
  function Min(a: int, b: int): int { if a < b then a else b }

  /**
   * Slots still to be revealed: none once the lineup is complete, otherwise
   * the configured slot count minus every revealed artist, whatever the filter.
   */
  function MysteryCount(config: LineupConfig, artists: seq<Artist>): int {
    if config.phase == CompletePhase then 0 else config.totalSlots - |Revealed(artists)|
  }

  function ArtistCards(shown: seq<Artist>, config: LineupConfig, clock: Clock): (r: seq<Card>)
    ensures |r| == |shown|
    ensures forall i :: 0 <= i < |r| ==>
      r[i] == ArtistCard(shown[i], IsNewlyRevealed(clock.parseDate(shown[i].revealDate), clock.now, config.newBadgeDays))
  {
    seq(|shown|, i requires 0 <= i < |shown| =>
      ArtistCard(shown[i], IsNewlyRevealed(clock.parseDate(shown[i].revealDate), clock.now, config.newBadgeDays)))
  }

  /**
   * The cards of the artist grid: a card per shown artist, then, before the
   * lineup is complete and only with the `all` filter, one mystery card per
   * unrevealed slot. An omitted filter means `all`.
   */
  function ArtistGrid(artists: seq<Artist>, config: LineupConfig, filterDay: Option<DayFilter>, clock: Clock): seq<Card> {
    var filter := filterDay.GetOr(AllDays);
    var mystery := if config.phase != CompletePhase && filter == AllDays
                   then ArrayOfLength(MysteryCard, Max(0, MysteryCount(config, artists)))
                   else [];
    ArtistCards(Shown(artists, filter), config, clock) + mystery
  }

  function CountMystery(cards: seq<Card>): (n: nat)
    ensures n <= |cards|
  {
    if |cards| == 0 then 0 else (if cards[0] == MysteryCard then 1 else 0) + CountMystery(cards[1..])
  }

  lemma {:induction false} CountMysteryConcat(a: seq<Card>, b: seq<Card>)
    ensures CountMystery(a + b) == CountMystery(a) + CountMystery(b)
  {
    if |a| > 0 {
      assert (a + b)[1..] == a[1..] + b;
      CountMysteryConcat(a[1..], b);
    } else {
      assert a + b == b;
    }
  }

  lemma {:induction false} CountMysteryArtists(shown: seq<Artist>, config: LineupConfig, clock: Clock)
    ensures CountMystery(ArtistCards(shown, config, clock)) == 0
  {
    if |shown| > 0 {
      var cards := ArtistCards(shown, config, clock);
      assert cards[1..] == ArtistCards(shown[1..], config, clock);
      CountMysteryArtists(shown[1..], config, clock);
    }
  }

  lemma {:induction false} CountMysteryArray(n: int)
    ensures CountMystery(ArrayOfLength(MysteryCard, n)) == if n < 0 then 0 else n
    decreases n
  {
    if n > 0 {
      assert ArrayOfLength(MysteryCard, n)[1..] == ArrayOfLength(MysteryCard, n - 1);
      CountMysteryArray(n - 1);
    }
  }

  /**
   * The grid is the shown artists' cards, each with its "new" flag, followed by
   * max(0, totalSlots - revealed) mystery cards before completion with the
   * `all` filter, and no mystery card otherwise.
   */
  lemma GridShape(artists: seq<Artist>, config: LineupConfig, filterDay: Option<DayFilter>, clock: Clock)
    ensures var g := ArtistGrid(artists, config, filterDay, clock);
      var shown := Shown(artists, filterDay.GetOr(AllDays));
      && |shown| <= |g|
      && (forall i :: 0 <= i < |shown| ==>
            g[i] == ArtistCard(shown[i], IsNewlyRevealed(clock.parseDate(shown[i].revealDate), clock.now, config.newBadgeDays)))
      && CountMystery(g) == (if config.phase != CompletePhase && filterDay.GetOr(AllDays) == AllDays
                             then Max(0, config.totalSlots - |Revealed(artists)|) else 0)
  {
    var filter := filterDay.GetOr(AllDays);
    var cards := ArtistCards(Shown(artists, filter), config, clock);
    var mystery := if config.phase != CompletePhase && filter == AllDays
                   then ArrayOfLength(MysteryCard, Max(0, MysteryCount(config, artists)))
                   else [];
    CountMysteryConcat(cards, mystery);
    CountMysteryArtists(Shown(artists, filter), config, clock);
    CountMysteryArray(Max(0, MysteryCount(config, artists)));
  }

  /** An artist appears in the grid exactly when it is revealed and passes the day filter. */
  lemma ShownMembers(artists: seq<Artist>, filter: DayFilter, a: Artist)
    ensures a in Shown(artists, filter) <==>
      a in artists && a.revealed && (filter.OnDay? ==> a.day == filter.day)
  {
    FilterMembers(artists, IsRevealed, a);
    if filter.OnDay? {
      FilterMembers(Revealed(artists), OnDayOf(filter.day), a);
    }
  }

  /** A day filter is the single filter "revealed and on that day", in input order. */
  lemma ShownOnDay(artists: seq<Artist>, d: int)
    ensures Shown(artists, OnDay(d)) == Filter(artists, (a: Artist) => a.revealed && a.day == d)
  {
    FilterFilter(artists, IsRevealed, OnDayOf(d), (a: Artist) => a.revealed && a.day == d);
  }

  /** With every artist on day 1 or 2, the two day filters split the revealed artists between them. */
  lemma DaysSplitRevealed(artists: seq<Artist>)
    requires forall i :: 0 <= i < |artists| ==> ValidArtist(artists[i])
    ensures |Shown(artists, OnDay(1))| + |Shown(artists, OnDay(2))| == |Shown(artists, AllDays)|
  {
    var rev := Revealed(artists);
    forall i | 0 <= i < |rev|
      ensures OnDayOf(1)(rev[i]) != OnDayOf(2)(rev[i])
    {
      assert rev[i] in rev;
      FilterMembers(artists, IsRevealed, rev[i]);
    }
    FilterPartition(rev, OnDayOf(1), OnDayOf(2));
  }

  // ---------------------------------------------------------------------------
  // Home-page preview
  // ---------------------------------------------------------------------------

  /** Number of silhouettes the coming-soon preview shows. */
  const PreviewSilhouettes := 3

  /** Cards of the preview grids. */
  const PreviewCards := 6

  datatype Preview =
    | PreviewComingSoon(silhouettes: nat)
      /** Revealed artists, mystery cards, and the remaining-slot count when one is printed. */
    | PreviewRevealing(artists: seq<Artist>, mystery: nat, remainingMessage: Option<int>)
    | PreviewComplete(headliners: seq<Artist>)

  /** The preview of the lineup; an unrecognised phase renders no phase view. */
  function LineupPreview(config: LineupConfig, artists: seq<Artist>): Option<Preview> {
    var revealed := Revealed(artists);
    match config.phase
    case ComingSoonPhase => Some(PreviewComingSoon(PreviewSilhouettes))
    case RevealingPhase =>
      var remaining := config.totalSlots - |revealed|;
      var mystery := ArrayOfLength(MysteryCard, Min(remaining, PreviewCards - |revealed|));
      Some(PreviewRevealing(revealed, |mystery|, if remaining > 0 then Some(remaining) else None))
    case CompletePhase =>
      Some(PreviewComplete(revealed[..Min(PreviewCards, |revealed|)]))
    case UnknownPhase(_) => None
  }

  /**
   * In the revealing preview the mystery count is max(0, min(remaining, 6 -
   * revealed)), so with fewer than six revealed artists at most six cards are
   * shown; the remaining-slot message appears exactly when slots remain.
   */
  lemma PreviewRevealingCounts(config: LineupConfig, artists: seq<Artist>)
    requires config.phase == RevealingPhase
    ensures var p := LineupPreview(config, artists).value;
      var n := |Revealed(artists)|;
      var remaining := config.totalSlots - n;
      && p.PreviewRevealing?
      && p.artists == Revealed(artists)
      && p.mystery == Max(0, Min(remaining, PreviewCards - n))
      && (n < PreviewCards ==> n + p.mystery <= PreviewCards)
      && (p.remainingMessage.Some? <==> remaining > 0)
      && (p.remainingMessage.Some? ==> p.remainingMessage.value == remaining)
  {
  }

  /** The complete preview lists the first (at most six) revealed artists, in input order. */
  lemma PreviewHeadliners(config: LineupConfig, artists: seq<Artist>)
    requires config.phase == CompletePhase
    ensures var p := LineupPreview(config, artists).value;
      var rev := Revealed(artists);
      && p.PreviewComplete?
      && |p.headliners| == Min(PreviewCards, |rev|)
      && (forall i :: 0 <= i < |p.headliners| ==> p.headliners[i] == rev[i] && p.headliners[i].revealed)
  {
  }

  /** Each phase selects its own view, and only an unrecognised phase selects none. */
  lemma PreviewPhaseViews(config: LineupConfig, artists: seq<Artist>)
    ensures LineupPreview(config, artists).None? <==> config.phase.UnknownPhase?
    ensures LineupPreview(config, artists).Some? ==>
      (LineupPreview(config, artists).value.PreviewComingSoon? <==> config.phase == ComingSoonPhase)
      && (LineupPreview(config, artists).value.PreviewRevealing? <==> config.phase == RevealingPhase)
      && (LineupPreview(config, artists).value.PreviewComplete? <==> config.phase == CompletePhase)
  {
  }

  // ---------------------------------------------------------------------------
  // Lineup page
  // ---------------------------------------------------------------------------

  /** Cards of the coming-soon teaser grid. */
  const TeaserCards := 8

  /** The filter the complete view starts with. */
  const InitialDayFilter := AllDays

  datatype PageView =
    | ComingSoonView(mysteryCards: nat, slotsMessage: int)
    | RevealingView(remainingMessage: Option<int>, grid: seq<Card>)
    | CompleteView(filter: DayFilter, grid: seq<Card>)

  /**
   * The lineup page for a configuration; `dayFilter` is the complete view's
   * selected filter (initially `InitialDayFilter`). A phase the page does not
   * know is shown as coming soon.
   */
  function LineupPage(config: LineupConfig, artists: seq<Artist>, dayFilter: DayFilter, clock: Clock): PageView {
    match config.phase
    case RevealingPhase =>
      var remaining := config.totalSlots - |Revealed(artists)|;
      RevealingView(if remaining > 0 then Some(remaining) else None, ArtistGrid(artists, config, None, clock))
    case CompletePhase =>
      CompleteView(dayFilter, ArtistGrid(artists, config, Some(dayFilter), clock))
    case _ =>
      ComingSoonView(|ArrayOfLength(MysteryCard, Min(config.totalSlots, TeaserCards))|, config.totalSlots)
  }

  /** An unrecognised phase renders exactly as `coming_soon`, with 0 to 8 teaser cards. */
  lemma PageFallsBackToComingSoon(config: LineupConfig, artists: seq<Artist>, dayFilter: DayFilter, clock: Clock)
    requires config.phase == ComingSoonPhase || config.phase.UnknownPhase?
    ensures var v := LineupPage(config, artists, dayFilter, clock);
      && v == LineupPage(config.(phase := ComingSoonPhase), artists, dayFilter, clock)
      && v.ComingSoonView?
      && v.mysteryCards == Max(0, Min(config.totalSlots, TeaserCards))
      && v.mysteryCards <= TeaserCards
  {
  }

  /**
   * While revealing, the page's grid uses the `all` filter, and when slots
   * remain the printed count equals the number of mystery cards in the grid.
   */
  lemma RevealingPageAgrees(config: LineupConfig, artists: seq<Artist>, dayFilter: DayFilter, clock: Clock)
    requires config.phase == RevealingPhase
    ensures var v := LineupPage(config, artists, dayFilter, clock);
      && v.RevealingView?
      && v.grid == ArtistGrid(artists, config, Some(AllDays), clock)
      && (v.remainingMessage.Some? <==> CountMystery(v.grid) > 0)
      && (v.remainingMessage.Some? ==> v.remainingMessage.value == CountMystery(v.grid))
  {
    GridShape(artists, config, None, clock);
  }

  /** Once complete, the page's grid follows the selected filter and holds no mystery card. */
  lemma CompletePageGrid(config: LineupConfig, artists: seq<Artist>, dayFilter: DayFilter, clock: Clock)
    requires config.phase == CompletePhase
    ensures var v := LineupPage(config, artists, dayFilter, clock);
      && v.CompleteView?
      && v.filter == dayFilter
      && v.grid == ArtistCards(Shown(artists, dayFilter), config, clock)
      && CountMystery(v.grid) == 0
  {
    CountMysteryArtists(Shown(artists, dayFilter), config, clock);
    assert ArtistGrid(artists, config, Some(dayFilter), clock) == ArtistCards(Shown(artists, dayFilter), config, clock) + [];
  }
}

=== FILE: markdown.dfy ===
/** The site's own markdown converter for rules, about and artist texts: a
    line scanner that recognises horizontal rules, ATX headings, ordered and
    unordered lists and paragraphs, each rendered with the inline step. */
module Markdown {
  import opened Text
  import opened Wrappers
  import opened Passes
  import opened PassFacts
  import opened Inline

  // ---------------------------------------------------------------------------
  // Block recognisers; each is applied to a trimmed line
  // ---------------------------------------------------------------------------

  /** `/^(-{3,}|\*{3,}|_{3,})$/`: three or more of one of `-`, `*`, `_`. */
  predicate IsHr(t: string) {
    |t| >= 3 && (AllChar(t, '-') || AllChar(t, '*') || AllChar(t, '_'))
  }

  datatype Heading = Heading(level: nat, text: string)

  /** `t.match(/^(#{1,6})\s+(.+)$/)`: one to six `#`, at least one space,
      then text without line terminators up to the end. The space run is
      greedy; it gives its last character back to the text only when nothing
      follows it. */
  function HeadingMatch(t: string): (r: Option<Heading>)
    ensures r.Some? ==> 1 <= r.value.level <= 6 && |r.value.text| > 0 && NoTerminator(r.value.text)
    ensures r.Some? ==> var k := r.value.level; var n := |t| - |r.value.text|;
      && k < n && t[..k] == Repeat('#', k) && AllSpace(t[k..n]) && t[n..] == r.value.text
  {
    var k := CountLeading(t, '#');
    var m := CountLeadingSpaces(t[k..]);
    var rest := t[k + m..];
    if k < 1 || k > 6 || m < 1 then None
    else if rest != [] then
      if NoTerminator(rest) then
        assert t[..k] == Repeat('#', k);
        assert t[k..k + m] == t[k..][..m];
        Some(Heading(k, rest))
      else None
    else if m >= 2 && !IsLineTerminator(t[|t| - 1]) then
      assert t[..k] == Repeat('#', k);
      assert t[k..|t| - 1] == t[k..][..m][..m - 1];
      assert t[|t| - 1..] == [t[|t| - 1]];
      Some(Heading(k, [t[|t| - 1]]))
    else None
  }

  /** `/^\d+\.\s+/.test(t)`: digits, a dot and a space. */
  predicate IsOlItem(t: string) {
    var d := CountLeadingDigits(t);
    d >= 1 && d + 1 < |t| && t[d] == '.' && IsSpace(t[d + 1])
  }

  /** `/^[-*]\s+/.test(t)`: a dash or star and a space. */
  predicate IsUlItem(t: string) {
    |t| >= 2 && (t[0] == '-' || t[0] == '*') && IsSpace(t[1])
  }

  datatype ListKind = Ordered | Unordered

  predicate IsItem(kind: ListKind, t: string) {
    match kind
    case Ordered => IsOlItem(t)
    case Unordered => IsUlItem(t)
  }

  /** `t.replace(/^\d+\.\s+/, '')` or `t.replace(/^[-*]\s+/, '')`: the item
      with its marker and the greedy space run after it removed, and `t`
      itself when the marker is not there. */
  function ItemText(kind: ListKind, t: string): (r: string)
    ensures !IsItem(kind, t) ==> r == t
    ensures IsItem(kind, t) ==> |r| < |t|
  {
    if !IsItem(kind, t) then t
    else
      var p := MarkerLength(kind, t);
      t[p + CountLeadingSpaces(t[p..])..]
  }

  /** On an item, what `ItemText` removes is the marker and then one or more
      spaces, and what it keeps is the rest of the line, not starting with a
      space. */
  lemma ItemTextShape(kind: ListKind, t: string)
    requires IsItem(kind, t)
    ensures var r := ItemText(kind, t); var p := MarkerLength(kind, t);
      && p < |t| - |r| && r == t[|t| - |r|..]
      && AllSpace(t[p..|t| - |r|]) && (r == [] || !IsSpace(r[0]))
  {
    var p := MarkerLength(kind, t);
    var m := CountLeadingSpaces(t[p..]);
    assert m >= 1 by { assert t[p..][0] == t[p]; }
    assert t[p..p + m] == t[p..][..m];
  }

  /** The length of `\d+\.` or `[-*]`. */
  function MarkerLength(kind: ListKind, t: string): (n: nat)
    requires IsItem(kind, t)
    ensures n < |t| && IsSpace(t[n])
  {
    match kind
    case Ordered => CountLeadingDigits(t) + 1
    case Unordered => 1
  }

  /** A rule for which lines continue a paragraph. As written, a paragraph
      stops at any line that starts with `#`; corrected, only at a line that
      is a heading. */
  datatype Rule = AsWritten | Corrected

  predicate ParagraphLine(rule: Rule, t: string) {
    && t != ""
    && (match rule
        case AsWritten => !StartsWith(t, "#")
        case Corrected => HeadingMatch(t).None?)
    && !IsUlItem(t) && !IsOlItem(t) && !IsHr(t)
  }

  /** A line the as-written scanner cannot get past: it starts with `#` but
      is not a heading, so no branch consumes it. */
  predicate Stuck(t: string) {
    StartsWith(t, "#") && HeadingMatch(t).None?
  }

  // ---------------------------------------------------------------------------
  // The scanner. It works on the trimmed lines: every test the loop makes
  // looks at `lines[i].trim()`, which is the same string each time. It
  // yields block descriptions; rendering them to HTML is separate.
  // ---------------------------------------------------------------------------

  /** Every line trimmed. */
  function TrimLines(lines: seq<string>): (ts: seq<string>)
    ensures |ts| == |lines|
    ensures forall k :: 0 <= k < |ts| ==> ts[k] == Trim(lines[k])
  {
    seq(|lines|, k requires 0 <= k < |lines| => Trim(lines[k]))
  }

  datatype Run = ListRun(kind: ListKind) | ParagraphRun(rule: Rule)

  predicate InRun(run: Run, t: string) {
    match run
    case ListRun(kind) => IsItem(kind, t)
    case ParagraphRun(rule) => ParagraphLine(rule, t)
  }

  /** The end of the maximal run of lines from `i` that belong to `run`: the
      inner `while` loops of the list and paragraph branches. */
  function RunEnd(ts: seq<string>, i: nat, run: Run): (j: nat)
    requires i <= |ts|
    ensures i <= j <= |ts|
    ensures forall k :: i <= k < j ==> InRun(run, ts[k])
    ensures j < |ts| ==> !InRun(run, ts[j])
    decreases |ts| - i
  {
    if i < |ts| && InRun(run, ts[i]) then RunEnd(ts, i + 1, run) else i
  }

  /** One element of `htmlParts`, before rendering: a rule, a heading, a list
      made of lines `from..to`, or a paragraph made of lines `from..to`. */
  datatype Block =
    | HrBlock
    | HeadingBlock(heading: Heading)
    | ListBlock(kind: ListKind, from: nat, to: nat)
    | ParagraphBlock(from: nat, to: nat)

  /** Where one turn of the scan loop leaves `i`, and the block it emits. */
  datatype StepResult = StepResult(next: nat, blocks: seq<Block>)

  /** One turn of the scan loop at line `i`. It moves past line `i` unless
      the rule is the as-written one and the line is stuck; a list or a
      paragraph covers exactly the lines it moves past, and each of them
      belongs to it. */
  function Step(ts: seq<string>, i: nat, rule: Rule): (r: StepResult)
    requires i < |ts|
    ensures i <= r.next <= |ts| && |r.blocks| <= 1
    ensures r.next == i <==> rule == AsWritten && Stuck(ts[i])
    ensures r.next == i ==> r.blocks == []
    ensures forall b :: b in r.blocks && b.HeadingBlock? ==> 1 <= b.heading.level <= 6
    ensures forall b :: b in r.blocks && (b.ListBlock? || b.ParagraphBlock?) ==>
      b.from == i && b.to == r.next
    ensures forall b :: b in r.blocks && b.ListBlock? ==>
      forall k :: i <= k < r.next ==> IsItem(b.kind, ts[k])
    ensures forall b :: b in r.blocks && b.ParagraphBlock? ==>
      forall k :: i <= k < r.next ==> ParagraphLine(rule, ts[k])
    // A blank line is skipped and a rule line is one `<hr />`.
    ensures ts[i] == "" ==> r == StepResult(i + 1, [])
    ensures ts[i] != "" && IsHr(ts[i]) ==> r == StepResult(i + 1, [HrBlock])
    // A heading line is one heading with the level and text the match captured.
    ensures ts[i] != "" && !IsHr(ts[i]) && HeadingMatch(ts[i]).Some? ==>
      r == StepResult(i + 1, [HeadingBlock(HeadingMatch(ts[i]).value)])
    // An item line starts one list that takes the whole run of items of its kind.
    ensures ts[i] != "" && !IsHr(ts[i]) && HeadingMatch(ts[i]).None? && IsOlItem(ts[i]) ==>
      && r.blocks == [ListBlock(Ordered, i, r.next)]
      && (r.next == |ts| || !IsOlItem(ts[r.next]))
    ensures ts[i] != "" && !IsHr(ts[i]) && HeadingMatch(ts[i]).None? && !IsOlItem(ts[i]) && IsUlItem(ts[i]) ==>
      && r.blocks == [ListBlock(Unordered, i, r.next)]
      && (r.next == |ts| || !IsUlItem(ts[r.next]))
    // A paragraph line starts one paragraph that takes the whole run of paragraph lines.
    ensures ParagraphLine(rule, ts[i]) ==>
      && r.blocks == [ParagraphBlock(i, r.next)]
      && (r.next == |ts| || !ParagraphLine(rule, ts[r.next]))
  {
    var t := ts[i];
    if t == "" then StepResult(i + 1, [])
    else if IsHr(t) then StepResult(i + 1, [HrBlock])
    else if HeadingMatch(t).Some? then StepResult(i + 1, [HeadingBlock(HeadingMatch(t).value)])
    else if IsOlItem(t) then ListStep(ts, i, Ordered)
    else if IsUlItem(t) then ListStep(ts, i, Unordered)
    else ParagraphStep(ts, i, rule)
  }

  /** The paragraph branch: one paragraph over the maximal run of paragraph
      lines, or nothing at all when line `i` is no paragraph line. */
  function ParagraphStep(ts: seq<string>, i: nat, rule: Rule): (r: StepResult)
    requires i < |ts|
    ensures ParagraphLine(rule, ts[i]) ==> i < r.next && r.blocks == [ParagraphBlock(i, r.next)]
    ensures !ParagraphLine(rule, ts[i]) ==> r == StepResult(i, [])
    ensures r.next <= |ts| && forall k :: i <= k < r.next ==> ParagraphLine(rule, ts[k])
    ensures r.next == |ts| || !ParagraphLine(rule, ts[r.next])
  {
    var j := RunEnd(ts, i, ParagraphRun(rule));
    if j > i then StepResult(j, [ParagraphBlock(i, j)])
    else StepResult(i, [])
  }

  /** The list branches: one list over the maximal run of items of the kind. */
  function ListStep(ts: seq<string>, i: nat, kind: ListKind): (r: StepResult)
    requires i < |ts| && IsItem(kind, ts[i])
    ensures i < r.next <= |ts| && r.blocks == [ListBlock(kind, i, r.next)]
    ensures forall k :: i <= k < r.next ==> IsItem(kind, ts[k])
    ensures r.next == |ts| || !IsItem(kind, ts[r.next])
  {
    var j := RunEnd(ts, i, ListRun(kind));
    StepResult(j, [ListBlock(kind, i, j)])
  }

  /** No line stops the as-written scan. */
  predicate NoStuck(ts: seq<string>) {
    forall k :: 0 <= k < |ts| ==> !Stuck(ts[k])
  }

  /** The blocks the scan emits from line `i` on. */
  function Blocks(ts: seq<string>, i: nat, rule: Rule): (bs: seq<Block>)
    requires i <= |ts|
    requires rule == AsWritten ==> NoStuck(ts)
    ensures forall b :: b in bs && (b.ListBlock? || b.ParagraphBlock?) ==> i <= b.from < b.to <= |ts|
    ensures forall b :: b in bs && b.HeadingBlock? ==> 1 <= b.heading.level <= 6
    decreases |ts| - i
  {
    if i == |ts| then []
    else
      var r := Step(ts, i, rule);
      r.blocks + Blocks(ts, r.next, rule)
  }

  // ---------------------------------------------------------------------------
  // Rendering. The inline step is a parameter here: the converter passes
  // `processInline`, and what rendering promises depends only on what the
  // inline step promises.
  // ---------------------------------------------------------------------------

  function ListItem(kind: ListKind, t: string, fmt: string -> string): string {
    "<li>" + fmt(ItemText(kind, t)) + "</li>"
  }

  /** `items.join('')` for one `<li>` per line of `ts[i..j]`, in order. */
  function ItemsHtml(kind: ListKind, ts: seq<string>, i: nat, j: nat, fmt: string -> string): string
    requires i <= j <= |ts|
    decreases j - i
  {
    if i == j then "" else ListItem(kind, ts[i], fmt) + ItemsHtml(kind, ts, i + 1, j, fmt)
  }

  function ListHtml(kind: ListKind, items: string): string {
    match kind
    case Ordered => "<ol>" + items + "</ol>"
    case Unordered => "<ul>" + items + "</ul>"
  }

  function HeadingHtml(h: Heading, fmt: string -> string): string {
    var n := NatToString(h.level);
    var open, close := "<h" + n + ">", "</h" + n + ">";
    open + fmt(h.text) + close
  }

  /** The lines of a paragraph joined with single spaces. */
  function ParagraphHtml(ts: seq<string>, i: nat, j: nat, fmt: string -> string): string
    requires i <= j <= |ts|
  {
    "<p>" + fmt(Join(ts[i..j], " ")) + "</p>"
  }

  predicate InBounds(ts: seq<string>, b: Block) {
    (b.ListBlock? || b.ParagraphBlock?) ==> b.from <= b.to <= |ts|
  }

  function Render(ts: seq<string>, b: Block, fmt: string -> string): string
    requires InBounds(ts, b)
  {
    match b
    case HrBlock => "<hr />"
    case HeadingBlock(h) => HeadingHtml(h, fmt)
    case ListBlock(kind, i, j) => ListHtml(kind, ItemsHtml(kind, ts, i, j, fmt))
    case ParagraphBlock(i, j) => ParagraphHtml(ts, i, j, fmt)
  }

  /** `htmlParts`: every block rendered, in order. */
  function RenderAll(ts: seq<string>, bs: seq<Block>, fmt: string -> string): (r: seq<string>)
    requires forall b :: b in bs ==> InBounds(ts, b)
    ensures |r| == |bs|
  {
    seq(|bs|, k requires 0 <= k < |bs| => Render(ts, bs[k], fmt))
  }

  /** `markdownToHtml` as written. It returns only when no trimmed line
      starts with `#` without being a heading. */
  function MarkdownToHtmlAsWritten(markdown: string): string
    requires NoStuck(TrimLines(Split(markdown, '\n')))
  {
    var ts := TrimLines(Split(markdown, '\n'));
    Join(RenderAll(ts, Blocks(ts, 0, AsWritten), ProcessInline), "\n")
  }

  /** `markdownToHtml` with a paragraph stopping only at real headings, so
      every line is consumed. */
  function MarkdownToHtml(markdown: string): string {
    var ts := TrimLines(Split(markdown, '\n'));
    Join(RenderAll(ts, Blocks(ts, 0, Corrected), ProcessInline), "\n")
  }

  // ---------------------------------------------------------------------------
  // What the recognisers accept
  // ---------------------------------------------------------------------------

  /** A rule line is three or more copies of one of `-`, `*`, `_`, and every
      such line is one. */
  lemma HrLine(c: char, n: nat)
    ensures IsHr(Repeat(c, n)) <==> n >= 3 && (c == '-' || c == '*' || c == '_')
  {
    var t := Repeat(c, n);
    if n >= 3 {
      assert t[0] == c;
    }
  }

  /** Every heading line is recognised: one to six `#`, a run of spaces, then
      text that starts with a non-space and holds no line terminator give
      back that level and that text. With `HeadingMatch`'s own contract, the
      match accepts exactly these lines when they are trimmed. */
  lemma HeadingMatchComplete(k: nat, ws: string, x: string)
    requires 1 <= k <= 6 && |ws| >= 1 && AllSpace(ws)
    requires x != [] && !IsSpace(x[0]) && NoTerminator(x)
    ensures HeadingMatch(Repeat('#', k) + ws + x) == Some(Heading(k, x))
  {
    var h := Repeat('#', k);
    var u := ws + x;
    var t := h + u;
    assert t == Repeat('#', k) + ws + x;
    assert CountLeading(t, '#') == k by {
      assert t[..k] == h;
      assert t[k] == ws[0];
      CountLeadingIs(t, '#', k);
    }
    assert t[k..] == u;
    assert CountLeadingSpaces(u) == |ws| by {
      assert u[..|ws|] == ws;
      CountLeadingSpacesIs(u, |ws|);
    }
    assert t[k + |ws|..] == x;
  }

  /** A bullet, spaces and the item text: the text is what the item keeps. */
  lemma BulletItemText(c: char, ws: string, x: string)
    requires c == '-' || c == '*'
    requires |ws| >= 1 && AllSpace(ws) && (x == [] || !IsSpace(x[0]))
    ensures IsUlItem([c] + ws + x)
    ensures ItemText(Unordered, [c] + ws + x) == x
  {
    var t := [c] + ws + x;
    assert t[1..] == ws + x;
    assert (ws + x)[..|ws|] == ws;
    CountLeadingSpacesIs(ws + x, |ws|);
    assert t[1 + |ws|..] == x;
  }

  /** Digits, a dot, spaces and the item text: the text is what the item
      keeps. */
  lemma NumberedItemText(d: string, ws: string, x: string)
    requires |d| >= 1 && forall i :: 0 <= i < |d| ==> IsDigit(d[i])
    requires |ws| >= 1 && AllSpace(ws) && (x == [] || !IsSpace(x[0]))
    ensures IsOlItem(d + "." + ws + x)
    ensures ItemText(Ordered, d + "." + ws + x) == x
  {
    var t := d + "." + ws + x;
    var n := |d|;
    assert t[n] == '.';
    CountLeadingDigitsIs(t, n);
    assert t[n + 1] == ws[0];
    assert t[n + 1..] == ws + x;
    assert (ws + x)[..|ws|] == ws;
    CountLeadingSpacesIs(ws + x, |ws|);
    assert t[n + 1 + |ws|..] == x;
  }

  // ---------------------------------------------------------------------------
  // The two paragraph rules
  // ---------------------------------------------------------------------------

  /** On a line that does not stop the as-written scan, the two rules agree:
      a line starting with `#` is then a heading, which ends a paragraph
      under both. */
  lemma ParagraphRulesAgree(t: string)
    requires !Stuck(t)
    ensures ParagraphLine(AsWritten, t) == ParagraphLine(Corrected, t)
  {
    if t != [] && !StartsWith(t, "#") {
      assert t[0] != '#' by { assert t[..1] == [t[0]]; }
      assert CountLeading(t, '#') == 0;
    }
  }

  lemma {:induction false} RunEndsAgree(ts: seq<string>, i: nat)
    requires i <= |ts| && NoStuck(ts)
    ensures RunEnd(ts, i, ParagraphRun(AsWritten)) == RunEnd(ts, i, ParagraphRun(Corrected))
    decreases |ts| - i
  {
    if i < |ts| {
      ParagraphRulesAgree(ts[i]);
      RunEndsAgree(ts, i + 1);
    }
  }

  /** When no line is stuck, the as-written and the corrected scans emit the
      same parts: the correction changes nothing on the inputs where the
      original returns. */
  lemma {:induction false} BlocksAgree(ts: seq<string>, i: nat)
    requires i <= |ts| && NoStuck(ts)
    ensures Blocks(ts, i, AsWritten) == Blocks(ts, i, Corrected)
    decreases |ts| - i
  {
    if i < |ts| {
      RunEndsAgree(ts, i);
      assert Step(ts, i, AsWritten) == Step(ts, i, Corrected);
      BlocksAgree(ts, Step(ts, i, AsWritten).next);
    }
  }

  lemma MarkdownAgrees(markdown: string)
    requires NoStuck(TrimLines(Split(markdown, '\n')))
    ensures MarkdownToHtmlAsWritten(markdown) == MarkdownToHtml(markdown)
  {
    BlocksAgree(TrimLines(Split(markdown, '\n')), 0);
  }

  /** A line starting with `#` that is not a heading stops the as-written
      scan for good: no branch moves past it, and it emits nothing. */
  lemma StuckStalls(ts: seq<string>, i: nat)
    requires i < |ts| && Stuck(ts[i])
    ensures Step(ts, i, AsWritten) == StepResult(i, [])
    ensures Step(ts, i, Corrected).next > i
  {
  }

  /** Three lines that stall it: a hashtag, a bare `#`, and seven `#` before
      the text. */
  lemma HashtagStuck()
    ensures Stuck("#tag")
  {
    assert CountLeading("#tag", '#') == 1;
    assert CountLeadingSpaces("#tag"[1..]) == 0;
  }

  lemma BareHashStuck()
    ensures Stuck("#")
  {
    assert CountLeading("#", '#') == 1;
  }

  lemma DeepHeadingStuck()
    ensures Stuck("####### Deep")
  {
    assert CountLeading("####### Deep", '#') == 7;
  }

  /** A paragraph collects the maximal run of paragraph lines from `i`, and
      the scan goes on after it. */
  lemma StepParagraph(ts: seq<string>, i: nat, rule: Rule)
    requires i < |ts| && ParagraphLine(rule, ts[i])
    ensures var j := RunEnd(ts, i, ParagraphRun(rule));
      j > i && Step(ts, i, rule) == StepResult(j, [ParagraphBlock(i, j)])
  {
  }

  /** A one-line document that is already trimmed is split and trimmed to
      itself. */
  lemma OneLine(t: string)
    requires '\n' !in t && t != [] && !IsSpace(t[0]) && !IsSpace(t[|t| - 1])
    ensures TrimLines(Split(t, '\n')) == [t]
  {
    SplitJoin([t], '\n');
    TrimOfTrimmed(t);
  }

  lemma SingleParagraphBlocks(t: string)
    requires ParagraphLine(Corrected, t)
    ensures Blocks([t], 0, Corrected) == [ParagraphBlock(0, 1)]
  {
    StepParagraph([t], 0, Corrected);
    assert RunEnd([t], 1, ParagraphRun(Corrected)) == 1;
    assert Blocks([t], 1, Corrected) == [];
  }

  lemma RenderParagraph(t: string, fmt: string -> string)
    ensures RenderAll([t], [ParagraphBlock(0, 1)], fmt) == ["<p>" + fmt(t) + "</p>"]
  {
    assert [t][0..1] == [t];
  }

  /** Under the corrected rule, a one-line document that is no blank, rule,
      heading or list item is a paragraph of its own. */
  lemma OneLineParagraph(t: string)
    requires '\n' !in t && ParagraphLine(Corrected, t)
    requires !IsSpace(t[0]) && !IsSpace(t[|t| - 1])
    ensures MarkdownToHtml(t) == "<p>" + ProcessInline(t) + "</p>"
  {
    OneLine(t);
    SingleParagraphBlocks(t);
    RenderParagraph(t, ProcessInline);
  }

  /** The hashtag line is a paragraph line under the corrected rule. */
  lemma HashtagLine(t: string)
    requires t == "#tag"
    ensures ParagraphLine(Corrected, t)
  {
    HashtagStuck();
    assert CountLeadingDigits(t) == 0;
  }

  /** A one-line paragraph with nothing to escape and no markup comes out
      wrapped in `<p>` and otherwise unchanged. */
  lemma PlainParagraph(t: string)
    requires '\n' !in t && ParagraphLine(Corrected, t)
    requires !IsSpace(t[0]) && !IsSpace(t[|t| - 1])
    requires forall i :: 0 <= i < |t| ==> t[i] !in Markup
    requires '&' !in t && '<' !in t && '>' !in t && '"' !in t
    ensures MarkdownToHtml(t) == "<p>" + t + "</p>"
  {
    OneLineParagraph(t);
    PlainInline(t);
    EscapePlain(t);
  }

  /** The corrected scan turns the hashtag line into a paragraph. */
  lemma HashtagParagraph(t: string)
    requires t == "#tag"
    ensures MarkdownToHtml(t) == "<p>" + t + "</p>"
  {
    HashtagLine(t);
    PlainParagraph(t);
  }

  // ---------------------------------------------------------------------------
  // What each kind of document converts to
  // ---------------------------------------------------------------------------

  /** An empty document has one empty line, which is skipped, so nothing is
      written. */
  lemma EmptyDocument()
    ensures MarkdownToHtml("") == ""
  {
    var ts := TrimLines(Split("", '\n'));
    assert ts == [""];
    assert Step(ts, 0, Corrected) == StepResult(1, []);
    assert Blocks(ts, 0, Corrected) == [];
  }

  /** A document that is one block of the scan renders to that block alone. */
  lemma OneBlockDocument(markdown: string, ts: seq<string>, b: Block)
    requires ts == TrimLines(Split(markdown, '\n'))
    requires InBounds(ts, b) && Blocks(ts, 0, Corrected) == [b]
    ensures MarkdownToHtml(markdown) == Render(ts, b, ProcessInline)
  {
    assert RenderAll(ts, [b], ProcessInline) == [Render(ts, b, ProcessInline)];
  }

  /** A one-line document that is a rule converts to `<hr />`. */
  lemma OneLineRule(t: string)
    requires '\n' !in t && IsHr(t)
    ensures MarkdownToHtml(t) == "<hr />"
  {
    assert !IsSpace(t[0]) && !IsSpace(t[|t| - 1]) by {
      assert t[0] in {'-', '*', '_'} && t[|t| - 1] in {'-', '*', '_'};
    }
    SingleLineDocument(t, HrBlock);
  }

  /** A one-line heading document converts to the heading tag of its level
      around the inline-processed text. */
  lemma OneLineHeading(k: nat, ws: string, x: string)
    requires 1 <= k <= 6 && |ws| >= 1 && AllSpace(ws) && '\n' !in ws
    requires x != [] && !IsSpace(x[0]) && !IsSpace(x[|x| - 1]) && NoTerminator(x)
    ensures var level := NatToString(k);
      MarkdownToHtml(Repeat('#', k) + ws + x)
        == "<h" + level + ">" + ProcessInline(x) + "</h" + level + ">"
  {
    HeadingDocument(k, ws, x);
    HeadingHtmlFlat(Heading(k, x), ProcessInline);
  }

  lemma HeadingDocument(k: nat, ws: string, x: string)
    requires 1 <= k <= 6 && |ws| >= 1 && AllSpace(ws) && '\n' !in ws
    requires x != [] && !IsSpace(x[0]) && !IsSpace(x[|x| - 1]) && NoTerminator(x)
    ensures MarkdownToHtml(Repeat('#', k) + ws + x) == HeadingHtml(Heading(k, x), ProcessInline)
  {
    var t := Repeat('#', k) + ws + x;
    var b := HeadingBlock(Heading(k, x));
    HeadingLineShape(k, ws, x);
    SingleLineDocument(t, b);
  }

  lemma HeadingHtmlFlat(h: Heading, fmt: string -> string)
    ensures var n := NatToString(h.level);
      HeadingHtml(h, fmt) == "<h" + n + ">" + fmt(h.text) + "</h" + n + ">"
  {
    var n := NatToString(h.level);
    var open, mid, close := "<h" + n + ">", fmt(h.text), "</h" + n + ">";
    assert open + mid + close == "<h" + n + ">" + mid + ("</h" + n + ">");
    assert "<h" + n + ">" + mid + ("</h" + n + ">") == "<h" + n + ">" + mid + "</h" + n + ">";
  }

  /** A heading line has no line break, no space at either end, and is no
      rule; the match gives its level and text. */
  lemma HeadingLineShape(k: nat, ws: string, x: string)
    requires 1 <= k <= 6 && |ws| >= 1 && AllSpace(ws) && '\n' !in ws
    requires x != [] && !IsSpace(x[0]) && !IsSpace(x[|x| - 1]) && NoTerminator(x)
    ensures var t := Repeat('#', k) + ws + x;
      && '\n' !in t && !IsSpace(t[0]) && !IsSpace(t[|t| - 1]) && !IsHr(t)
      && HeadingMatch(t) == Some(Heading(k, x))
  {
    var t := Repeat('#', k) + ws + x;
    assert HeadingMatch(t) == Some(Heading(k, x)) by {
      HeadingMatchComplete(k, ws, x);
    }
    assert '\n' !in t && !IsSpace(t[0]) && !IsSpace(t[|t| - 1]) && !IsHr(t) by {
      HeadingLineChars(k, ws, x);
    }
  }

  /** A heading line starts with `#`, ends with its text's last character and
      holds no line break. */
  lemma HeadingLineChars(k: nat, ws: string, x: string)
    requires 1 <= k && '\n' !in ws && x != [] && NoTerminator(x)
    ensures var t := Repeat('#', k) + ws + x;
      t[0] == '#' && t[|t| - 1] == x[|x| - 1] && '\n' !in t && !IsHr(t)
  {
    var h := Repeat('#', k);
    assert h[0] == '#';
    assert '\n' !in x by {
      assert IsLineTerminator('\n');
    }
    assert '\n' !in h by {
      assert forall i :: 0 <= i < k ==> h[i] == '#';
    }
  }

  /** A one-line document whose line is a rule or a heading converts to that block alone. */
  lemma SingleLineDocument(t: string, b: Block)
    requires '\n' !in t && t != [] && !IsSpace(t[0]) && !IsSpace(t[|t| - 1])
    requires IsHr(t) ==> b == HrBlock
    requires !IsHr(t) ==> HeadingMatch(t).Some? && b == HeadingBlock(HeadingMatch(t).value)
    ensures MarkdownToHtml(t) == Render([t], b, ProcessInline)
  {
    OneLine(t);
    SingleLineBlocks(t, b);
    OneBlockDocument(t, [t], b);
  }

  /** A one-line document that is a single non-list block: the scan emits it. */
  lemma SingleLineBlocks(t: string, b: Block)
    requires t != ""
    requires IsHr(t) ==> b == HrBlock
    requires !IsHr(t) ==> HeadingMatch(t).Some? && b == HeadingBlock(HeadingMatch(t).value)
    ensures Blocks([t], 0, Corrected) == [b]
  {
    assert Step([t], 0, Corrected) == StepResult(1, [b]);
  }

  /** The `<li>` elements of the given item lines, each item's text
      inline-processed, joined with nothing between them. */
  function ItemElements(kind: ListKind, lines: seq<string>): string {
    if |lines| == 0 then ""
    else "<li>" + ProcessInline(ItemText(kind, lines[0])) + "</li>" + ItemElements(kind, lines[1..])
  }

  lemma {:induction false} ItemsHtmlElements(kind: ListKind, ts: seq<string>, i: nat, j: nat)
    requires i <= j <= |ts|
    ensures ItemsHtml(kind, ts, i, j, ProcessInline) == ItemElements(kind, ts[i..j])
    decreases j - i
  {
    if i < j {
      ItemsHtmlElements(kind, ts, i + 1, j);
      assert ts[i..j][0] == ts[i] && ts[i..j][1..] == ts[i + 1..j];
    }
  }

  /** A run that every line from `i` on belongs to ends at the last line. */
  lemma {:induction false} RunEndAll(ts: seq<string>, i: nat, run: Run)
    requires i <= |ts| && forall k :: i <= k < |ts| ==> InRun(run, ts[k])
    ensures RunEnd(ts, i, run) == |ts|
    decreases |ts| - i
  {
    if i < |ts| {
      RunEndAll(ts, i + 1, run);
    }
  }

  /** An item line is no blank, rule or heading line, and a bullet item is
      no numbered one: the list branches see it. */
  lemma ItemLineIsItem(kind: ListKind, t: string)
    requires IsItem(kind, t)
    ensures t != "" && !IsHr(t) && HeadingMatch(t).None?
    ensures kind == Unordered ==> !IsOlItem(t)
    ensures kind == Ordered ==> IsOlItem(t)
  {
    assert t[0] != '#' by {
      if kind == Ordered {
        assert IsDigit(t[0]);
      }
    }
    if kind == Ordered {
      var d := CountLeadingDigits(t);
      assert IsDigit(t[0]);
      assert t[d] == '.';
    } else {
      assert !IsDigit(t[0]);
    }
  }

  /** A document whose every line is an item of one kind, already trimmed,
      converts to one list holding an `<li>` per line, in order. */
  lemma ListDocument(kind: ListKind, lines: seq<string>)
    requires |lines| >= 1
    requires forall k :: 0 <= k < |lines| ==> '\n' !in lines[k] && Trim(lines[k]) == lines[k]
    requires forall k :: 0 <= k < |lines| ==> IsItem(kind, lines[k])
    ensures MarkdownToHtml(Join(lines, "\n"))
         == (if kind == Ordered then "<ol>" else "<ul>")
          + ItemElements(kind, lines)
          + (if kind == Ordered then "</ol>" else "</ul>")
  {
    var md := Join(lines, "\n");
    var b := ListBlock(kind, 0, |lines|);
    ListLinesKept(lines);
    ListBlocks(kind, lines);
    OneBlockDocument(md, lines, b);
    ListRender(kind, lines);
  }

  /** Splitting joined trimmed lines and trimming them gives the lines back. */
  lemma ListLinesKept(lines: seq<string>)
    requires |lines| >= 1
    requires forall k :: 0 <= k < |lines| ==> '\n' !in lines[k] && Trim(lines[k]) == lines[k]
    ensures TrimLines(Split(Join(lines, "\n"), '\n')) == lines
  {
    SplitJoin(lines, '\n');
    var ts := TrimLines(Split(Join(lines, "\n"), '\n'));
    assert forall k :: 0 <= k < |ts| ==> ts[k] == lines[k];
  }

  /** A scan over item lines of one kind emits one list of all of them. */
  lemma ListBlocks(kind: ListKind, lines: seq<string>)
    requires |lines| >= 1
    requires forall k :: 0 <= k < |lines| ==> IsItem(kind, lines[k])
    ensures Blocks(lines, 0, Corrected) == [ListBlock(kind, 0, |lines|)]
  {
    ItemLineIsItem(kind, lines[0]);
    RunEndAll(lines, 0, ListRun(kind));
    assert Step(lines, 0, Corrected) == StepResult(|lines|, [ListBlock(kind, 0, |lines|)]);
  }

  /** A document whose every line is a paragraph line, already trimmed,
      converts to one paragraph: the lines joined with single spaces,
      inline-processed, inside `<p>`. */
  lemma ParagraphDocument(lines: seq<string>)
    requires |lines| >= 1
    requires forall k :: 0 <= k < |lines| ==> '\n' !in lines[k] && Trim(lines[k]) == lines[k]
    requires forall k :: 0 <= k < |lines| ==> ParagraphLine(Corrected, lines[k])
    ensures MarkdownToHtml(Join(lines, "\n")) == "<p>" + ProcessInline(Join(lines, " ")) + "</p>"
  {
    var b := ParagraphBlock(0, |lines|);
    ListLinesKept(lines);
    ParagraphBlocks(lines);
    OneBlockDocument(Join(lines, "\n"), lines, b);
    ParagraphRender(lines, ProcessInline);
  }

  /** Two paragraph lines in a row make one paragraph, joined by one space. */
  lemma TwoLineParagraph(s: string, t: string)
    requires '\n' !in s && Trim(s) == s && ParagraphLine(Corrected, s)
    requires '\n' !in t && Trim(t) == t && ParagraphLine(Corrected, t)
    ensures MarkdownToHtml(s + "\n" + t) == "<p>" + ProcessInline(s + " " + t) + "</p>"
  {
    var lines := [s, t];
    assert lines[1..] == [t];
    assert Join(lines, "\n") == s + "\n" + t && Join(lines, " ") == s + " " + t;
    ParagraphDocument(lines);
  }

  lemma ParagraphRender(lines: seq<string>, fmt: string -> string)
    ensures Render(lines, ParagraphBlock(0, |lines|), fmt) == "<p>" + fmt(Join(lines, " ")) + "</p>"
  {
    assert lines[0..|lines|] == lines;
  }

  /** A scan over paragraph lines emits one paragraph of all of them. */
  lemma ParagraphBlocks(lines: seq<string>)
    requires |lines| >= 1
    requires forall k :: 0 <= k < |lines| ==> ParagraphLine(Corrected, lines[k])
    ensures Blocks(lines, 0, Corrected) == [ParagraphBlock(0, |lines|)]
  {
    RunEndAll(lines, 0, ParagraphRun(Corrected));
    StepParagraph(lines, 0, Corrected);
  }

  /** The list of all the lines renders to its tags around the `<li>` elements. */
  lemma ListRender(kind: ListKind, lines: seq<string>)
    ensures Render(lines, ListBlock(kind, 0, |lines|), ProcessInline)
         == (if kind == Ordered then "<ol>" else "<ul>")
          + ItemElements(kind, lines)
          + (if kind == Ordered then "</ol>" else "</ul>")
  {
    ItemsHtmlElements(kind, lines, 0, |lines|);
    assert lines[0..|lines|] == lines;
  }

  // ---------------------------------------------------------------------------
  // The whole document is escaped
  // ---------------------------------------------------------------------------

  /** The tags the block scanner writes. */
  const BlockTags: seq<string> := [
    "<p>", "</p>", "<ol>", "</ol>", "<ul>", "</ul>", "<li>", "</li>", "<hr />",
    "<h1>", "</h1>", "<h2>", "</h2>", "<h3>", "</h3>",
    "<h4>", "</h4>", "<h5>", "</h5>", "<h6>", "</h6>"]

  /** The characters after the `<` of a block tag. */
  const BlockAlphabet: set<char> :=
    {'p', '/', '>', 'o', 'l', 'u', 'i', 'h', 'r', ' ', '1', '2', '3', '4', '5', '6'}

  /** Every tag the converter writes, inline or block. */
  const HtmlTags: seq<string> := Tags + BlockTags

  lemma HtmlTagsLed()
    ensures WordsLed(HtmlTags, '<')
  {
    TagsOver();
    assert WordsOver(BlockTags, '<', BlockAlphabet);
    OverConcat(Tags, BlockTags, '<', TagAlphabet, BlockAlphabet);
    OverLed(HtmlTags, '<', TagAlphabet + BlockAlphabet);
  }

  lemma TagSafe(w: string)
    requires w in HtmlTags
    ensures Protected(w, '<', HtmlTags)
  {
    HtmlTagsLed();
    var m :| 0 <= m < |HtmlTags| && HtmlTags[m] == w;
    WordIsProtected(HtmlTags, m, '<');
  }

  lemma InlineSafe(t: string)
    ensures Protected(ProcessInline(t), '<', HtmlTags)
  {
    ProcessInlineProtected(t);
    WidenProtected(ProcessInline(t), '<', Tags, HtmlTags);
  }

  /** `open + x + close` is protected when its three pieces are. */
  lemma WrapSafe(open: string, x: string, close: string)
    requires open in HtmlTags && close in HtmlTags
    requires Protected(x, '<', HtmlTags)
    ensures Protected(open + x + close, '<', HtmlTags)
  {
    TagSafe(open);
    TagSafe(close);
    ConcatProtected(open, x, '<', HtmlTags);
    ConcatProtected(open + x, close, '<', HtmlTags);
  }

  /** The opening and closing tags of a heading of level one to six. */
  lemma HeadingTags(k: nat)
    requires 1 <= k <= 6
    ensures "<h" + NatToString(k) + ">" in HtmlTags
    ensures "</h" + NatToString(k) + ">" in HtmlTags
  {
    var n := NatToString(k);
    assert n == [DigitChar(k)];
    if k == 1 {
      assert HtmlTags[17] == "<h" + n + ">" && HtmlTags[18] == "</h" + n + ">";
    } else if k == 2 {
      assert HtmlTags[19] == "<h" + n + ">" && HtmlTags[20] == "</h" + n + ">";
    } else if k == 3 {
      assert HtmlTags[21] == "<h" + n + ">" && HtmlTags[22] == "</h" + n + ">";
    } else if k == 4 {
      assert HtmlTags[23] == "<h" + n + ">" && HtmlTags[24] == "</h" + n + ">";
    } else if k == 5 {
      assert HtmlTags[25] == "<h" + n + ">" && HtmlTags[26] == "</h" + n + ">";
    } else {
      assert HtmlTags[27] == "<h" + n + ">" && HtmlTags[28] == "</h" + n + ">";
    }
  }

  /** An inline step whose every output is protected. */
  ghost predicate SafeInline(fmt: string -> string) {
    forall t :: Protected(fmt(t), '<', HtmlTags)
  }

  lemma HeadingSafe(h: Heading, fmt: string -> string)
    requires 1 <= h.level <= 6 && SafeInline(fmt)
    ensures Protected(HeadingHtml(h, fmt), '<', HtmlTags)
  {
    var n := NatToString(h.level);
    HeadingTags(h.level);
    WrapSafe("<h" + n + ">", fmt(h.text), "</h" + n + ">");
  }

  lemma ItemSafe(kind: ListKind, t: string, fmt: string -> string)
    requires SafeInline(fmt)
    ensures Protected(ListItem(kind, t, fmt), '<', HtmlTags)
  {
    assert HtmlTags[14] == "<li>" && HtmlTags[15] == "</li>";
    WrapSafe("<li>", fmt(ItemText(kind, t)), "</li>");
  }

  lemma {:induction false} ItemsSafe(kind: ListKind, ts: seq<string>, i: nat, j: nat, fmt: string -> string)
    requires i <= j <= |ts| && SafeInline(fmt)
    ensures Protected(ItemsHtml(kind, ts, i, j, fmt), '<', HtmlTags)
    decreases j - i
  {
    if i == j {
      NoLeadProtected("", '<', HtmlTags);
    } else {
      var item, rest := ListItem(kind, ts[i], fmt), ItemsHtml(kind, ts, i + 1, j, fmt);
      assert ItemsHtml(kind, ts, i, j, fmt) == item + rest;
      ItemSafe(kind, ts[i], fmt);
      ItemsSafe(kind, ts, i + 1, j, fmt);
      ConcatProtected(item, rest, '<', HtmlTags);
    }
  }

  lemma ListSafe(kind: ListKind, ts: seq<string>, i: nat, j: nat, fmt: string -> string)
    requires i <= j <= |ts| && SafeInline(fmt)
    ensures Protected(ListHtml(kind, ItemsHtml(kind, ts, i, j, fmt)), '<', HtmlTags)
  {
    var items := ItemsHtml(kind, ts, i, j, fmt);
    ItemsSafe(kind, ts, i, j, fmt);
    assert HtmlTags[10] == "<ol>" && HtmlTags[11] == "</ol>";
    assert HtmlTags[12] == "<ul>" && HtmlTags[13] == "</ul>";
    if kind == Ordered {
      WrapSafe("<ol>", items, "</ol>");
    } else {
      WrapSafe("<ul>", items, "</ul>");
    }
  }

  /** Each rendered block is protected when the inline step is. */
  lemma RenderSafe(ts: seq<string>, b: Block, fmt: string -> string)
    requires InBounds(ts, b) && SafeInline(fmt)
    requires b.HeadingBlock? ==> 1 <= b.heading.level <= 6
    ensures Protected(Render(ts, b, fmt), '<', HtmlTags)
  {
    match b
    case HrBlock =>
      assert HtmlTags[16] == "<hr />";
      TagSafe("<hr />");
    case HeadingBlock(h) => HeadingSafe(h, fmt);
    case ListBlock(kind, i, j) => ListSafe(kind, ts, i, j, fmt);
    case ParagraphBlock(i, j) =>
      assert HtmlTags[8] == "<p>" && HtmlTags[9] == "</p>";
      WrapSafe("<p>", fmt(Join(ts[i..j], " ")), "</p>");
  }

  lemma ProcessInlineSafe()
    ensures SafeInline(ProcessInline)
  {
    forall t
      ensures Protected(ProcessInline(t), '<', HtmlTags)
    {
      InlineSafe(t);
    }
  }

  /** Every `<` in the converter's output begins one of the tags it writes
      itself: no markup in the input reaches the page as markup. */
  lemma DocumentSafe(markdown: string)
    ensures Protected(MarkdownToHtml(markdown), '<', HtmlTags)
  {
    var ts := TrimLines(Split(markdown, '\n'));
    var bs := Blocks(ts, 0, Corrected);
    var parts := RenderAll(ts, bs, ProcessInline);
    ProcessInlineSafe();
    forall k | 0 <= k < |parts|
      ensures Protected(parts[k], '<', HtmlTags)
    {
      assert bs[k] in bs;
      RenderSafe(ts, bs[k], ProcessInline);
    }
    NoLeadProtected("\n", '<', HtmlTags);
    JoinProtected(parts, "\n", '<', HtmlTags);
  }
}

=== FILE: navigation.dfy ===
// The navigation bar: which links are marked as the current page.
module Navigation {
  import opened Text

  datatype NavItem = NavItem(href: string, caption: string)

  /** A rendered link; `current` is the `aria-current="page"` marker. */
  datatype NavLink = NavLink(href: string, caption: string, current: bool)

  /** The home link is active only on the home path; any other link on every path it prefixes. */
  function IsActive(pathname: string, href: string): (r: bool)
    ensures href == "/" ==> (r <==> pathname == "/")
    ensures href != "/" ==> (r <==> |href| <= |pathname| && pathname[..|href|] == href)
  {
    if href == "/" then pathname == "/" else StartsWith(pathname, href)
  }

  /** One link per item, in order, each marked current exactly when active. */
  function Links(items: seq<NavItem>, pathname: string): (r: seq<NavLink>)
    ensures |r| == |items|
    ensures forall k :: 0 <= k < |r| ==>
      r[k].href == items[k].href && r[k].caption == items[k].caption && (r[k].current <==> IsActive(pathname, items[k].href))
  {
    seq(|items|, k requires 0 <= k < |items| => NavLink(items[k].href, items[k].caption, IsActive(pathname, items[k].href)))
  }

  /** A link is active on its own page and on every page below it. */
  lemma ActiveBelow(href: string, rest: string)
    requires href != "/"
    ensures IsActive(href, href)
    ensures IsActive(href + rest, href)
  {
    assert (href + rest)[..|href|] == href;
  }

  /** The home link is not active on any other page, although "/" prefixes every path. */
  lemma HomeOnlyOnHome(pathname: string)
    requires pathname != "/"
    ensures !IsActive(pathname, "/")
    ensures |pathname| >= 1 && pathname[0] == '/' ==> StartsWith(pathname, "/")
  {
  }

  /**
   * The match is on characters, not path segments: the blog link is also
   * active on a page whose path merely begins with "/blog".
   */
  lemma PrefixNotSegment()
    ensures IsActive("/blogroll", "/blog")
  {
  }

  /** The header's items. */
  const HeaderHrefs: seq<string> := ["/lineup", "/tickets", "/gallery", "/blog", "/about"]

  /** With the header's items at most one link is ever current, since they differ in their first letter. */
  lemma HeaderOneCurrent(pathname: string, i: int, j: int)
    requires 0 <= i < |HeaderHrefs| && 0 <= j < |HeaderHrefs|
    requires IsActive(pathname, HeaderHrefs[i]) && IsActive(pathname, HeaderHrefs[j])
    ensures i == j
  {
    assert pathname[1] == HeaderHrefs[i][1] == HeaderHrefs[j][1];
    assert forall a, b :: 0 <= a < b < |HeaderHrefs| ==> HeaderHrefs[a][1] != HeaderHrefs[b][1];
  }
}

=== FILE: pass_facts.dfy ===
/** What a replace-all pass does to text it cannot match, and the property
    that makes the "escape first, then insert tags" design of both markdown
    converters safe: if every `<` (or `&`) of the input begins one of a fixed
    list of words, the same holds of the output. */
module PassFacts {
  import opened Text
  import opened Passes
  import opened Wrappers

  /** At a position where no match starts, the scan copies the character. */
  lemma CopyOne(s: string, hs: seq<Option<Hit>>, p: nat)
    requires ValidHits(s, hs) && p < |s| && hs[p].None?
    ensures Scan(s, hs, p) == [s[p]] + Scan(s, hs, p + 1)
  {
  }

  /** A run of positions where no match starts is copied unchanged. */
  lemma {:induction false} CopyRun(s: string, hs: seq<Option<Hit>>, p: nat, n: nat)
    requires ValidHits(s, hs) && p + n <= |s|
    requires forall i :: p <= i < p + n ==> hs[i].None?
    ensures Scan(s, hs, p) == s[p..p + n] + Scan(s, hs, p + n)
    decreases n
  {
    if n > 0 {
      CopyOne(s, hs, p);
      var rest := Scan(s, hs, p + n);
      assert Scan(s, hs, p + 1) == s[p + 1..p + n] + rest by {
        CopyRun(s, hs, p + 1, n - 1);
      }
      assert s[p..p + n] == [s[p]] + s[p + 1..p + n];
    }
  }

  /** A pass changes nothing in text that holds no character a match can
      start with. */
  lemma NoOpenerUnchanged(pat: Pattern, s: string)
    requires ValidPattern(pat)
    requires forall i :: 0 <= i < |s| ==> s[i] != Opener(pat)
    ensures ReplaceAll(pat, s) == s
  {
    var hs := Hits(pat, s);
    forall i | 0 <= i < |s|
      ensures hs[i].None?
    {
      assert hs[i] == MatchAt(pat, s, i);
    }
    CopyRun(s, hs, 0, |s|);
    assert s[0..|s|] == s;
  }

  // ---------------------------------------------------------------------------
  // Protected text: every `lead` character begins one of the listed words.
  // ---------------------------------------------------------------------------

  /** One of `words` occurs at position `j` of `s`. */
  predicate WordAt(s: string, j: int, words: seq<string>) {
    exists k :: 0 <= k < |words| && PrefixAt(s, j, words[k])
  }

  /** Every occurrence of `lead` in `s` begins one of `words`. */
  predicate Protected(s: string, lead: char, words: seq<string>) {
    forall j :: 0 <= j < |s| && s[j] == lead ==> WordAt(s, j, words)
  }

  /** `c` occurs in none of `words`. */
  predicate NotInWords(c: char, words: seq<string>) {
    forall k, i :: 0 <= k < |words| && 0 <= i < |words[k]| ==> words[k][i] != c
  }

  /** The characters at which a group of `pat` can end (the group is followed
      by one of them), apart from line terminators and the end of the text. */
  function GroupEnds(pat: Pattern): set<char>
    requires ValidPattern(pat)
  {
    match pat
    case Lazy(_, close, _, _, _) => {close[0]}
    case LazyLink => {']', ')'}
    case ClassLink => {']', ')'}
    case LineStart(_, _, _) => {}
  }

  /** Each word begins with `lead` and holds no other `lead`. */
  predicate WordsLed(words: seq<string>, lead: char) {
    && (forall k :: 0 <= k < |words| ==> |words[k]| > 0 && words[k][0] == lead)
    && (forall k, i :: 0 <= k < |words| && 1 <= i < |words[k]| ==> words[k][i] != lead)
  }

  /** Each word is `lead` followed by characters of `alphabet`, and `lead`
      is not in `alphabet`. */
  predicate WordsOver(words: seq<string>, lead: char, alphabet: set<char>) {
    && lead !in alphabet
    && (forall k :: 0 <= k < |words| ==> |words[k]| > 0 && words[k][0] == lead)
    && (forall k, i :: 0 <= k < |words| && 1 <= i < |words[k]| ==> words[k][i] in alphabet)
  }

  /** The listed words suit a pass of `pat`: no word character is a line
      terminator, a character a match can start with or a character a group
      can end at. So a pass never starts a match inside a word and never cuts
      a word in two. */
  predicate WordsFit(words: seq<string>, lead: char, alphabet: set<char>, pat: Pattern)
    requires ValidPattern(pat)
  {
    && WordsOver(words, lead, alphabet)
    && !IsLineTerminator(lead) && (forall c :: c in alphabet ==> !IsLineTerminator(c))
    && Opener(pat) != lead && Opener(pat) !in alphabet
    && (forall c :: c in GroupEnds(pat) ==> c != lead && c !in alphabet)
  }

  lemma OverLed(words: seq<string>, lead: char, alphabet: set<char>)
    requires WordsOver(words, lead, alphabet)
    ensures WordsLed(words, lead)
  {
  }

  lemma OverNotIn(words: seq<string>, lead: char, alphabet: set<char>, c: char)
    requires WordsOver(words, lead, alphabet) && c != lead && c !in alphabet
    ensures NotInWords(c, words)
  {
    forall k, i | 0 <= k < |words| && 0 <= i < |words[k]|
      ensures words[k][i] != c
    {
      if i > 0 { assert words[k][i] in alphabet; }
    }
  }

  lemma OverNoTerminator(words: seq<string>, lead: char, alphabet: set<char>)
    requires WordsOver(words, lead, alphabet)
    requires !IsLineTerminator(lead) && (forall c :: c in alphabet ==> !IsLineTerminator(c))
    ensures forall k, i :: 0 <= k < |words| && 0 <= i < |words[k]| ==> !IsLineTerminator(words[k][i])
  {
    forall k, i | 0 <= k < |words| && 0 <= i < |words[k]|
      ensures !IsLineTerminator(words[k][i])
    {
      if i > 0 { assert words[k][i] in alphabet; }
    }
  }

  /** The fixed text a pass of `pat` inserts is itself protected. */
  predicate InsertsProtected(pat: Pattern, lead: char, words: seq<string>) {
    match pat
    case Lazy(_, _, before, after, _) => Protected(before, lead, words) && Protected(after, lead, words)
    case LineStart(_, before, after) => Protected(before, lead, words) && Protected(after, lead, words)
    case _ =>
      Protected(AnchorOpen, lead, words) && Protected(AnchorMid, lead, words)
      && Protected(AnchorClose, lead, words)
  }

  lemma ConcatProtected(a: string, b: string, lead: char, words: seq<string>)
    requires Protected(a, lead, words) && Protected(b, lead, words)
    ensures Protected(a + b, lead, words)
  {
    forall j | 0 <= j < |a + b| && (a + b)[j] == lead
      ensures WordAt(a + b, j, words)
    {
      if j < |a| {
        var k :| 0 <= k < |words| && PrefixAt(a, j, words[k]);
        assert (a + b)[j..j + |words[k]|] == a[j..j + |words[k]|];
      } else {
        assert b[j - |a|] == lead;
        var k :| 0 <= k < |words| && PrefixAt(b, j - |a|, words[k]);
        assert (a + b)[j..j + |words[k]|] == b[j - |a|..j - |a| + |words[k]|];
      }
    }
  }

  /** A piece of protected text is protected when it ends at the end of the
      text or just before a character no word contains. */
  lemma SliceProtected(s: string, a: nat, b: nat, lead: char, words: seq<string>)
    requires a <= b <= |s|
    requires Protected(s, lead, words)
    requires b == |s| || NotInWords(s[b], words)
    ensures Protected(s[a..b], lead, words)
  {
    var t := s[a..b];
    forall j | 0 <= j < |t| && t[j] == lead
      ensures WordAt(t, j, words)
    {
      assert s[a + j] == lead;
      var k :| 0 <= k < |words| && PrefixAt(s, a + j, words[k]);
      var w := words[k];
      assert a + j + |w| <= b by {
        if a + j + |w| > b {
          WordCharAt(s, a + j, w, b);
        }
      }
      forall i | 0 <= i < |w|
        ensures t[j..j + |w|][i] == w[i]
      {
        WordCharAt(s, a + j, w, a + j + i);
      }
      assert t[j..j + |w|] == w;
      assert PrefixAt(t, j, w);
    }
  }

  /** The character at index `i` of text holding `w` at `j` is a character of `w`. */
  lemma WordCharAt(s: string, j: int, w: string, i: int)
    requires PrefixAt(s, j, w) && j <= i < j + |w|
    ensures s[i] == w[i - j]
  {
    assert s[i] == s[j..j + |w|][i - j];
  }

  /** No text a pass of `pat` inserts holds `c`. */
  predicate InsertsAvoid(pat: Pattern, c: char) {
    match pat
    case Lazy(_, _, before, after, _) => c !in before && c !in after
    case LineStart(_, before, after) => c !in before && c !in after
    case _ => c !in AnchorOpen && c !in AnchorMid && c !in AnchorClose
  }

  lemma AvoidProtected(pat: Pattern, lead: char, words: seq<string>)
    requires InsertsAvoid(pat, lead)
    ensures InsertsProtected(pat, lead, words)
  {
  }

  /** Protection survives a longer word list that holds every listed word. */
  lemma WidenProtected(s: string, lead: char, words: seq<string>, all: seq<string>)
    requires Protected(s, lead, words)
    requires forall k :: 0 <= k < |words| ==> words[k] in all
    ensures Protected(s, lead, all)
  {
    forall j | 0 <= j < |s| && s[j] == lead
      ensures WordAt(s, j, all)
    {
      var k :| 0 <= k < |words| && PrefixAt(s, j, words[k]);
      var m :| 0 <= m < |all| && all[m] == words[k];
      assert PrefixAt(s, j, all[m]);
    }
  }

  /** A listed word with `lead` only at its start is protected on its own. */
  lemma LoneLeadProtected(w: string, lead: char, words: seq<string>)
    requires w in words && |w| > 0 && w[0] == lead
    requires forall i :: 1 <= i < |w| ==> w[i] != lead
    ensures Protected(w, lead, words)
  {
    var m :| 0 <= m < |words| && words[m] == w;
    assert PrefixAt(w, 0, words[m]);
  }

  /** Joining protected parts with a protected separator gives protected
      text. */
  lemma {:induction false} JoinProtected(parts: seq<string>, sep: string, lead: char, words: seq<string>)
    requires forall k :: 0 <= k < |parts| ==> Protected(parts[k], lead, words)
    requires Protected(sep, lead, words)
    ensures Protected(Join(parts, sep), lead, words)
    decreases |parts|
  {
    if |parts| == 0 {
      NoLeadProtected("", lead, words);
    } else if |parts| > 1 {
      JoinProtected(parts[1..], sep, lead, words);
      ConcatProtected(parts[0], sep, lead, words);
      ConcatProtected(parts[0] + sep, Join(parts[1..], sep), lead, words);
    }
  }

  /** Two word lists over two alphabets make one list over both. */
  lemma OverConcat(a: seq<string>, b: seq<string>, lead: char, alphaA: set<char>, alphaB: set<char>)
    requires WordsOver(a, lead, alphaA) && WordsOver(b, lead, alphaB)
    ensures WordsOver(a + b, lead, alphaA + alphaB)
  {
    var ab := a + b;
    forall k | 0 <= k < |ab|
      ensures |ab[k]| > 0 && ab[k][0] == lead
      ensures forall i :: 1 <= i < |ab[k]| ==> ab[k][i] in alphaA + alphaB
    {
      if k < |a| {
        assert ab[k] == a[k];
      } else {
        assert ab[k] == b[k - |a|];
      }
    }
  }

  /** Text without `lead` is protected. */
  lemma NoLeadProtected(s: string, lead: char, words: seq<string>)
    requires lead !in s
    ensures Protected(s, lead, words)
  {
  }

  /** Each listed word is protected on its own. */
  lemma WordIsProtected(words: seq<string>, k: nat, lead: char)
    requires WordsLed(words, lead) && k < |words|
    ensures Protected(words[k], lead, words)
  {
    var w := words[k];
    forall j | 0 <= j < |w| && w[j] == lead
      ensures WordAt(w, j, words)
    {
      assert j == 0;
      assert PrefixAt(w, 0, words[k]);
    }
  }

  /** The text one match inserts is protected. */
  lemma HitProtected(pat: Pattern, s: string, p: nat, lead: char, words: seq<string>, alphabet: set<char>)
    requires ValidPattern(pat) && p < |s|
    requires Protected(s, lead, words)
    requires WordsFit(words, lead, alphabet, pat) && InsertsProtected(pat, lead, words)
    requires MatchAt(pat, s, p).Some?
    ensures Protected(MatchAt(pat, s, p).value.out, lead, words)
  {
    forall c | c in GroupEnds(pat)
      ensures NotInWords(c, words)
    {
      OverNotIn(words, lead, alphabet, c);
    }
    match pat
    case Lazy(open, close, before, after, guarded) =>
      assert close[0] in GroupEnds(pat);
      LazyHitProtected(open, close, before, after, guarded, s, p, lead, words);
    case LazyLink =>
      assert ']' in GroupEnds(pat) && ')' in GroupEnds(pat);
      var h := MatchLazyLink(s, p).value;
      var a, b :| LinkShape(s, p, a, b) && h.out == Anchor(s[a + 2..b], s[p + 1..a]);
      AnchorProtected(s, p, a, b, lead, words);
    case ClassLink =>
      assert ']' in GroupEnds(pat) && ')' in GroupEnds(pat);
      var h := MatchClassLink(s, p).value;
      var a, b :| LinkShape(s, p, a, b) && h.out == Anchor(s[a + 2..b], s[p + 1..a]);
      AnchorProtected(s, p, a, b, lead, words);
    case LineStart(prefix, before, after) =>
      OverNoTerminator(words, lead, alphabet);
      LineHitProtected(prefix, before, after, s, p, lead, words);
  }

  lemma LazyHitProtected(open: string, close: string, before: string, after: string, guarded: bool,
                         s: string, p: nat, lead: char, words: seq<string>)
    requires |open| > 0 && |close| > 0 && p < |s|
    requires Protected(s, lead, words) && NotInWords(close[0], words)
    requires Protected(before, lead, words) && Protected(after, lead, words)
    requires MatchLazy(open, close, before, after, guarded, s, p).Some?
    ensures Protected(MatchLazy(open, close, before, after, guarded, s, p).value.out, lead, words)
  {
    var h := MatchLazy(open, close, before, after, guarded, s, p).value;
    var start := p + |open|;
    var q := h.end - |close|;
    assert start < q < |s| && s[q] == close[0] && h.out == before + s[start..q] + after by {
      assert LazyGroupEnd(s, start, q, close, guarded);
      assert PrefixAt(s, q, close);
      assert s[q..q + |close|][0] == s[q];
    }
    SliceProtected(s, start, q, lead, words);
    ConcatProtected(before, s[start..q], lead, words);
    ConcatProtected(before + s[start..q], after, lead, words);
  }

  lemma LineHitProtected(prefix: string, before: string, after: string,
                         s: string, p: nat, lead: char, words: seq<string>)
    requires |prefix| > 0 && p < |s|
    requires Protected(s, lead, words)
    requires forall k, i :: 0 <= k < |words| && 0 <= i < |words[k]| ==> !IsLineTerminator(words[k][i])
    requires Protected(before, lead, words) && Protected(after, lead, words)
    requires MatchLineStart(prefix, before, after, s, p).Some?
    ensures Protected(MatchLineStart(prefix, before, after, s, p).value.out, lead, words)
  {
    var h := MatchLineStart(prefix, before, after, s, p).value;
    var start := p + |prefix|;
    var e := h.end;
    SliceProtected(s, start, e, lead, words);
    ConcatProtected(before, s[start..e], lead, words);
    ConcatProtected(before + s[start..e], after, lead, words);
  }

  lemma AnchorProtected(s: string, p: nat, a: nat, b: nat, lead: char, words: seq<string>)
    requires p + 1 <= a && a + 2 <= b < |s|
    requires Protected(s, lead, words)
    requires NotInWords(s[a], words) && NotInWords(s[b], words)
    requires Protected(AnchorOpen, lead, words) && Protected(AnchorMid, lead, words)
    requires Protected(AnchorClose, lead, words)
    ensures Protected(Anchor(s[a + 2..b], s[p + 1..a]), lead, words)
  {
    SliceProtected(s, a + 2, b, lead, words);
    SliceProtected(s, p + 1, a, lead, words);
    ConcatProtected(AnchorOpen, s[a + 2..b], lead, words);
    ConcatProtected(AnchorOpen + s[a + 2..b], AnchorMid, lead, words);
    ConcatProtected(AnchorOpen + s[a + 2..b] + AnchorMid, s[p + 1..a], lead, words);
    ConcatProtected(AnchorOpen + s[a + 2..b] + AnchorMid + s[p + 1..a], AnchorClose, lead, words);
  }

  /** The conditions under which a scan keeps text protected: every match
      starts with `o`, which no word contains, and every match's replacement
      is protected. */
  predicate HitsProtected(s: string, hs: seq<Option<Hit>>, o: char, lead: char, words: seq<string>)
    requires ValidHits(s, hs)
  {
    && Protected(s, lead, words)
    && WordsLed(words, lead) && NotInWords(o, words)
    && (forall i :: 0 <= i < |s| && hs[i].Some? ==> s[i] == o)
    && (forall i :: 0 <= i < |s| && hs[i].Some? ==> Protected(hs[i].value.out, lead, words))
  }

  /** A word at `p` is copied whole by the scan. */
  lemma WordStep(s: string, hs: seq<Option<Hit>>, p: nat, k: nat, o: char, lead: char, words: seq<string>)
    requires ValidHits(s, hs) && p < |s| && k < |words|
    requires HitsProtected(s, hs, o, lead, words)
    requires PrefixAt(s, p, words[k])
    ensures p + |words[k]| <= |s|
    ensures Scan(s, hs, p) == words[k] + Scan(s, hs, p + |words[k]|)
  {
    var w := words[k];
    forall i | p <= i < p + |w|
      ensures hs[i].None?
    {
      WordCharAt(s, p, w, i);
    }
    CopyRun(s, hs, p, |w|);
  }

  /** The scan keeps text protected. */
  lemma {:induction false} ScanProtected(s: string, hs: seq<Option<Hit>>, p: nat, o: char,
                                         lead: char, words: seq<string>)
    requires ValidHits(s, hs) && p <= |s|
    requires HitsProtected(s, hs, o, lead, words)
    ensures Protected(Scan(s, hs, p), lead, words)
    decreases |s| - p
  {
    if p < |s| {
      if hs[p].Some? {
        var h := hs[p].value;
        var rest := Scan(s, hs, h.end);
        assert Protected(rest, lead, words) by {
          ScanProtected(s, hs, h.end, o, lead, words);
        }
        assert Protected(h.out, lead, words);
        ConcatProtected(h.out, rest, lead, words);
      } else if s[p] == lead {
        var k :| 0 <= k < |words| && PrefixAt(s, p, words[k]);
        var w := words[k];
        WordStep(s, hs, p, k, o, lead, words);
        var rest := Scan(s, hs, p + |w|);
        assert Protected(rest, lead, words) by {
          ScanProtected(s, hs, p + |w|, o, lead, words);
        }
        WordIsProtected(words, k, lead);
        ConcatProtected(w, rest, lead, words);
      } else {
        var rest := Scan(s, hs, p + 1);
        assert Protected(rest, lead, words) by {
          ScanProtected(s, hs, p + 1, o, lead, words);
        }
        ConcatProtected([s[p]], rest, lead, words);
      }
    }
  }

  /** The whole pass keeps text protected. */
  lemma ReplaceAllProtected(pat: Pattern, s: string, lead: char, words: seq<string>, alphabet: set<char>)
    requires ValidPattern(pat)
    requires Protected(s, lead, words)
    requires WordsFit(words, lead, alphabet, pat) && InsertsProtected(pat, lead, words)
    ensures Protected(ReplaceAll(pat, s), lead, words)
  {
    var hs := Hits(pat, s);
    forall i | 0 <= i < |s| && hs[i].Some?
      ensures s[i] == Opener(pat) && Protected(hs[i].value.out, lead, words)
    {
      HitProtected(pat, s, i, lead, words, alphabet);
    }
    OverLed(words, lead, alphabet);
    OverNotIn(words, lead, alphabet, Opener(pat));
    ScanProtected(s, hs, 0, Opener(pat), lead, words);
  }

  /** A chain of passes keeps text protected when each pass does. */
  lemma {:induction false} ApplyPassesProtected(passes: seq<Pattern>, s: string, lead: char, words: seq<string>,
                                                alphabet: set<char>)
    requires AllValid(passes)
    requires Protected(s, lead, words)
    requires forall k :: 0 <= k < |passes| ==> WordsFit(words, lead, alphabet, passes[k])
    requires forall k :: 0 <= k < |passes| ==> InsertsProtected(passes[k], lead, words)
    ensures Protected(ApplyPasses(passes, s), lead, words)
    decreases |passes|
  {
    if passes != [] {
      ReplaceAllProtected(passes[0], s, lead, words, alphabet);
      ApplyPassesProtected(passes[1..], ReplaceAll(passes[0], s), lead, words, alphabet);
    }
  }

  /** A chain of passes changes nothing in text that holds no character any
      of them can start a match with. */
  lemma {:induction false} ApplyPassesUnchanged(passes: seq<Pattern>, s: string)
    requires AllValid(passes)
    requires forall k, i :: 0 <= k < |passes| && 0 <= i < |s| ==> s[i] != Opener(passes[k])
    ensures ApplyPasses(passes, s) == s
    decreases |passes|
  {
    if passes != [] {
      NoOpenerUnchanged(passes[0], s);
      ApplyPassesUnchanged(passes[1..], s);
    }
  }
}

=== FILE: passes.dfy ===
/** The replace-all passes of the two markdown converters. Each pass is one
    JavaScript `String.prototype.replace` with a global regular expression;
    here each regular expression is an explicit scan that finds the match the
    backtracking engine finds: the leftmost one, and within it the shortest
    group for a lazy `(.+?)` and the longest for a greedy `(.+)` or `([^x]+)`.
    A pass scans the ORIGINAL string left to right; after a match it resumes
    right after the match, otherwise it copies one character and moves on. */
module Passes {
  import opened Text
  import opened Wrappers

  datatype Pattern =
      /** `/O(.+?)C/g` replaced by `A$1B`. With `guarded`, the opening
          delimiter must not follow a `\w` character and the closing one must
          not be followed by one: the look-around `(?<!\w)O(.+?)C(?!\w)`. */
    | Lazy(open: string, close: string, before: string, after: string, guarded: bool)
      /** `/\[(.+?)\]\((.+?)\)/g` replaced by an anchor with href `$2` and text `$1`. */
    | LazyLink
      /** `/\[([^\]]+)\]\(([^)]+)\)/g` replaced by the same anchor. */
    | ClassLink
      /** `/^P(.+)$/gm` replaced by `A$1B`. */
    | LineStart(prefix: string, before: string, after: string)

  predicate ValidPattern(pat: Pattern) {
    match pat
    case Lazy(open, close, _, _, _) => |open| > 0 && |close| > 0
    case LineStart(prefix, _, _) => |prefix| > 0
    case _ => true
  }

  /** The character every match of `pat` starts with. */
  function Opener(pat: Pattern): char
    requires ValidPattern(pat)
  {
    match pat
    case Lazy(open, _, _, _, _) => open[0]
    case LazyLink => '['
    case ClassLink => '['
    case LineStart(prefix, _, _) => prefix[0]
  }

  const AnchorOpen: string := "<a href=\""
  const AnchorMid: string := "\" target=\"_blank\" rel=\"noopener noreferrer\">"
  const AnchorClose: string := "</a>"

  /** The replacement `<a href="$2" target="_blank" rel="noopener noreferrer">$1</a>`. */
  function Anchor(href: string, text: string): string {
    AnchorOpen + href + AnchorMid + text + AnchorClose
  }

  /** No line terminator in `s[a..b]`. */
  predicate NoTerminatorBetween(s: string, a: int, b: int) {
    forall i :: a <= i < b && 0 <= i < |s| ==> !IsLineTerminator(s[i])
  }

  /** The closing delimiter of a lazy pattern occurs at `q`, with the
      look-ahead `(?!\w)` when guarded. */
  predicate CloseAt(s: string, q: int, close: string, guarded: bool) {
    PrefixAt(s, q, close) && (!guarded || q + |close| == |s| || !IsWordChar(s[q + |close|]))
  }

  /** `q` can end the lazy group that starts at `start`: the group
      `s[start..q]` is non-empty, crosses no line terminator, and is followed
      by the closing delimiter. */
  predicate LazyGroupEnd(s: string, start: int, q: int, close: string, guarded: bool) {
    0 <= start < q <= |s| && NoTerminatorBetween(s, start, q) && CloseAt(s, q, close, guarded)
  }

  /** The end of the lazy group `(.+?)` starting at `start`, searching from
      candidate `q` on: the smallest end the regular-expression engine would
      accept, or `None` when there is none. */
  function LazyEnd(s: string, start: nat, q: nat, close: string, guarded: bool): (r: Option<nat>)
    requires start < q <= |s|
    requires NoTerminatorBetween(s, start, q - 1)
    requires forall q' :: start < q' < q ==> !CloseAt(s, q', close, guarded)
    ensures r.Some? ==> LazyGroupEnd(s, start, r.value, close, guarded)
    ensures r.Some? ==> forall q' :: start < q' < r.value ==> !LazyGroupEnd(s, start, q', close, guarded)
    ensures r.None? ==> forall q' :: !LazyGroupEnd(s, start, q', close, guarded)
    decreases |s| - q
  {
    if IsLineTerminator(s[q - 1]) then
      assert forall q' :: q <= q' ==> !NoTerminatorBetween(s, start, q');
      None
    else if CloseAt(s, q, close, guarded) then Some(q)
    else if q == |s| then None
    else LazyEnd(s, start, q + 1, close, guarded)
  }

  /** The first index at or after `from` holding `c`. */
  function IndexOf(s: string, c: char, from: nat): (r: Option<nat>)
    ensures r.Some? ==> from <= r.value < |s| && s[r.value] == c
    ensures r.Some? ==> forall i :: from <= i < r.value ==> s[i] != c
    ensures r.None? ==> forall i :: from <= i < |s| ==> s[i] != c
    decreases |s| - from
  {
    if from >= |s| then None
    else if s[from] == c then Some(from)
    else IndexOf(s, c, from + 1)
  }

  /** The first line terminator at or after `from`, or the end of `s`: where
      a greedy `.+` starting at `from` stops. */
  function LineEnd(s: string, from: nat): (e: nat)
    requires from <= |s|
    ensures from <= e <= |s|
    ensures NoTerminatorBetween(s, from, e)
    ensures e < |s| ==> IsLineTerminator(s[e])
    decreases |s| - from
  {
    if from == |s| || IsLineTerminator(s[from]) then from else LineEnd(s, from + 1)
  }

  /** The groups of `\[(.+?)\]\((.+?)\)` for a `[` at `p`, trying the end
      `q1` of group 1 from the given candidate on. The result `(q1, q2)`
      means group 1 is `s[p+1..q1]` and group 2 is `s[q1+2..q2]`. */
  function LazyLinkFrom(s: string, p: nat, q1: nat): (r: Option<(nat, nat)>)
    requires p + 1 < q1 <= |s|
    requires NoTerminatorBetween(s, p + 1, q1 - 1)
    ensures r.Some? ==> var (a, b) := r.value;
      && q1 <= a && a + 2 < b < |s|
      && NoTerminatorBetween(s, p + 1, a) && PrefixAt(s, a, "](")
      && LazyGroupEnd(s, a + 2, b, ")", false)
    decreases |s| - q1
  {
    if IsLineTerminator(s[q1 - 1]) then None
    else
      var second := if PrefixAt(s, q1, "](") && q1 + 2 < |s|
        then LazyEnd(s, q1 + 2, q1 + 3, ")", false) else None;
      if second.Some? then Some((q1, second.value))
      else if q1 == |s| then None
      else LazyLinkFrom(s, p, q1 + 1)
  }

  /** The groups of `\[([^\]]+)\]\(([^)]+)\)` for a `[` at `p`: group 1 runs
      to the first `]`, which must be followed by `(`, and group 2 runs to the
      first `)` after that; both must be non-empty. */
  function ClassLinkAt(s: string, p: nat): (r: Option<(nat, nat)>)
    ensures r.Some? ==> var (a, b) := r.value;
      && p + 1 < a && a + 2 < b < |s|
      && s[a] == ']' && s[a + 1] == '(' && s[b] == ')'
      && (forall i :: p + 1 <= i < a ==> s[i] != ']')
      && (forall i :: a + 2 <= i < b ==> s[i] != ')')
  {
    match IndexOf(s, ']', p + 1)
    case None => None
    case Some(a) =>
      if a > p + 1 && a + 1 < |s| && s[a + 1] == '(' then
        match IndexOf(s, ')', a + 2)
        case None => None
        case Some(b) => if b > a + 2 then Some((a, b)) else None
      else None
  }

  /** A match found at some position: where the scan resumes, and the text
      that replaces the matched part. */
  datatype Hit = Hit(end: nat, out: string)

  /** The match of `/O(.+?)C/g` at `p`. */
  function MatchLazy(open: string, close: string, before: string, after: string, guarded: bool,
                     s: string, p: nat): (r: Option<Hit>)
    requires |open| > 0 && |close| > 0 && p < |s|
    ensures r.Some? ==> p < r.value.end <= |s| && s[p] == open[0]
    ensures r.Some? ==> var start := p + |open|; var q := r.value.end - |close|;
      && PrefixAt(s, p, open) && LazyGroupEnd(s, start, q, close, guarded)
      && r.value.out == before + s[start..q] + after
  {
    var start := p + |open|;
    if PrefixAt(s, p, open) && start < |s| && (!guarded || p == 0 || !IsWordChar(s[p - 1])) then
      match LazyEnd(s, start, start + 1, close, guarded)
      case Some(q) => Some(Hit(q + |close|, before + s[start..q] + after))
      case None => None
    else None
  }

  /** The match of `/\[(.+?)\]\((.+?)\)/g` at `p`. */
  function MatchLazyLink(s: string, p: nat): (r: Option<Hit>)
    requires p < |s|
    ensures r.Some? ==> p < r.value.end <= |s| && s[p] == '['
    ensures r.Some? ==> exists a, b :: LinkShape(s, p, a, b) && r.value.out == Anchor(s[a + 2..b], s[p + 1..a])
  {
    if s[p] == '[' && p + 2 <= |s| then
      match LazyLinkFrom(s, p, p + 2)
      case Some((a, b)) =>
        LazyLinkShape(s, p, a, b);
        Some(Hit(b + 1, Anchor(s[a + 2..b], s[p + 1..a])))
      case None => None
    else None
  }

  lemma LazyLinkShape(s: string, p: nat, a: nat, b: nat)
    requires p < |s| && s[p] == '[' && p + 2 <= a && a + 2 < b < |s|
    requires PrefixAt(s, a, "](") && LazyGroupEnd(s, a + 2, b, ")", false)
    ensures LinkShape(s, p, a, b)
  {
    assert s[a..a + 2][0] == s[a] && s[a..a + 2][1] == s[a + 1];
    assert s[b..b + 1][0] == s[b];
  }

  /** The match of `/\[([^\]]+)\]\(([^)]+)\)/g` at `p`. */
  function MatchClassLink(s: string, p: nat): (r: Option<Hit>)
    requires p < |s|
    ensures r.Some? ==> p < r.value.end <= |s| && s[p] == '['
    ensures r.Some? ==> exists a, b :: LinkShape(s, p, a, b) && r.value.out == Anchor(s[a + 2..b], s[p + 1..a])
  {
    if s[p] == '[' then
      match ClassLinkAt(s, p)
      case Some((a, b)) =>
        assert LinkShape(s, p, a, b);
        Some(Hit(b + 1, Anchor(s[a + 2..b], s[p + 1..a])))
      case None => None
    else None
  }

  /** The bracket positions of a link starting at `p`: group 1 is
      `s[p+1..a]`, followed by `](`, and group 2 is `s[a+2..b]`, followed by
      `)`; both are non-empty. */
  predicate LinkShape(s: string, p: int, a: int, b: int) {
    0 <= p && p + 1 < a && a + 2 < b < |s| && s[p] == '[' && s[a] == ']' && s[a + 1] == '(' && s[b] == ')'
  }

  /** The match of `/^P(.+)$/gm` at `p`. */
  function MatchLineStart(prefix: string, before: string, after: string, s: string, p: nat): (r: Option<Hit>)
    requires |prefix| > 0 && p < |s|
    ensures r.Some? ==> p < r.value.end <= |s| && s[p] == prefix[0]
    ensures r.Some? ==> var start := p + |prefix|; var e := r.value.end;
      && (p == 0 || IsLineTerminator(s[p - 1])) && PrefixAt(s, p, prefix)
      && start < e && NoTerminatorBetween(s, start, e) && (e == |s| || IsLineTerminator(s[e]))
      && r.value.out == before + s[start..e] + after
  {
    var start := p + |prefix|;
    if (p == 0 || IsLineTerminator(s[p - 1])) && PrefixAt(s, p, prefix) then
      var e := LineEnd(s, start);
      if e > start then Some(Hit(e, before + s[start..e] + after)) else None
    else None
  }

  /** The match of `pat` starting exactly at `p`, if there is one. */
  function MatchAt(pat: Pattern, s: string, p: nat): (r: Option<Hit>)
    requires ValidPattern(pat) && p < |s|
    ensures r.Some? ==> p < r.value.end <= |s| && s[p] == Opener(pat)
  {
    match pat
    case Lazy(open, close, before, after, guarded) => MatchLazy(open, close, before, after, guarded, s, p)
    case LazyLink => MatchLazyLink(s, p)
    case ClassLink => MatchClassLink(s, p)
    case LineStart(prefix, before, after) => MatchLineStart(prefix, before, after, s, p)
  }

  /** The matches a pass can use: one entry per position of `s`, each
      ending inside `s` after its start. */
  predicate ValidHits(s: string, hs: seq<Option<Hit>>) {
    |hs| == |s| && forall i :: 0 <= i < |s| && hs[i].Some? ==> i < hs[i].value.end <= |s|
  }

  /** The match of `pat` at every position of `s`. */
  function Hits(pat: Pattern, s: string): (hs: seq<Option<Hit>>)
    requires ValidPattern(pat)
    ensures ValidHits(s, hs)
    ensures forall i :: 0 <= i < |s| ==> hs[i] == MatchAt(pat, s, i)
  {
    seq(|s|, i requires 0 <= i < |s| => MatchAt(pat, s, i))
  }

  /** The replace-all scan from position `p` on: at a position where a match
      starts, emit its replacement and resume after it; elsewhere copy the
      character. */
  function Scan(s: string, hs: seq<Option<Hit>>, p: nat): string
    requires ValidHits(s, hs) && p <= |s|
    decreases |s| - p
  {
    if p == |s| then ""
    else match hs[p]
      case Some(h) => h.out + Scan(s, hs, h.end)
      case None => [s[p]] + Scan(s, hs, p + 1)
  }

  /** `s.replace(pattern, replacement)` with the global flag. */
  function ReplaceAll(pat: Pattern, s: string): string
    requires ValidPattern(pat)
  {
    Scan(s, Hits(pat, s), 0)
  }

  predicate AllValid(passes: seq<Pattern>) {
    forall k :: 0 <= k < |passes| ==> ValidPattern(passes[k])
  }

  /** A chain of `.replace(...)` calls, applied in list order. */
  function ApplyPasses(passes: seq<Pattern>, s: string): string
    requires AllValid(passes)
    decreases |passes|
  {
    if passes == [] then s else ApplyPasses(passes[1..], ReplaceAll(passes[0], s))
  }
}

=== FILE: post_card.dfy ===
// The blog post card's two computed values: the reading-time estimate and
// the locale its date is formatted in. Date formatting itself is the
// platform's and is left out.
module PostCard {
  import opened Text
  import Utils

  const WordsPerMinute: nat := 200

  predicate NoSpace(s: string) {
    forall i :: 0 <= i < |s| ==> !IsSpace(s[i])
  }

  /**
   * `s.split(/\s+/)`: the pieces between maximal runs of white space. A
   * leading or trailing run yields an empty first or last piece, and the
   * empty string yields one empty piece.
   */
  function SplitOnSpaceRuns(s: string): (r: seq<string>)
    ensures |r| >= 1
    ensures forall k :: 0 <= k < |r| ==> NoSpace(r[k])
    decreases |s|
  {
    if |s| == 0 then [""]
    else if IsSpace(s[0]) then
      var n := CountLeadingSpaces(s);
      [""] + SplitOnSpaceRuns(s[n..])
    else
      var rest := SplitOnSpaceRuns(s[1..]);
      [[s[0]] + rest[0]] + rest[1..]
  }

  /** The characters of `s` that are not white space, in order. */
  function Unspaced(s: string): string {
    if |s| == 0 then []
    else (if IsSpace(s[0]) then [] else [s[0]]) + Unspaced(s[1..])
  }

  function Concat(parts: seq<string>): string {
    if |parts| == 0 then [] else parts[0] + Concat(parts[1..])
  }

  /** Splitting loses only the white space: the pieces put together are the other characters. */
  lemma {:induction false} SplitKeepsText(s: string)
    ensures Concat(SplitOnSpaceRuns(s)) == Unspaced(s)
    decreases |s|
  {
    if |s| > 0 {
      if IsSpace(s[0]) {
        var n := CountLeadingSpaces(s);
        SplitKeepsText(s[n..]);
        UnspacedSkips(s, n);
        var r := SplitOnSpaceRuns(s[n..]);
        assert ([""] + r)[1..] == r;
      } else {
        var rest := SplitOnSpaceRuns(s[1..]);
        SplitKeepsText(s[1..]);
        var r := [[s[0]] + rest[0]] + rest[1..];
        assert r[1..] == rest[1..];
        assert Concat(rest) == rest[0] + Concat(rest[1..]);
      }
    }
  }

  lemma {:induction false} UnspacedSkips(s: string, n: nat)
    requires n <= |s| && AllSpace(s[..n])
    ensures Unspaced(s) == Unspaced(s[n..])
    decreases n
  {
    if n > 0 {
      assert s[1..][..n - 1] == s[..n][1..];
      assert IsSpace(s[..n][0]);
      UnspacedSkips(s[1..], n - 1);
      assert s[1..][n - 1..] == s[n..];
    }
  }

  /** The pieces with separator `seps[k]` put back between pieces `k` and `k + 1`. */
  function Interleave(parts: seq<string>, seps: seq<string>): string
    requires |parts| == |seps| + 1
  {
    if |seps| == 0 then parts[0] else parts[0] + seps[0] + Interleave(parts[1..], seps[1..])
  }

  /** The cuts are whole white-space runs: each separator is non-empty white space. */
  predicate SpaceSeparators(seps: seq<string>) {
    forall k :: 0 <= k < |seps| ==> seps[k] != [] && AllSpace(seps[k])
  }

  /** The maximal white-space runs of `s`, in order. */
  function SpaceRuns(s: string): (runs: seq<string>)
    ensures SpaceSeparators(runs)
    decreases |s|
  {
    if |s| == 0 then []
    else if IsSpace(s[0]) then
      var n := CountLeadingSpaces(s);
      [s[..n]] + SpaceRuns(s[n..])
    else SpaceRuns(s[1..])
  }

  /**
   * The split cuts exactly at the maximal white-space runs: there is one
   * piece more than there are runs, and the text is the pieces with the runs
   * put back between them.
   */
  lemma {:induction false} SplitRebuilds(s: string)
    ensures |SpaceRuns(s)| + 1 == |SplitOnSpaceRuns(s)|
    ensures Interleave(SplitOnSpaceRuns(s), SpaceRuns(s)) == s
    decreases |s|
  {
    if |s| > 0 {
      if IsSpace(s[0]) {
        var n := CountLeadingSpaces(s);
        SplitRebuilds(s[n..]);
        SplitRebuildsAtRun(s, n);
      } else {
        SplitRebuilds(s[1..]);
        InterleavePrepend([s[0]], SplitOnSpaceRuns(s[1..]), SpaceRuns(s[1..]));
        assert [s[0]] + s[1..] == s;
      }
    }
  }

  /** The step of `SplitRebuilds` at a leading run of `n` white-space characters. */
  lemma SplitRebuildsAtRun(s: string, n: nat)
    requires 0 < |s| && IsSpace(s[0]) && n == CountLeadingSpaces(s)
    requires |SpaceRuns(s[n..])| + 1 == |SplitOnSpaceRuns(s[n..])|
    requires Interleave(SplitOnSpaceRuns(s[n..]), SpaceRuns(s[n..])) == s[n..]
    ensures |SpaceRuns(s)| + 1 == |SplitOnSpaceRuns(s)|
    ensures Interleave(SplitOnSpaceRuns(s), SpaceRuns(s)) == s
  {
    var r, runs := SplitOnSpaceRuns(s), SpaceRuns(s);
    assert r == [""] + SplitOnSpaceRuns(s[n..]);
    assert runs == [s[..n]] + SpaceRuns(s[n..]);
    assert r[1..] == SplitOnSpaceRuns(s[n..]) && runs[1..] == SpaceRuns(s[n..]);
    InterleaveCons(r, runs);
    assert s[..n] + s[n..] == s;
  }

  /** Growing the first piece at the front grows the text at the front. */
  lemma InterleavePrepend(c: string, parts: seq<string>, seps: seq<string>)
    requires |parts| == |seps| + 1
    ensures Interleave([c + parts[0]] + parts[1..], seps) == c + Interleave(parts, seps)
  {
    var q := [c + parts[0]] + parts[1..];
    if |seps| > 0 {
      assert q[1..] == parts[1..];
      InterleaveCons(q, seps);
      InterleaveCons(parts, seps);
    }
  }

  lemma InterleaveCons(parts: seq<string>, seps: seq<string>)
    requires |parts| == |seps| + 1 && |seps| > 0
    ensures Interleave(parts, seps) == parts[0] + (seps[0] + Interleave(parts[1..], seps[1..]))
  {
  }

  /** A string that does not end in white space splits into non-empty pieces after the first. */
  lemma {:induction false} SplitPiecesNonEmpty(s: string)
    requires |s| > 0 && !IsSpace(s[|s| - 1])
    ensures forall k :: 1 <= k < |SplitOnSpaceRuns(s)| ==> |SplitOnSpaceRuns(s)[k]| > 0
    decreases |s|
  {
    if IsSpace(s[0]) {
      var n := CountLeadingSpaces(s);
      assert n < |s|;
      var d := s[n..];
      SplitPiecesNonEmpty(d);
      assert |SplitOnSpaceRuns(d)[0]| > 0 by {
        assert !IsSpace(d[0]);
      }
      assert SplitOnSpaceRuns(s) == [""] + SplitOnSpaceRuns(d);
    } else if |s| > 1 {
      var t := s[1..];
      assert t[|t| - 1] == s[|s| - 1];
      SplitPiecesNonEmpty(t);
      var rest := SplitOnSpaceRuns(t);
      var r := SplitOnSpaceRuns(s);
      assert r == [[s[0]] + rest[0]] + rest[1..];
      forall k | 1 <= k < |r|
        ensures |r[k]| > 0
      {
        assert r[k] == rest[k];
      }
    }
  }

  /** The number of words: the pieces of the trimmed content. */
  function WordCount(content: string): (n: nat)
    ensures n >= 1
    // One more than the white-space runs inside the trimmed content.
    ensures n == |SpaceRuns(Trim(content))| + 1
  {
    SplitRebuilds(Trim(content));
    |SplitOnSpaceRuns(Trim(content))|
  }

  /** For content with any text, every counted word is a non-empty run of non-white-space characters. */
  lemma WordsAreWords(content: string)
    requires !AllSpace(content)
    ensures var r := SplitOnSpaceRuns(Trim(content));
      forall k :: 0 <= k < |r| ==> |r[k]| > 0 && NoSpace(r[k])
  {
    var t := Trim(content);
    SplitPiecesNonEmpty(t);
  }

  /** Blank content still counts as one word, as splitting the empty string yields one piece. */
  lemma BlankIsOneWord(content: string)
    requires AllSpace(content)
    ensures WordCount(content) == 1
  {
  }

  /** `Math.max(1, Math.ceil(words / 200))` minutes. */
  function ReadingTime(content: string): (m: nat)
    ensures m >= 1
    ensures (m - 1) * WordsPerMinute < WordCount(content) <= m * WordsPerMinute
  {
    var w := WordCount(content);
    (w + WordsPerMinute - 1) / WordsPerMinute
  }

  /** The estimate is the least whole number of minutes that covers the words at 200 a minute. */
  lemma ReadingTimeLeast(content: string, m: nat)
    requires WordCount(content) <= m * WordsPerMinute
    ensures ReadingTime(content) <= m
  {
  }

  /** Up to 200 words read in a minute; one more word makes it two. */
  lemma ReadingTimeBoundary(content: string)
    ensures WordCount(content) <= 200 <==> ReadingTime(content) == 1
    ensures WordCount(content) == 201 ==> ReadingTime(content) == 2
  {
  }

  /** The date's locale: Italian for "it", American English for everything else. */
  function CardLocale(locale: string): (r: string)
    ensures r == "it-IT" <==> locale == "it"
    ensures r == "en-US" <==> locale != "it"
  {
    if locale == "it" then "it-IT" else "en-US"
  }

  /**
   * The card and the site's date helper agree on the two site locales and on
   * "en-US", and on nothing else: the helper passes other codes through.
   */
  lemma CardLocaleAgrees(locale: string)
    ensures CardLocale(locale) == Utils.ResolveLocale(locale) <==> locale in {"it", "en", "en-US"}
  {
    Utils.ResolveLocaleFixed(locale);
  }
}

=== FILE: seqs.dfy ===
// `Array.prototype.filter` and the facts about it the components rely on.
module Seqs {

  /** The elements of `xs` that satisfy `p`, in their order in `xs`. */
  function Filter<T>(xs: seq<T>, p: T -> bool): (r: seq<T>)
    ensures |r| <= |xs|
    ensures forall i :: 0 <= i < |r| ==> p(r[i])
  {
    if |xs| == 0 then [] else (if p(xs[0]) then [xs[0]] else []) + Filter(xs[1..], p)
  }

  /** An element is kept exactly when it is in the input and satisfies the predicate. */
  lemma {:induction false} FilterMembers<T>(xs: seq<T>, p: T -> bool, x: T)
    ensures x in Filter(xs, p) <==> x in xs && p(x)
  {
    if |xs| > 0 {
      FilterMembers(xs[1..], p, x);
      assert x in xs <==> x == xs[0] || x in xs[1..];
    }
  }

  /** The kept elements keep their order: the `i`th of them sits at position
      `idx[i]` of the input, and those positions strictly increase. */
  lemma {:induction false} FilterOrder<T>(xs: seq<T>, p: T -> bool) returns (idx: seq<nat>)
    ensures |idx| == |Filter(xs, p)|
    ensures forall i :: 0 <= i < |idx| ==> idx[i] < |xs| && Filter(xs, p)[i] == xs[idx[i]]
    ensures forall i, j :: 0 <= i < j < |idx| ==> idx[i] < idx[j]
  {
    if |xs| == 0 {
      idx := [];
    } else {
      var rest := FilterOrder(xs[1..], p);
      var shifted := seq(|rest|, i requires 0 <= i < |rest| => rest[i] + 1);
      idx := if p(xs[0]) then [0] + shifted else shifted;
    }
  }

  /** Filtering twice is filtering once by both predicates. */
  lemma {:induction false} FilterFilter<T>(xs: seq<T>, p: T -> bool, q: T -> bool, pq: T -> bool)
    requires forall x :: pq(x) == (p(x) && q(x))
    ensures Filter(Filter(xs, p), q) == Filter(xs, pq)
  {
    if |xs| > 0 {
      FilterFilter(xs[1..], p, q, pq);
      var head := if p(xs[0]) then [xs[0]] else [];
      FilterConcat(head, Filter(xs[1..], p), q);
      if p(xs[0]) {
        assert head[1..] == [];
      }
    }
  }

  lemma {:induction false} FilterConcat<T>(a: seq<T>, b: seq<T>, p: T -> bool)
    ensures Filter(a + b, p) == Filter(a, p) + Filter(b, p)
  {
    if |a| > 0 {
      assert (a + b)[1..] == a[1..] + b;
      FilterConcat(a[1..], b, p);
    } else {
      assert a + b == b;
    }
  }

  /** When every element satisfies exactly one of two predicates, the two filters split the input. */
  lemma {:induction false} FilterPartition<T>(xs: seq<T>, p: T -> bool, q: T -> bool)
    requires forall i :: 0 <= i < |xs| ==> p(xs[i]) != q(xs[i])
    ensures |Filter(xs, p)| + |Filter(xs, q)| == |xs|
  {
    if |xs| > 0 {
      FilterPartition(xs[1..], p, q);
    }
  }

  /** Nothing is dropped when every element satisfies the predicate. */
  lemma {:induction false} FilterAll<T>(xs: seq<T>, p: T -> bool)
    requires forall i :: 0 <= i < |xs| ==> p(xs[i])
    ensures Filter(xs, p) == xs
  {
    if |xs| > 0 {
      FilterAll(xs[1..], p);
      assert xs == [xs[0]] + xs[1..];
    }
  }
}

=== FILE: sitemap.dfy ===
// The sitemap: every static page in both locales, then every blog post of
// each locale. The post lists are the loader's results, passed in; the
// generation time of the static entries is the clock's and is left abstract.
module Sitemap {
  import opened Types

  const BaseUrl: string := "https://pablothegarden.com"

  /** Locales in sitemap order: Italian first. */
  const Locales: seq<string> := ["it", "en"]

  const StaticPages: seq<string> := ["", "/lineup", "/tickets", "/gallery", "/blog", "/about", "/rules", "/contact"]

  datatype Frequency = Weekly | Monthly

  /** When an entry last changed: the sitemap's own generation time, or a post's date. */
  datatype Modified = GeneratedAt | PostDate(date: string)

  /** A sitemap entry; the priority is kept in tenths (0.8 is 8). */
  datatype Entry = Entry(url: string, lastModified: Modified, changeFrequency: Frequency, priorityTenths: nat)

  /** `xs.flatMap(f)` */
  function FlatMap<A, B>(xs: seq<A>, f: A -> seq<B>): seq<B> {
    if |xs| == 0 then [] else f(xs[0]) + FlatMap(xs[1..], f)
  }

  lemma FlatMapPair<A, B>(a: A, b: A, f: A -> seq<B>)
    ensures FlatMap([a, b], f) == f(a) + f(b)
  {
    assert [a, b][1..] == [b];
    assert [b][1..] == [];
    assert FlatMap([b], f) == f(b) + FlatMap([], f);
    assert f(b) + [] == f(b);
  }

  /** Home page 1.0, lineup and tickets 0.9, every other page 0.8. */
  function StaticPriority(page: string): (p: nat)
    ensures 8 <= p <= 10
    ensures p == 10 <==> page == ""
    ensures p == 9 <==> page == "/lineup" || page == "/tickets"
  {
    if page == "" then 10 else if page == "/lineup" || page == "/tickets" then 9 else 8
  }

  function StaticEntry(locale: string, page: string): (e: Entry)
    ensures e.url == BaseUrl + "/" + locale + page
    ensures e.changeFrequency == Weekly && e.lastModified == GeneratedAt
  {
    Entry(BaseUrl + "/" + locale + page, GeneratedAt, Weekly, StaticPriority(page))
  }

  function StaticEntriesOf(locale: string): (r: seq<Entry>)
    ensures |r| == |StaticPages|
    ensures forall k :: 0 <= k < |r| ==> r[k] == StaticEntry(locale, StaticPages[k])
  {
    seq(|StaticPages|, k requires 0 <= k < |StaticPages| => StaticEntry(locale, StaticPages[k]))
  }

  function StaticEntries(): seq<Entry> {
    FlatMap(Locales, StaticEntriesOf)
  }

  function BlogEntry(locale: string, post: BlogPost): (e: Entry)
    ensures e.url == BaseUrl + "/" + locale + "/blog/" + post.slug
    ensures e.changeFrequency == Monthly && e.priorityTenths == 7 && e.lastModified == PostDate(post.date)
  {
    Entry(BaseUrl + "/" + locale + "/blog/" + post.slug, PostDate(post.date), Monthly, 7)
  }

  function BlogEntriesOf(postsOf: string -> seq<BlogPost>): string -> seq<Entry> {
    (locale: string) =>
      seq(|postsOf(locale)|, k requires 0 <= k < |postsOf(locale)| => BlogEntry(locale, postsOf(locale)[k]))
  }

  /** The whole sitemap, given each locale's posts as the loader returns them. */
  function BuildSitemap(postsOf: string -> seq<BlogPost>): seq<Entry> {
    StaticEntries() + FlatMap(Locales, BlogEntriesOf(postsOf))
  }

  /**
   * Sixteen static entries, locale-major with Italian first, then the Italian
   * posts and then the English posts, each in the loader's order.
   */
  lemma SitemapLayout(postsOf: string -> seq<BlogPost>)
    ensures var r := BuildSitemap(postsOf);
      var it, en := postsOf("it"), postsOf("en");
      && |r| == 16 + |it| + |en|
      && (forall i :: 0 <= i < 16 ==> r[i] == StaticEntry(Locales[i / 8], StaticPages[i % 8]))
      && (forall k :: 0 <= k < |it| ==> r[16 + k] == BlogEntry("it", it[k]))
      && (forall k :: 0 <= k < |en| ==> r[16 + |it| + k] == BlogEntry("en", en[k]))
  {
    FlatMapPair("it", "en", StaticEntriesOf);
    FlatMapPair("it", "en", BlogEntriesOf(postsOf));
    var s := StaticEntries();
    assert s == StaticEntriesOf("it") + StaticEntriesOf("en");
    forall i | 0 <= i < 16
      ensures s[i] == StaticEntry(Locales[i / 8], StaticPages[i % 8])
    {
      if i < 8 {
        assert s[i] == StaticEntriesOf("it")[i];
      } else {
        assert s[i] == StaticEntriesOf("en")[i - 8];
      }
    }
  }

  /** The home URL has no trailing slash. */
  lemma HomeUrls()
    ensures StaticEntry("it", "").url == "https://pablothegarden.com/it"
    ensures StaticEntry("en", "").url == "https://pablothegarden.com/en"
  {
  }

  /** No two static entries share a URL. */
  lemma StaticUrlsDistinct(i: int, j: int)
    requires 0 <= i < j < 16
    ensures StaticEntry(Locales[i / 8], StaticPages[i % 8]).url != StaticEntry(Locales[j / 8], StaticPages[j % 8]).url
  {
    var li, lj := Locales[i / 8], Locales[j / 8];
    var pi, pj := StaticPages[i % 8], StaticPages[j % 8];
    var ui, uj := BaseUrl + "/" + li + pi, BaseUrl + "/" + lj + pj;
    var n := |BaseUrl| + 1;
    assert ui[n] == li[0] && uj[n] == lj[0];
    if i / 8 == j / 8 {
      assert i % 8 != j % 8;
      PagesDistinct(i % 8, j % 8);
      assert ui[n + 2..] == pi && uj[n + 2..] == pj;
    }
  }

  lemma PagesDistinct(a: int, b: int)
    requires 0 <= a < 8 && 0 <= b < 8 && a != b
    ensures StaticPages[a] != StaticPages[b]
  {
    var p := StaticPages;
    if |p[a]| == |p[b]| {
      assert p[a][1] != p[b][1] || p[a][2] != p[b][2];
    }
  }
}

=== FILE: sorting.dfy ===
// Array sorting as the site uses it: `Array.prototype.sort` with a numeric
// comparator. The ECMAScript sort is stable, and for a comparator that is the
// difference of numeric keys its result is the unique stable ordering of the
// input by those keys. The model is an insertion sort over a "must precede"
// relation: the first element that the new one must precede marks its place,
// so later elements land after earlier ones of equal key.
module Sorting {

  /** Sort keys: compared lexicographically (primary, then secondary). */
  type Key = (int, int)

  predicate KeyLess(a: Key, b: Key) {
    a.0 < b.0 || (a.0 == b.0 && a.1 < b.1)
  }

  /** `x` placed just before the first element of `ys` that it must precede. */
  function Insert<T(==)>(x: T, ys: seq<T>, before: (T, T) -> bool): (r: seq<T>)
    ensures multiset(r) == multiset(ys) + multiset{x}
  {
    if |ys| == 0 then [x]
    else if before(x, ys[0]) then [x] + ys
    else
      assert ys == [ys[0]] + ys[1..];
      [ys[0]] + Insert(x, ys[1..], before)
  }

  /** Stable insertion sort: each element is inserted into the sorted prefix before it. */
  function Sort<T(==)>(xs: seq<T>, before: (T, T) -> bool): (r: seq<T>)
    ensures multiset(r) == multiset(xs)
  {
    if |xs| == 0 then []
    else
      assert xs == xs[..|xs| - 1] + [xs[|xs| - 1]];
      Insert(xs[|xs| - 1], Sort(xs[..|xs| - 1], before), before)
  }

  /** The relation a comparator `(a, b) => key(a) - key(b)` induces: strictly smaller key first. */
  function KeyBefore<T>(key: T -> Key): (T, T) -> bool {
    (a: T, b: T) => KeyLess(key(a), key(b))
  }

  function SortBy<T(==)>(xs: seq<T>, key: T -> Key): seq<T> {
    Sort(xs, KeyBefore(key))
  }

  /** No element is followed by one with a smaller key. */
  predicate SortedBy<T>(xs: seq<T>, key: T -> Key) {
    forall i, j :: 0 <= i < j < |xs| ==> !KeyLess(key(xs[j]), key(xs[i]))
  }

  /** The elements of `xs` with key `k`, in their order in `xs`. */
  function WithKey<T>(xs: seq<T>, key: T -> Key, k: Key): seq<T> {
    if |xs| == 0 then []
    else (if key(xs[0]) == k then [xs[0]] else []) + WithKey(xs[1..], key, k)
  }

  lemma {:induction false} WithKeyConcat<T>(a: seq<T>, b: seq<T>, key: T -> Key, k: Key)
    ensures WithKey(a + b, key, k) == WithKey(a, key, k) + WithKey(b, key, k)
  {
    if |a| > 0 {
      assert (a + b)[1..] == a[1..] + b;
      WithKeyConcat(a[1..], b, key, k);
    } else {
      assert a + b == b;
    }
  }

  lemma WithKeySingle<T>(x: T, key: T -> Key, k: Key)
    ensures WithKey([x], key, k) == if key(x) == k then [x] else []
  {
    assert [x][1..] == [];
  }

  lemma {:induction false} WithKeyNone<T>(xs: seq<T>, key: T -> Key, k: Key)
    requires forall i :: 0 <= i < |xs| ==> key(xs[i]) != k
    ensures WithKey(xs, key, k) == []
  {
    if |xs| > 0 {
      WithKeyNone(xs[1..], key, k);
    }
  }

  lemma InsertMembers<T>(x: T, ys: seq<T>, before: (T, T) -> bool, e: T)
    requires e in Insert(x, ys, before)
    ensures e == x || e in ys
  {
    var r := Insert(x, ys, before);
    assert e in multiset(r);
  }

  lemma {:induction false} InsertSorted<T>(x: T, ys: seq<T>, key: T -> Key)
    requires SortedBy(ys, key)
    ensures SortedBy(Insert(x, ys, KeyBefore(key)), key)
  {
    if |ys| > 0 && !KeyLess(key(x), key(ys[0])) {
      var rest := Insert(x, ys[1..], KeyBefore(key));
      InsertSorted(x, ys[1..], key);
      var r := [ys[0]] + rest;
      assert Insert(x, ys, KeyBefore(key)) == r;
      forall j | 1 <= j < |r|
        ensures !KeyLess(key(r[j]), key(r[0]))
      {
        assert r[j] in rest;
        InsertMembers(x, ys[1..], KeyBefore(key), r[j]);
        if r[j] != x {
          var m :| 0 <= m < |ys[1..]| && ys[1..][m] == r[j];
          assert ys[m + 1] == r[j];
        }
      }
    }
  }

  /** Sorting by key leaves no element before one with a smaller key. */
  lemma {:induction false} SortBySorted<T>(xs: seq<T>, key: T -> Key)
    ensures SortedBy(SortBy(xs, key), key)
  {
    if |xs| > 0 {
      SortBySorted(xs[..|xs| - 1], key);
      InsertSorted(xs[|xs| - 1], SortBy(xs[..|xs| - 1], key), key);
    }
  }

  lemma {:induction false} InsertWithKey<T>(x: T, ys: seq<T>, key: T -> Key, k: Key)
    requires SortedBy(ys, key)
    ensures WithKey(Insert(x, ys, KeyBefore(key)), key, k)
         == WithKey(ys, key, k) + (if key(x) == k then [x] else [])
    decreases |ys|
  {
    if |ys| == 0 {
    } else if KeyLess(key(x), key(ys[0])) {
      InsertFront(x, ys, key, k);
    } else {
      var ys1 := ys[1..];
      assert SortedBy(ys1, key) by {
        forall i, j | 0 <= i < j < |ys1|
          ensures !KeyLess(key(ys1[j]), key(ys1[i]))
        {
          assert ys1[i] == ys[i + 1] && ys1[j] == ys[j + 1];
        }
      }
      InsertWithKey(x, ys1, key, k);
      InsertLater(x, ys, key, k);
    }
  }

  /** Inserted in front of a sorted sequence, `x` has a key no other element has. */
  lemma InsertFront<T>(x: T, ys: seq<T>, key: T -> Key, k: Key)
    requires SortedBy(ys, key) && |ys| > 0 && KeyLess(key(x), key(ys[0]))
    ensures WithKey(Insert(x, ys, KeyBefore(key)), key, k)
         == WithKey(ys, key, k) + (if key(x) == k then [x] else [])
  {
    assert Insert(x, ys, KeyBefore(key)) == [x] + ys;
    WithKeyConcat([x], ys, key, k);
    WithKeySingle(x, key, k);
    if key(x) == k {
      forall i | 0 <= i < |ys|
        ensures key(ys[i]) != k
      {
        assert !KeyLess(key(ys[i]), key(ys[0]));
      }
      WithKeyNone(ys, key, k);
    }
  }

  /** Inserted past the first element, `x` lands among the rest. */
  lemma InsertLater<T>(x: T, ys: seq<T>, key: T -> Key, k: Key)
    requires |ys| > 0 && !KeyLess(key(x), key(ys[0]))
    requires WithKey(Insert(x, ys[1..], KeyBefore(key)), key, k)
          == WithKey(ys[1..], key, k) + (if key(x) == k then [x] else [])
    ensures WithKey(Insert(x, ys, KeyBefore(key)), key, k)
         == WithKey(ys, key, k) + (if key(x) == k then [x] else [])
  {
    var ys1 := ys[1..];
    var before := KeyBefore(key);
    var rest := Insert(x, ys1, before);
    var tail := if key(x) == k then [x] else [];
    var h := WithKey([ys[0]], key, k);
    assert !before(x, ys[0]);
    assert Insert(x, ys, before) == [ys[0]] + rest;
    assert WithKey(Insert(x, ys, before), key, k) == h + (WithKey(ys1, key, k) + tail) by {
      WithKeyConcat([ys[0]], rest, key, k);
    }
    assert WithKey(ys, key, k) == h + WithKey(ys1, key, k) by {
      assert ys == [ys[0]] + ys1;
      WithKeyConcat([ys[0]], ys1, key, k);
    }
  }

  /** Stability: for every key, the elements with that key keep their input order. */
  lemma {:induction false} SortByStable<T>(xs: seq<T>, key: T -> Key, k: Key)
    ensures WithKey(SortBy(xs, key), key, k) == WithKey(xs, key, k)
  {
    if |xs| > 0 {
      var init, last := xs[..|xs| - 1], xs[|xs| - 1];
      var tail := if key(last) == k then [last] else [];
      assert WithKey(SortBy(xs, key), key, k) == WithKey(init, key, k) + tail by {
        var sorted := SortBy(init, key);
        assert SortBy(xs, key) == Insert(last, sorted, KeyBefore(key));
        SortByStable(init, key, k);
        SortBySorted(init, key);
        InsertWithKey(last, sorted, key, k);
      }
      assert WithKey(xs, key, k) == WithKey(init, key, k) + tail by {
        assert xs == init + [last];
        WithKeyConcat(init, [last], key, k);
        WithKeySingle(last, key, k);
      }
    }
  }

  /** Two relations that agree on the elements of `xs` sort it identically. */
  lemma {:induction false} SortAgrees<T>(xs: seq<T>, r1: (T, T) -> bool, r2: (T, T) -> bool)
    requires forall a, b :: a in xs && b in xs ==> r1(a, b) == r2(a, b)
    ensures Sort(xs, r1) == Sort(xs, r2)
  {
    if |xs| > 0 {
      var init, last := xs[..|xs| - 1], xs[|xs| - 1];
      SortAgrees(init, r1, r2);
      var s := Sort(init, r1);
      forall e | e in s
        ensures e in xs
      {
        assert e in multiset(s);
      }
      InsertAgrees(last, s, r1, r2, xs);
    }
  }

  lemma {:induction false} InsertAgrees<T>(x: T, ys: seq<T>, r1: (T, T) -> bool, r2: (T, T) -> bool, within: seq<T>)
    requires x in within && forall e :: e in ys ==> e in within
    requires forall a, b :: a in within && b in within ==> r1(a, b) == r2(a, b)
    ensures Insert(x, ys, r1) == Insert(x, ys, r2)
  {
    if |ys| > 0 {
      assert ys[0] in ys;
      InsertAgrees(x, ys[1..], r1, r2, within);
    }
  }
}

=== FILE: text.dfy ===
/** Characters and strings with the semantics the site's TypeScript relies on:
    the ECMAScript character classes `\s`, `\w`, `\d` and `.`, and the string
    operations `trim`, `split`, `join`, `startsWith`, `endsWith` and
    `String(n)`. Strings are sequences of characters. */
module Text {

  /** ECMAScript LineTerminator: `.` never matches one, and in multiline mode
      `^` and `$` anchor next to one. */
  predicate IsLineTerminator(c: char) {
    c == '\n' || c == '\r' || c == '\U{2028}' || c == '\U{2029}'
  }

  /** ECMAScript WhiteSpace or LineTerminator: the regular-expression class
      `\s`, and exactly the characters `String.prototype.trim` removes. */
  predicate IsSpace(c: char) {
    || IsLineTerminator(c)
    || c == '\t' || c == '\U{000B}' || c == '\U{000C}' || c == ' '
    || c == '\U{00A0}' || c == '\U{FEFF}' || c == '\U{1680}'
    || ('\U{2000}' <= c <= '\U{200A}')
    || c == '\U{202F}' || c == '\U{205F}' || c == '\U{3000}'
  }

  /** The regular-expression class `\w`: `[A-Za-z0-9_]`. */
  predicate IsWordChar(c: char) {
    ('a' <= c <= 'z') || ('A' <= c <= 'Z') || ('0' <= c <= '9') || c == '_'
  }

  /** The regular-expression class `\d`: `[0-9]`. */
  predicate IsDigit(c: char) {
    '0' <= c <= '9'
  }

  predicate AllSpace(s: string) {
    forall i :: 0 <= i < |s| ==> IsSpace(s[i])
  }

  /** No character of `s` is a line terminator, so `.+` can span all of it. */
  predicate NoTerminator(s: string) {
    forall i :: 0 <= i < |s| ==> !IsLineTerminator(s[i])
  }

  predicate AllChar(s: string, c: char) {
    forall i :: 0 <= i < |s| ==> s[i] == c
  }

  /** `s.startsWith(p)` */
  predicate StartsWith(s: string, p: string) {
    |p| <= |s| && s[..|p|] == p
  }

  /** `s.endsWith(p)` */
  predicate EndsWith(s: string, p: string) {
    |p| <= |s| && s[|s| - |p|..] == p
  }

  /** `w` occurs in `s` at position `j`. */
  predicate PrefixAt(s: string, j: int, w: string) {
    0 <= j && j + |w| <= |s| && s[j..j + |w|] == w
  }

  /** The string made of `n` copies of `c`. */
  function Repeat(c: char, n: nat): (r: string)
    ensures |r| == n
    ensures AllChar(r, c)
  {
    if n == 0 then "" else [c] + Repeat(c, n - 1)
  }

  /** Length of the longest prefix of `s` made only of `c`. */
  function CountLeading(s: string, c: char): (n: nat)
    ensures n <= |s|
    ensures AllChar(s[..n], c)
    ensures n < |s| ==> s[n] != c
  {
    if |s| > 0 && s[0] == c then 1 + CountLeading(s[1..], c) else 0
  }

  /** Length of the longest prefix of `s` made only of `\s` characters: how far
      a greedy `\s+` or `\s*` reaches. */
  function CountLeadingSpaces(s: string): (n: nat)
    ensures n <= |s|
    ensures AllSpace(s[..n])
    ensures n < |s| ==> !IsSpace(s[n])
  {
    if |s| > 0 && IsSpace(s[0]) then 1 + CountLeadingSpaces(s[1..]) else 0
  }

  /** `CountLeading` is the only length with its two properties: a run of
      `c` that stops at the end or before another character is the longest. */
  lemma {:induction false} CountLeadingIs(s: string, c: char, n: nat)
    requires n <= |s| && AllChar(s[..n], c)
    requires n == |s| || s[n] != c
    ensures CountLeading(s, c) == n
    decreases n
  {
    if n > 0 {
      assert s[0] == s[..n][0];
      assert s[1..][..n - 1] == s[..n][1..];
      CountLeadingIs(s[1..], c, n - 1);
    }
  }

  /** Likewise for a run of spaces. */
  lemma {:induction false} CountLeadingSpacesIs(s: string, n: nat)
    requires n <= |s| && AllSpace(s[..n])
    requires n == |s| || !IsSpace(s[n])
    ensures CountLeadingSpaces(s) == n
    decreases n
  {
    if n > 0 {
      assert s[0] == s[..n][0];
      assert s[1..][..n - 1] == s[..n][1..];
      CountLeadingSpacesIs(s[1..], n - 1);
    }
  }

  /** Length of the longest prefix of `s` made only of digits: how far a
      greedy `\d+` reaches. */
  function CountLeadingDigits(s: string): (n: nat)
    ensures n <= |s|
    ensures forall i :: 0 <= i < n ==> IsDigit(s[i])
    ensures n < |s| ==> !IsDigit(s[n])
  {
    if |s| > 0 && IsDigit(s[0]) then 1 + CountLeadingDigits(s[1..]) else 0
  }

  /** Likewise for a run of digits. */
  lemma CountLeadingDigitsIs(s: string, n: nat)
    requires n <= |s| && forall i :: 0 <= i < n ==> IsDigit(s[i])
    requires n == |s| || !IsDigit(s[n])
    ensures CountLeadingDigits(s) == n
  {
  }

  /** `s.trimStart()`: drops the longest all-space prefix. */
  function TrimStart(s: string): (r: string)
    ensures |r| <= |s|
    ensures r == [] || !IsSpace(r[0])
  {
    if |s| > 0 && IsSpace(s[0]) then TrimStart(s[1..]) else s
  }

  /** What `TrimStart` drops is all space, and what it keeps is the rest of
      `s`. (Kept out of `TrimStart`'s own contract: as a postcondition the
      slice equation makes every mention of `Trim` costly.) */
  lemma {:induction false} TrimStartSlice(s: string)
    ensures var r := TrimStart(s); r == s[|s| - |r|..] && AllSpace(s[..|s| - |r|])
  {
    if |s| > 0 && IsSpace(s[0]) {
      TrimStartSlice(s[1..]);
      var r := TrimStart(s);
      assert s[1..][|s| - 1 - |r|..] == s[|s| - |r|..];
      forall i | 0 <= i < |s| - |r|
        ensures IsSpace(s[i])
      {
        if i > 0 {
          assert s[i] == s[1..][..|s| - 1 - |r|][i - 1];
        }
      }
    }
  }

  /** `s.trimEnd()`: drops the longest all-space suffix. */
  function TrimEnd(s: string): (r: string)
    ensures |r| <= |s| && r == s[..|r|]
    ensures AllSpace(s[|r|..])
    ensures r == [] || !IsSpace(r[|r| - 1])
  {
    if |s| > 0 && IsSpace(s[|s| - 1]) then TrimEnd(s[..|s| - 1]) else s
  }

  /** `s.trim()`: `s` without its leading and trailing `\s` characters. The
      result is a contiguous piece of `s` that neither starts nor ends with a
      space, and it is empty exactly when `s` is all space. */
  function Trim(s: string): (r: string)
    ensures |r| <= |s|
    ensures r == [] || (!IsSpace(r[0]) && !IsSpace(r[|r| - 1]))
    ensures r == [] <==> AllSpace(s)
    ensures exists a :: PrefixAt(s, a, r)
  {
    var t := TrimStart(s);
    var r := TrimEnd(t);
    TrimPieces(s, t, r);
    r
  }

  /** The facts `Trim` promises, from those of its two halves. */
  lemma TrimPieces(s: string, t: string, r: string)
    requires t == TrimStart(s) && r == TrimEnd(t)
    ensures r == [] <==> AllSpace(s)
    ensures PrefixAt(s, |s| - |t|, r)
  {
    TrimEmpty(s, t, r);
    TrimSlice(s, t, r);
  }

  lemma TrimEmpty(s: string, t: string, r: string)
    requires t == TrimStart(s) && r == TrimEnd(t)
    ensures r == [] <==> AllSpace(s)
  {
    TrimStartSlice(s);
    var a := |s| - |t|;
    if r == [] {
      assert t == [];
      assert s == s[..a];
    } else {
      assert r[0] == t[0] == s[a];
    }
  }

  lemma TrimSlice(s: string, t: string, r: string)
    requires t == TrimStart(s) && r == TrimEnd(t)
    ensures PrefixAt(s, |s| - |t|, r)
  {
    var a := |s| - |t|;
    assert t == s[a..] by {
      TrimStartSlice(s);
    }
    assert r == t[..|r|];
    PrefixOfSuffix(s, a, r);
  }

  lemma PrefixOfSuffix(s: string, a: nat, r: string)
    requires a <= |s| && |r| <= |s| - a && r == s[a..][..|r|]
    ensures PrefixAt(s, a, r)
  {
    assert s[a..a + |r|] == s[a..][..|r|];
  }

  /** Where `Trim` cuts: the kept piece starts at `TrimOffset(s)`, and all
      that is dropped on either side is space. */
  function TrimOffset(s: string): nat {
    |s| - |TrimStart(s)|
  }

  lemma TrimAround(s: string)
    ensures var a := TrimOffset(s); var r := Trim(s);
      && PrefixAt(s, a, r)
      && (forall i :: 0 <= i < a ==> IsSpace(s[i]))
      && (forall i :: a + |r| <= i < |s| ==> IsSpace(s[i]))
  {
    var t := TrimStart(s);
    var r := TrimEnd(t);
    var a := |s| - |t|;
    assert t == s[a..] && AllSpace(s[..a]) by {
      TrimStartSlice(s);
    }
    assert r == Trim(s);
    TrimSlice(s, t, r);
    forall i | 0 <= i < a
      ensures IsSpace(s[i])
    {
      assert s[i] == s[..a][i];
    }
    forall i | a + |r| <= i < |s|
      ensures IsSpace(s[i])
    {
      assert s[i] == t[|r|..][i - a - |r|];
    }
  }

  /** Trimming an already trimmed string changes nothing. */
  lemma TrimOfTrimmed(s: string)
    requires s == [] || (!IsSpace(s[0]) && !IsSpace(s[|s| - 1]))
    ensures Trim(s) == s
  {
  }

  /** `parts.join(sep)`; an empty list joins to the empty string. */
  function Join(parts: seq<string>, sep: string): (r: string)
    ensures |parts| == 1 ==> r == parts[0]
  {
    if |parts| == 0 then ""
    else if |parts| == 1 then parts[0]
    else parts[0] + sep + Join(parts[1..], sep)
  }

  /** Prepending to the first part prepends to the joined string. */
  lemma JoinConsFirst(x: string, parts: seq<string>, sep: string)
    requires |parts| >= 1
    ensures Join([x + parts[0]] + parts[1..], sep) == x + Join(parts, sep)
  {
    var ps := [x + parts[0]] + parts[1..];
    assert ps[1..] == parts[1..];
  }

  /** `s.split(sep)` for a one-character separator: the pieces between
      separators, so there is always at least one piece, no piece holds the
      separator, and joining the pieces back with the separator gives `s`. */
  function Split(s: string, sep: char): (r: seq<string>)
    ensures |r| >= 1
    ensures forall k :: 0 <= k < |r| ==> sep !in r[k]
    ensures Join(r, [sep]) == s
  {
    if |s| == 0 then [""]
    else
      var rest := Split(s[1..], sep);
      if s[0] == sep then
        assert s == [sep] + s[1..];
        [""] + rest
      else
        JoinConsFirst([s[0]], rest, [sep]);
        assert s == [s[0]] + s[1..];
        [[s[0]] + rest[0]] + rest[1..]
  }

  /** Splitting a joined list gives the list back, when no part holds the
      separator: `split` and `join` are inverse on that domain. */
  lemma {:induction false} SplitJoin(parts: seq<string>, sep: char)
    requires |parts| >= 1
    requires forall k :: 0 <= k < |parts| ==> sep !in parts[k]
    ensures Split(Join(parts, [sep]), sep) == parts
    decreases |parts|, |parts[0]|
  {
    if |parts[0]| == 0 {
      if |parts| == 1 {
      } else {
        var tail := Join(parts[1..], [sep]);
        assert Join(parts, [sep]) == [sep] + tail;
        assert ([sep] + tail)[1..] == tail;
        SplitJoin(parts[1..], sep);
        assert parts == [""] + parts[1..];
      }
    } else {
      var c := parts[0][0];
      var shorter := [parts[0][1..]] + parts[1..];
      assert shorter[1..] == parts[1..];
      assert parts[0] == [c] + parts[0][1..];
      assert c != sep by { assert c in parts[0]; }
      forall k | 0 <= k < |shorter|
        ensures sep !in shorter[k]
      {
        if k == 0 {
          assert forall x :: x in parts[0][1..] ==> x in parts[0];
        } else {
          assert shorter[k] == parts[k];
        }
      }
      SplitJoin(shorter, sep);
      JoinConsFirst([c], shorter, [sep]);
      assert [[c] + shorter[0]] + shorter[1..] == parts;
      var j := Join(parts, [sep]);
      assert j == [c] + Join(shorter, [sep]);
      assert j[1..] == Join(shorter, [sep]);
    }
  }

  /** The decimal digit character for `d`. */
  function DigitChar(d: nat): (c: char)
    requires d < 10
    ensures IsDigit(c)
    ensures c as int - '0' as int == d
  {
    (('0' as int) + d) as char
  }

  /** `String(n)` for a non-negative integer: its decimal digits, with no
      leading zero unless `n` is zero. */
  function NatToString(n: nat): (r: string)
    ensures |r| >= 1
    ensures forall i :: 0 <= i < |r| ==> IsDigit(r[i])
    ensures r[0] == '0' ==> n == 0
  {
    if n < 10 then [DigitChar(n)] else NatToString(n / 10) + [DigitChar(n % 10)]
  }

  /** The number a string of decimal digits denotes: the inverse of
      `NatToString`, also accepting leading zeros. */
  function DigitsValue(s: string): nat
    requires forall i :: 0 <= i < |s| ==> IsDigit(s[i])
  {
    if |s| == 0 then 0
    else
      assert IsDigit(s[|s| - 1]);
      DigitsValue(s[..|s| - 1]) * 10 + (s[|s| - 1] as int - '0' as int)
  }

  /** Leading zeros do not change the value of a digit string. */
  lemma {:induction false} DigitsValueLeadingZeros(z: nat, s: string)
    requires forall i :: 0 <= i < |s| ==> IsDigit(s[i])
    ensures forall i :: 0 <= i < |Repeat('0', z) + s| ==> IsDigit((Repeat('0', z) + s)[i])
    ensures DigitsValue(Repeat('0', z) + s) == DigitsValue(s)
    decreases |s|
  {
    var t := Repeat('0', z) + s;
    if |s| == 0 {
      assert t == Repeat('0', z);
      AllZerosValue(z);
    } else {
      assert t[..|t| - 1] == Repeat('0', z) + s[..|s| - 1];
      DigitsValueLeadingZeros(z, s[..|s| - 1]);
    }
  }

  lemma {:induction false} AllZerosValue(z: nat)
    ensures DigitsValue(Repeat('0', z)) == 0
  {
    if z > 0 {
      var t := Repeat('0', z);
      assert t == [ '0' ] + Repeat('0', z - 1);
      assert t[..|t| - 1] == Repeat('0', z - 1) by {
        var u := Repeat('0', z - 1);
        assert t == u + ['0'] by {
          assert |t| == |u| + 1;
          forall i | 0 <= i < |t|
            ensures t[i] == (u + ['0'])[i]
          {
          }
        }
      }
      AllZerosValue(z - 1);
    }
  }

  /** Reading the decimal string of `n` back gives `n`. */
  lemma {:induction false} NatToStringRoundTrip(n: nat)
    ensures DigitsValue(NatToString(n)) == n
    decreases n
  {
    if n >= 10 {
      var r := NatToString(n);
      assert r[..|r| - 1] == NatToString(n / 10);
      NatToStringRoundTrip(n / 10);
    }
  }
}

=== FILE: tickets.dfy ===
// The ticket views: the ticket selector dialog, the release progress
// banner, the floating "buy" button and the ticket card. Each is reduced to
// the decision it takes from the ticket configuration; prices, labels and
// styling are rendering only.
module Tickets {
  import opened Wrappers
  import opened Types

  /** Every release sold out. */
  predicate AllSoldOut(c: TicketConfig) {
    forall r :: r in ReleaseList(c.releases) ==> r.status == SoldOut
  }

  /** No release named active, or every release coming soon. */
  predicate AllComingSoon(c: TicketConfig) {
    c.activeRelease == "" || forall r :: r in ReleaseList(c.releases) ==> r.status == ComingSoon
  }

  /** The release the configuration names active, if the name is one of the three keys. */
  function ActiveRelease(c: TicketConfig): (r: Option<Release>)
    ensures r.Some? <==> c.activeRelease in {"earlybird", "promo", "regular"}
    ensures r.Some? ==> r.value in ReleaseList(c.releases)
  {
    match c.activeRelease
    case "earlybird" => Some(c.releases.earlybird)
    case "promo" => Some(c.releases.promo)
    case "regular" => Some(c.releases.regular)
    case _ => None
  }

  // ---------------------------------------------------------------------------
  // Ticket selector dialog
  // ---------------------------------------------------------------------------

  /** How the dialog offers one ticket. */
  datatype TicketOffer = SoldOutTicket | ComingSoonTicket | PurchaseLink(url: string)

  function TicketButton(t: TicketType): (o: TicketOffer)
    ensures o.PurchaseLink? <==> t.status != SoldOut && t.status != ComingSoon
    ensures o.PurchaseLink? ==> o.url == t.url
  {
    if t.status == SoldOut then SoldOutTicket
    else if t.status == ComingSoon then ComingSoonTicket
    else PurchaseLink(t.url)
  }

  datatype DialogContent = SoldOutMessage | ComingSoonMessage | TicketButtons(offers: seq<TicketOffer>) | NoContent

  /**
   * The dialog body: the sold-out message first, then the coming-soon message,
   * then the active release's three tickets, and nothing when the active
   * release names no release.
   */
  function SelectorContent(c: TicketConfig): DialogContent {
    if AllSoldOut(c) then SoldOutMessage
    else if AllComingSoon(c) then ComingSoonMessage
    else match ActiveRelease(c)
      case Some(r) => TicketButtons([TicketButton(r.tickets.fullpass), TicketButton(r.tickets.day1), TicketButton(r.tickets.day2)])
      case None => NoContent
  }

  /**
   * The dialog shows the sold-out message iff every release is sold out; the
   * coming-soon message iff not all are sold out and none is named or all are
   * coming soon; otherwise the named release's tickets in the order full pass,
   * day 1, day 2, or nothing when the name is not a release key.
   */
  lemma SelectorPriority(c: TicketConfig)
    ensures var d := SelectorContent(c);
      && (d == SoldOutMessage <==> AllSoldOut(c))
      && (d == ComingSoonMessage <==> !AllSoldOut(c) && AllComingSoon(c))
      && (d.TicketButtons? <==> !AllSoldOut(c) && !AllComingSoon(c) && ActiveRelease(c).Some?)
      && (d == NoContent <==> !AllSoldOut(c) && !AllComingSoon(c) && ActiveRelease(c).None?)
      && (d.TicketButtons? ==>
            |d.offers| == 3
            && forall k :: 0 <= k < 3 ==> d.offers[k] == TicketButton(TicketList(ActiveRelease(c).value.tickets)[k]))
  {
  }

  /** Sold-out takes precedence: with every release sold out, the named release is irrelevant. */
  lemma SoldOutWins(c: TicketConfig, name: string)
    requires AllSoldOut(c)
    ensures SelectorContent(c.(activeRelease := name)) == SoldOutMessage
  {
  }

  /** A release that is sold out and one that is coming soon together put the named release's tickets on offer. */
  lemma MixedReleasesOfferTickets(c: TicketConfig)
    requires c.activeRelease == "promo"
    requires c.releases.earlybird.status == SoldOut && c.releases.promo.status == Active
    ensures SelectorContent(c).TicketButtons?
    ensures SelectorContent(c).offers[0] == TicketButton(c.releases.promo.tickets.fullpass)
  {
    assert c.releases.promo in ReleaseList(c.releases);
    assert c.releases.earlybird in ReleaseList(c.releases);
  }

  // ---------------------------------------------------------------------------
  // Release progress banner
  // ---------------------------------------------------------------------------

  datatype StepState = Completed | ActiveStep | Upcoming

  function StepStateOf(r: Release): (s: StepState)
    ensures s == Completed <==> r.status == SoldOut
    ensures s == ActiveStep <==> r.status == Active
  {
    if r.status == SoldOut then Completed
    else if r.status == Active then ActiveStep
    else Upcoming
  }

  /** The three steps, in release order. */
  function Steps(c: TicketConfig): (s: seq<StepState>)
    ensures |s| == 3
    ensures forall k :: 0 <= k < 3 ==> s[k] == StepStateOf(ReleaseList(c.releases)[k])
  {
    var rs := ReleaseList(c.releases);
    [StepStateOf(rs[0]), StepStateOf(rs[1]), StepStateOf(rs[2])]
  }

  /** The index of the first step in state `st`, or -1. */
  function FindIndex(s: seq<StepState>, st: StepState): (k: int)
    ensures -1 <= k < |s|
    ensures k >= 0 ==> s[k] == st && forall m :: 0 <= m < k ==> s[m] != st
    ensures k == -1 <==> st !in s
  {
    if |s| == 0 then -1
    else if s[0] == st then 0
    else
      var k := FindIndex(s[1..], st);
      assert st in s <==> st in s[1..];
      if k == -1 then -1 else k + 1
  }

  function CountState(s: seq<StepState>, st: StepState): (n: nat)
    ensures n <= |s|
    ensures n == |s| <==> forall k :: 0 <= k < |s| ==> s[k] == st
  {
    if |s| == 0 then 0 else (if s[0] == st then 1 else 0) + CountState(s[1..], st)
  }

  /**
   * The filled part of the progress bar, in halves of the track: full when all
   * three steps are completed, empty with no active step, and otherwise up to
   * the first active step.
   */
  function ProgressHalves(c: TicketConfig): nat {
    var s := Steps(c);
    var activeIdx := FindIndex(s, ActiveStep);
    if CountState(s, Completed) == 3 then 2
    else if activeIdx == -1 then 0
    else activeIdx
  }

  /**
   * Progress is 2/2 exactly when every release is sold out; otherwise it is
   * the position of the first active release (0, 1/2 or 1) or 0 when none is
   * active.
   */
  lemma ProgressCases(c: TicketConfig)
    ensures var p := ProgressHalves(c);
      var rs := ReleaseList(c.releases);
      && p <= 2
      && (AllSoldOut(c) ==> p == 2)
      && (!AllSoldOut(c) && (forall k :: 0 <= k < 3 ==> rs[k].status != Active) ==> p == 0)
      && (forall k :: 0 <= k < 3 && rs[k].status == Active && (forall m :: 0 <= m < k ==> rs[m].status != Active)
            ==> p == k)
  {
    var s := Steps(c);
    var rs := ReleaseList(c.releases);
    assert AllSoldOut(c) <==> forall k :: 0 <= k < 3 ==> s[k] == Completed by {
      assert forall r :: r in rs <==> r == rs[0] || r == rs[1] || r == rs[2];
    }
  }

  function StepStatusText(s: StepState): string {
    match s
    case Completed => "sold_out"
    case ActiveStep => "available"
    case Upcoming => "coming_soon"
  }

  /** The step label is the release's status, spelled as a ticket status for the active step. */
  lemma StepLabels(r: Release)
    requires ValidReleaseStatus(r.status)
    ensures StepStatusText(StepStateOf(r)) == (match r.status
      case SoldOut => "sold_out"
      case Active => "available"
      case _ => "coming_soon")
  {
  }

  // ---------------------------------------------------------------------------
  // Floating "buy tickets" button
  // ---------------------------------------------------------------------------

  datatype FloatingButton = FloatingButton(disabled: bool, caption: string, modalOpen: bool)

  function FloatingInit(c: TicketConfig): (b: FloatingButton)
    ensures b.disabled <==> AllSoldOut(c)
    ensures b.caption == (if AllSoldOut(c) then "sold_out" else "buy_now")
    ensures !b.modalOpen
  {
    FloatingButton(AllSoldOut(c), if AllSoldOut(c) then "sold_out" else "buy_now", false)
  }

  /** A click opens the dialog unless every release is sold out. */
  function FloatingClick(c: TicketConfig, b: FloatingButton): FloatingButton {
    if AllSoldOut(c) then b else b.(modalOpen := true)
  }

  /** The dialog's close action. */
  function FloatingClose(b: FloatingButton): FloatingButton {
    b.(modalOpen := false)
  }

  /**
   * A click opens the dialog iff the button is enabled, and closing always
   * leaves it shut; neither changes what the button shows.
   */
  lemma FloatingClickOpens(c: TicketConfig)
    ensures var b := FloatingInit(c);
      && (FloatingClick(c, b).modalOpen <==> !b.disabled)
      && !FloatingClose(FloatingClick(c, b)).modalOpen
      && FloatingClick(c, b).(modalOpen := false) == b
  {
  }

  /** The dialog opened from the floating button never shows the sold-out message. */
  lemma FloatingDialogNotSoldOut(c: TicketConfig)
    requires FloatingClick(c, FloatingInit(c)).modalOpen
    ensures SelectorContent(c) != SoldOutMessage
  {
  }

  // ---------------------------------------------------------------------------
  // Ticket card
  // ---------------------------------------------------------------------------

  datatype TicketKind = FullPass | Day1 | Day2

  datatype Include = Entry | BothDays | DrinkCard

  /** What a ticket includes: entry, both days for the full pass, and the drink card. */
  function Includes(kind: TicketKind): (r: seq<Include>)
    ensures |r| == if kind == FullPass then 3 else 2
    ensures r[0] == Entry && r[|r| - 1] == DrinkCard
    ensures BothDays in r <==> kind == FullPass
  {
    [Entry] + (if kind == FullPass then [BothDays] else []) + [DrinkCard]
  }

  datatype CardAction = BuyLink(url: string) | SoldOutBlock | ComingSoonBlock

  /** The card's button: a purchase link only for an available ticket. */
  function CardCta(t: TicketType): (a: CardAction)
    ensures a.BuyLink? <==> t.status == Available
    ensures a.BuyLink? ==> a.url == t.url
  {
    if t.status == Available then BuyLink(t.url)
    else if t.status == SoldOut then SoldOutBlock
    else ComingSoonBlock
  }

  /** The card's three status flags: available, sold out, coming soon. */
  datatype CardFlags = CardFlags(isAvailable: bool, isSoldOut: bool, isComingSoon: bool)

  function FlagsOf(t: TicketType): CardFlags {
    CardFlags(t.status == Available, t.status == SoldOut, t.status == ComingSoon)
  }

  /**
   * At most one flag is ever set, and one is set exactly when the status is a
   * declared ticket status.
   */
  lemma ExactlyOneFlag(t: TicketType)
    ensures var f := FlagsOf(t);
      && !(f.isAvailable && f.isSoldOut) && !(f.isAvailable && f.isComingSoon) && !(f.isSoldOut && f.isComingSoon)
      && ((f.isAvailable || f.isSoldOut || f.isComingSoon) <==> ValidTicketStatus(t.status))
  {
  }

  /**
   * The card and the dialog agree on every declared ticket status: the card's
   * buy link is the dialog's purchase link and its blocks the dialog's.
   */
  lemma CardMatchesDialog(t: TicketType)
    requires ValidTicketStatus(t.status)
    ensures CardCta(t).BuyLink? <==> TicketButton(t).PurchaseLink?
    ensures CardCta(t) == SoldOutBlock <==> TicketButton(t) == SoldOutTicket
  {
  }

  /**
   * Outside the declared ticket statuses the two views part ways: a ticket
   * whose status is the release status "active" gets a purchase link in the
   * dialog but a coming-soon block on its card.
   */
  lemma UndeclaredStatusDiverges(t: TicketType)
    requires t.status == Active
    ensures TicketButton(t) == PurchaseLink(t.url)
    ensures CardCta(t) == ComingSoonBlock
  {
  }
}

=== FILE: types.dfy ===
// The content records the site reads from its content directory: artists,
// the lineup reveal configuration, tickets and releases, sponsors, blog
// posts, FAQ entries and gallery editions.
//
// The records arrive as unchecked JSON or frontmatter, so fields whose
// declared type is a closed set of literals (a day, a phase, a status, a
// tier) are modelled with a constructor for every declared literal plus one
// for "anything else"; the declared shapes become the validity predicates
// below.
module Types {

  /** A pair of translations, Italian and English. */
  datatype Localized = Localized(it: string, en: string)

  const EmptyLocalized := Localized("", "")

  datatype Social = Social(instagram: string, spotify: string, soundcloud: string)

  datatype Artist = Artist(
    name: string,
    slug: string,
    day: int,
    time: string,
    genre: string,
    photo: string,
    bio: string,
    revealed: bool,
    revealDate: string,
    order: int,
    social: Social)

  /** An artist plays on festival day 1 or day 2. */
  predicate ValidArtist(a: Artist) {
    a.day == 1 || a.day == 2
  }

  /** The reveal phase of the lineup; `UnknownPhase` stands for any other JSON value. */
  datatype Phase = ComingSoonPhase | RevealingPhase | CompletePhase | UnknownPhase(text: string)

  predicate ValidPhase(p: Phase) {
    !p.UnknownPhase?
  }

  datatype LineupConfig = LineupConfig(
    phase: Phase,
    totalSlots: int,
    newBadgeDays: int,
    comingSoonMessage: Localized,
    mysteryCardMessage: Localized)

  /**
   * Ticket and release statuses share their spelling where they overlap:
   * a ticket is `available` while a release is `active`.
   */
  datatype Status = Available | Active | SoldOut | ComingSoon | OtherStatus(text: string)

  predicate ValidTicketStatus(s: Status) {
    s == Available || s == SoldOut || s == ComingSoon
  }

  predicate ValidReleaseStatus(s: Status) {
    s == Active || s == SoldOut || s == ComingSoon
  }

  datatype TicketType = TicketType(
    caption: Localized,   // `label` in the source; `label` is a Dafny keyword
    price: int,
    currency: string,
    status: Status,
    url: string)

  /** Every release carries exactly the full pass and the two day tickets. */
  datatype Tickets = Tickets(fullpass: TicketType, day1: TicketType, day2: TicketType)

  datatype Release = Release(
    caption: Localized,   // `label` in the source; `label` is a Dafny keyword
    description: Localized,
    status: Status,
    tickets: Tickets)

  /** Exactly three releases; the active one is named by an unconstrained string. */
  datatype Releases = Releases(earlybird: Release, promo: Release, regular: Release)

  datatype TicketConfig = TicketConfig(activeRelease: string, releases: Releases)

  predicate ValidRelease(r: Release) {
    && ValidReleaseStatus(r.status)
    && ValidTicketStatus(r.tickets.fullpass.status)
    && ValidTicketStatus(r.tickets.day1.status)
    && ValidTicketStatus(r.tickets.day2.status)
  }

  predicate ValidTicketConfig(c: TicketConfig) {
    ValidRelease(c.releases.earlybird) && ValidRelease(c.releases.promo) && ValidRelease(c.releases.regular)
  }

  /** The releases in their fixed order: early bird, promo, regular. */
  function ReleaseList(rs: Releases): (r: seq<Release>)
    ensures |r| == 3
    ensures r[0] == rs.earlybird && r[1] == rs.promo && r[2] == rs.regular
  {
    [rs.earlybird, rs.promo, rs.regular]
  }

  /** The tickets of a release in their fixed order: full pass, day 1, day 2. */
  function TicketList(ts: Tickets): (r: seq<TicketType>)
    ensures |r| == 3
    ensures r[0] == ts.fullpass && r[1] == ts.day1 && r[2] == ts.day2
  {
    [ts.fullpass, ts.day1, ts.day2]
  }

  datatype Tier = Gold | Silver | Bronze | OtherTier(text: string)

  datatype Sponsor = Sponsor(name: string, logo: string, url: string, tier: Tier)

  predicate ValidSponsor(s: Sponsor) {
    !s.tier.OtherTier?
  }

  datatype BlogPost = BlogPost(
    title: string,
    date: string,
    excerpt: string,
    image: string,
    tags: seq<string>,
    locale: string,
    slug: string,
    content: string)

  datatype Faq = Faq(question: string, answer: string)

  datatype GalleryImage = GalleryImage(src: string, alt: string, edition: int, order: int)

  datatype GalleryEdition = GalleryEdition(year: int, theme: string, images: seq<GalleryImage>)

  /**
   * The two status vocabularies overlap in `sold_out` and `coming_soon` only:
   * `available` is a ticket status and never a release status, `active` the
   * reverse.
   */
  lemma StatusVocabularies(s: Status)
    ensures ValidTicketStatus(s) && ValidReleaseStatus(s) <==> s == SoldOut || s == ComingSoon
    ensures ValidTicketStatus(s) && !ValidReleaseStatus(s) <==> s == Available
    ensures ValidReleaseStatus(s) && !ValidTicketStatus(s) <==> s == Active
  {
  }
}

=== FILE: utils.dfy ===
// The site's small shared helpers: the "newly revealed" badge test, the
// locale tag used for date formatting, and the choice of a translation.
module Utils {
  import opened Wrappers
  import opened Types

  /** Milliseconds in a day: 1000 * 60 * 60 * 24. */
  const MsPerDay: int := 86_400_000

  /**
   * Whether an artist revealed at instant `revealAt` still carries the "new"
   * badge at instant `now` (both in milliseconds). An unparsable reveal date
   * is `None`: its time is NaN, every comparison with it is false, and so is
   * the result. The elapsed time is compared in (fractional) days, inclusively.
   */
  function IsNewlyRevealed(revealAt: Option<int>, now: int, newBadgeDays: int): (r: bool)
    ensures r <==> revealAt.Some? && revealAt.value <= now && now - revealAt.value <= newBadgeDays * MsPerDay
  {
    match revealAt
    case None => false
    case Some(t) =>
      if t > now then false
      else ElapsedWithin(now - t, newBadgeDays)
  }

  /** Whether `elapsed` milliseconds, counted in fractional days, are at most `days`. */
  function ElapsedWithin(elapsed: int, days: int): (r: bool)
    ensures r <==> elapsed <= days * MsPerDay
  {
    DaysWithin(elapsed, days);
    elapsed as real / MsPerDay as real <= days as real
  }

  /** Comparing elapsed fractional days with a whole number of days is comparing milliseconds. */
  lemma DaysWithin(elapsed: int, days: int)
    ensures (elapsed as real / MsPerDay as real <= days as real) <==> elapsed <= days * MsPerDay
  {
    var m := MsPerDay as real;
    var q := elapsed as real / m;
    assert q * m == elapsed as real;
    if q <= days as real {
      assert q * m <= days as real * m;
    } else {
      assert q * m > days as real * m;
    }
  }

  /** A revealAt at this very instant is new exactly when the badge window is not negative. */
  lemma RevealedNowIsNew(now: int, newBadgeDays: int)
    ensures IsNewlyRevealed(Some(now), now, newBadgeDays) <==> newBadgeDays >= 0
  {
  }

  /** A revealAt in the future is never new. */
  lemma FutureRevealNotNew(revealAt: int, now: int, newBadgeDays: int)
    requires revealAt > now
    ensures !IsNewlyRevealed(Some(revealAt), now, newBadgeDays)
  {
  }

  /** A negative badge window makes no revealAt date new. */
  lemma NegativeWindowNeverNew(revealAt: Option<int>, now: int, newBadgeDays: int)
    requires newBadgeDays < 0
    ensures !IsNewlyRevealed(revealAt, now, newBadgeDays)
  {
  }

  /** The badge lasts exactly the window: new on its last millisecond, gone one millisecond later. */
  lemma BadgeBoundary(revealAt: int, newBadgeDays: int)
    requires newBadgeDays >= 0
    ensures IsNewlyRevealed(Some(revealAt), revealAt + newBadgeDays * MsPerDay, newBadgeDays)
    ensures !IsNewlyRevealed(Some(revealAt), revealAt + newBadgeDays * MsPerDay + 1, newBadgeDays)
  {
  }

  /** The short locale codes with a full BCP 47 tag. */
  const LocaleMap: map<string, string> := map["it" := "it-IT", "en" := "en-US"]

  /** The locale used for formatting dates: the mapped tag, or the code itself when unmapped. */
  function ResolveLocale(locale: string): (r: string)
    ensures locale == "it" ==> r == "it-IT"
    ensures locale == "en" ==> r == "en-US"
    ensures locale != "it" && locale != "en" ==> r == locale
  {
    if locale in LocaleMap then LocaleMap[locale] else locale
  }

  /** Only the two mapped codes change; every other code passes through. */
  lemma ResolveLocaleFixed(locale: string)
    ensures ResolveLocale(locale) == locale <==> locale != "it" && locale != "en"
  {
  }

  /** The English text for exactly the code `en`, the Italian text for any other code. */
  function LocalizedString(obj: Localized, locale: string): (r: string)
    ensures r == obj.en || r == obj.it
  {
    if locale == "en" then obj.en else obj.it
  }

  /** When the two translations differ, the English one is chosen iff the locale is `en`. */
  lemma LocalizedChoice(obj: Localized, locale: string)
    requires obj.it != obj.en
    ensures LocalizedString(obj, locale) == obj.en <==> locale == "en"
    ensures LocalizedString(obj, locale) == obj.it <==> locale != "en"
  {
  }
}

=== FILE: wrappers.dfy ===
/** The optional-value type used wherever the site reads something that may be
    absent: a content file that does not exist, a frontmatter field that was not
    written, a JSON file that did not parse. */
module Wrappers {

  datatype Option<+T> = None | Some(value: T) {

    /** The value, or `default` when absent: JavaScript's `x ?? default` for a
        field that is either present or `undefined`/`null`. */
    function GetOr(default: T): (r: T)
      ensures Some? ==> r == value
      ensures None? ==> r == default
    {
      match this
      case Some(v) => v
      case None => default
    }
  }
}
